=== FILE: README.md ===
# steinhorst-dev core, modelled in Dafny

This project models the logic of the steinhorst.dev portfolio site (Nuxt)
that does not depend on the browser or on the network:

- **Markdown to PDF content.** The converter in
  `usePdfEasyFormatter.ts` turns the AI-written markdown summary into
  pdfeasy content blocks. It handles tables with aligned, padded monospace
  columns, blockquotes, rules, three heading levels, blank lines, list
  items and `**bold**` runs. The older copy in `usePdfEasy.ts`
  (`replaceParsedLine` plus its own loop) is modelled as a variant. In
  that variant the older copy's star class and list bullet are replaced by
  the formatter's, because as written they are mis-encoded (see
  "## Findings"). With that replacement, the variant is proved to agree
  with the formatter on every document whose lines start at column zero,
  and to disagree on an indented heading. The older copy as written does
  not agree: `GarbledSymbols` models its normaliser and shows where.
- **PDF file naming and metadata.** This covers `createSafeFilename`,
  `ensurePdfExtension`, the filename and export-name choice, and the
  metadata merge with its document-info dictionary.
- **The Strapi CMS proxies.** `server/api/request.ts` builds the Strapi
  `populate[...]` parameters and shapes the response (`data` unwrapping,
  field picking, the 400/500/502 errors). `server/api/request-proxy.ts`
  is the simpler proxy. `useStrapi.ts` is the client that calls it
  (`cmsRequest`, `buildImageUrl`).
- **Small composables.** These are the slug/id generator, the skill search
  and the scroll-hash tracker (ratio bookkeeping, most-visible section,
  hash resolution and URL update).

Strings are `seq<char>` over Unicode code points. Whitespace is the
ECMAScript `WhiteSpace`/`LineTerminator` set (`Text.IsSpace`). JSON values
are the `Json.Json` datatype. Each regular expression in the source is
modelled as a function on strings, and a lemma connects it to a
declarative reading of the pattern. Module layout:

| module | models |
|---|---|
| `Text` | `trim`, `trimStart`, `trimEnd`, `split`, `join`, `toLowerCase` (ASCII), `includes`, decimal numerals |
| `Symbols` | `normalizeSymbols` |
| `GarbledSymbols` | the older converter's symbol normaliser as written (see Findings) |
| `Emphasis` | `**x**` / `*x*` matching and unwrapping, bold segmentation |
| `Table` | `isTableDivider`, `splitTableRow`, `normalizeTableCell`, `padText`, `parseTableBlock` |
| `LineSyntax` | the per-line marker regexes and the blocks a line emits |
| `Formatter` | `convertMarkdownToPdfEasy` of the formatter |
| `Legacy` | `replaceParsedLine` and `convertMarkdownToPdfEasy` of `usePdfEasy.ts` |
| `PdfDocument` | file naming, defaults, metadata merge and document info |
| `Json`, `Populate`, `Requests`, `Strapi` | the CMS proxies and client |
| `SafeId`, `Skills`, `Scroll` | the id generator, skill search, scroll hashes |

## Model

| member | source | states |
|---|---|---|
| Symbols.NormalizeSymbols | app/composables/usePdfEasyFormatter.ts:39-42 | the result has no backtick and no decorative star glyph and is never longer than the input |
| Symbols.ReplaceStars | app/composables/usePdfEasyFormatter.ts:42 | every star glyph becomes a bullet at the same position; every other character is kept |
| Symbols.NormalizeSymbolsIdempotent | app/composables/usePdfEasyFormatter.ts:39-42 | normalising twice equals normalising once |
| Symbols.NormalizeSymbolsFixedIff | app/composables/usePdfEasyFormatter.ts:39-42 | a string is left unchanged exactly when it has no backtick and no star glyph |
| Symbols.NormalizeSymbolsConcat | app/composables/usePdfEasyFormatter.ts:39-42 | normalising distributes over concatenation, because the rewrite works per character |
| Symbols.ReplaceStarsWithout | app/composables/usePdfEasyFormatter.ts:42 | deleting plain `*` commutes with replacing star glyphs |
| Formatter.ReplaceCrLf | app/composables/usePdfEasyFormatter.ts:64 | CRLF replacement never lengthens the text |
| Formatter.ReplaceCrLfToCrLf | app/composables/usePdfEasyFormatter.ts:64 | replacing CRLF undoes writing every LF as CRLF, for text without CR |
| Formatter.ReplaceCrLfDropsOnlyCr | app/composables/usePdfEasyFormatter.ts:64 | CRLF replacement removes only CR characters: with all CRs deleted, input and output agree |
| Formatter.ReplaceCrLfPlain | app/composables/usePdfEasyFormatter.ts:64 | text without CR is unchanged |
| Formatter.Lines | app/composables/usePdfEasyFormatter.ts:64 | there is at least one line and no line contains LF |
| Formatter.LinesJoin | app/composables/usePdfEasyFormatter.ts:64 | joining the lines with LF gives back the CRLF-normalised markdown, or the markdown itself when it has no CR |
| Formatter.ConvertTable | app/composables/usePdfEasyFormatter.ts:182-187 | a line containing `\|` followed by a divider line emits the rendered table block, and conversion resumes at the first line after the table's rows |
| Formatter.BlankBeforeHeading | app/composables/usePdfEasyFormatter.ts:227-229 | a blank line directly before a `#`..`###` heading line emits nothing |
| Formatter.BlankElsewhere | app/composables/usePdfEasyFormatter.ts:227-231 | any other blank line emits exactly one line break |
| Formatter.ConvertPerLine | app/composables/usePdfEasyFormatter.ts:177-265 | without tables the output is the in-order concatenation of each line's blocks |
| Formatter.ConvertWellFormed | app/composables/usePdfEasyFormatter.ts:177-265 | no emitted text run is empty and no stack is empty |
| Formatter.TableWellFormed | app/composables/usePdfEasyFormatter.ts:146-174 | every table block is well formed |
| LineSyntax.MarkerContent | app/composables/usePdfEasyFormatter.ts:190-236 | a captured `(.*)` group has no line terminator and no leading whitespace |
| LineSyntax.MarkerContentSound | app/composables/usePdfEasyFormatter.ts:190-236 | when a marker regex `^M\s+(.*)$` matches, the key really is marker, whitespace, content |
| LineSyntax.MarkerContentComplete | app/composables/usePdfEasyFormatter.ts:190-236 | every such decomposition of the key is found, with the captured text trimmed at the start |
| LineSyntax.IsRuleIff | app/composables/usePdfEasyFormatter.ts:199 | a line is a rule exactly when it is `---` with only whitespace around it |
| LineSyntax.RuleAt | app/composables/usePdfEasyFormatter.ts:199 | a rule line yields the position of its `---` with whitespace on both sides |
| LineSyntax.RuleFrom | app/composables/usePdfEasyFormatter.ts:199 | whitespace, `---`, whitespace is a rule |
| LineSyntax.Classify | app/composables/usePdfEasyFormatter.ts:190-239 | headings have level 1 to 3, and a line is blank exactly when its key is empty |
| LineSyntax.ClassifyHeading | app/composables/usePdfEasyFormatter.ts:202-224 | a line is a level-n heading exactly when its key is n hashes, whitespace and the rest (no quote or rule first) |
| LineSyntax.ClassifyHeadingAhead | app/composables/usePdfEasyFormatter.ts:202-229 | a line classifies as a heading exactly when the blank-line lookahead `^#{1,3}\s+` would see a heading |
| LineSyntax.HeadingAtUnique | app/composables/usePdfEasyFormatter.ts:202-224 | a key is a heading of at most one level |
| LineSyntax.HeadingMarker | app/composables/usePdfEasyFormatter.ts:202-224 | the level-n marker regex matches exactly when the key starts with n hashes and then whitespace |
| LineSyntax.HeadingNotEarlier | app/composables/usePdfEasyFormatter.ts:190-202 | a heading key is neither a blockquote nor a rule, so the earlier branches do not take it |
| LineSyntax.Render | app/composables/usePdfEasyFormatter.ts:190-264 | a rule emits nothing; every other kind emits one or two well-formed blocks |
| LineSyntax.ParagraphBlocks | app/composables/usePdfEasyFormatter.ts:241-264 | a paragraph is one block: a bare run only for an empty line, otherwise a stack |
| LineSyntax.ParagraphSpelling | app/composables/usePdfEasyFormatter.ts:241-264 | the runs of a paragraph spell its text with each `**x**` unwrapped and one trailing newline |
| LineSyntax.SegmentRuns | app/composables/usePdfEasyFormatter.ts:256-262 | each segment becomes a run in its style, and only the last one gains a newline |
| Emphasis.NextStar | app/composables/usePdfEasyFormatter.ts:87-244 | finds the first `*` at or after a position |
| Emphasis.DelimitedIff | app/composables/usePdfEasyFormatter.ts:87-244 | the lazy `\*{k}([^*]+?)\*{k}` matches at the start of a text exactly when the model's delimiter test holds, and its capture is the model's inner text |
| Emphasis.MatchPieces | app/composables/usePdfEasyFormatter.ts:87-88 | a match is k stars, the capture, and k stars |
| Emphasis.Unwrap | app/composables/usePdfEasyFormatter.ts:87-88 | `replace(/\*{k}([^*]+?)\*{k}/g, '$1')` never lengthens the text, keeps non-empty text non-empty and adds no new characters |
| Emphasis.UnwrapDropsOnlyStars | app/composables/usePdfEasyFormatter.ts:87-88 | unwrapping deletes only `*` characters |
| Emphasis.UnwrapStarFree | app/composables/usePdfEasyFormatter.ts:87-88 | star-free text is unchanged |
| Emphasis.UnwrapShrinks | app/composables/usePdfEasyFormatter.ts:87-88 | an unwrap that keeps the length changes nothing, so any match shortens the text |
| Emphasis.Segments | app/composables/usePdfEasyFormatter.ts:242-251 | no segment is empty, no bold segment holds `*`, and there are no segments exactly when the text is empty |
| Emphasis.SegmentsSpellUnwrap | app/composables/usePdfEasyFormatter.ts:242-251 | the segments spell the text with every `**x**` unwrapped |
| Table.DividerCellShape | app/composables/usePdfEasyFormatter.ts:72 | a divider cell is `:?-{3,}:?` |
| Table.ShapeIsDividerCell | app/composables/usePdfEasyFormatter.ts:72 | every `:?-{3,}:?` string is a divider cell |
| Table.DividerCellsIff | app/composables/usePdfEasyFormatter.ts:68-73 | a divider has some non-empty cell, and every non-empty cell is a divider cell |
| Table.AlignmentOf | app/composables/usePdfEasyFormatter.ts:109-115 | cell alignment is left, center or right, never anything else |
| Table.AlignmentOfDividerFor | app/composables/usePdfEasyFormatter.ts:109-115 | the divider written for an alignment is a divider cell and reads back as that alignment |
| Table.DividerRowRoundTrip | app/composables/usePdfEasyFormatter.ts:68-115 | a formatted divider row is recognised as a divider, and splitting it returns one cell per column with the original alignments |
| Table.DropEmptyEnds | app/composables/usePdfEasyFormatter.ts:77-81 | only an empty first and an empty last piece are dropped; inner pieces are kept in order |
| Table.SplitFormatRow | app/composables/usePdfEasyFormatter.ts:75-82 | splitting a row written as `\| a \| b \|` returns its cells, for trimmed cells without pipes |
| Table.NormalizeCell | app/composables/usePdfEasyFormatter.ts:84-90 | a normalised cell has no backtick and no star glyph and is never longer |
| Table.NormalizeCellStarFree | app/composables/usePdfEasyFormatter.ts:84-90 | on text without `*` the cell normaliser is the symbol normaliser |
| Table.NormalizeCellDropsOnlyStars | app/composables/usePdfEasyFormatter.ts:84-90 | the cell normaliser differs from the symbol normaliser only by deleted `*` characters |
| Table.PadText | app/composables/usePdfEasyFormatter.ts:92-103 | padding reaches the width (or keeps longer text) and is spaces, the text, spaces, split as the alignment asks |
| Table.LeadingPad | app/composables/usePdfEasyFormatter.ts:96-102 | the leading padding never exceeds the gap |
| Table.TrimPadText | app/composables/usePdfEasyFormatter.ts:92-103 | trimming padded text equals trimming the text |
| Table.NormalizeRow | app/composables/usePdfEasyFormatter.ts:129-136 | a data row gets exactly the header's cell count: normalised cells, then empty ones |
| Table.MaxDataLength | app/composables/usePdfEasyFormatter.ts:139-144 | the column maximum bounds every data cell and is attained, unless it is zero |
| Table.ColumnWidths | app/composables/usePdfEasyFormatter.ts:139-144 | each width bounds the header and every data cell of its column and equals one of them |
| Table.PaddedCells | app/composables/usePdfEasyFormatter.ts:146-160 | each cell is padded to its column width with its column's alignment |
| Table.PaddedLength | app/composables/usePdfEasyFormatter.ts:146-160 | padded cells fill exactly the sum of the widths |
| Table.RenderLineWidth | app/composables/usePdfEasyFormatter.ts:146-163 | every rendered line is as wide as the widths plus ` \| ` separators |
| Table.Separator | app/composables/usePdfEasyFormatter.ts:162-163 | the separator is all hyphens, at least 3 long, and as long as a rendered line otherwise |
| Table.RowsEnd | app/composables/usePdfEasyFormatter.ts:117-127 | the row scan stops inside the lines and never before where it started |
| Table.RowsEndRows | app/composables/usePdfEasyFormatter.ts:117-127 | every line scanned is a non-divider line containing `\|`, and the line where scanning stopped is not |
| Table.MakeLayout | app/composables/usePdfEasyFormatter.ts:106-144 | the layout normalises the header and every row, takes alignments from the divider, and its widths bound all cells |
| Table.RenderTable | app/composables/usePdfEasyFormatter.ts:165-174 | a table is a line break, the bold header, the separator, one line per row, and a line break |
| Table.LayoutLinesAligned | app/composables/usePdfEasyFormatter.ts:139-160 | the header and every data line render to the same width |
| Table.ParseTableBlock | app/composables/usePdfEasyFormatter.ts:105-175 | the block resumes after the row scan and holds four blocks more than there are rows |
| Table.ParseTableBlockRows | app/composables/usePdfEasyFormatter.ts:105-175 | the block's header, separator and data lines come from the header line, the divider and each scanned line, and all render at one width |
| Legacy.ReplaceParsedLine | app/composables/usePdfEasy.ts:88-160 | every block emitted for a line is well formed (with the formatter's normaliser and bullet in place of the mis-encoded ones) |
| Legacy.ReplaceParsedLineAgrees | app/composables/usePdfEasy.ts:88-160 | on a line that starts at column zero, the legacy per-line output, with the star class and bullet corrected, equals the formatter's |
| Legacy.LineStep | app/composables/usePdfEasy.ts:293-317 | outside a table, a blank line before a heading is skipped and any other line is rendered on its own |
| Legacy.ConvertAgrees | app/composables/usePdfEasy.ts:293-317 | for documents whose lines all start at column zero, the legacy converter with the star class and bullet corrected produces the same content as the formatter |
| Legacy.IndentedHeadingFormatter | app/composables/usePdfEasyFormatter.ts:179-223 | the formatter renders ` # A` as a level-1 heading |
| Legacy.IndentedHeadingLegacy | app/composables/usePdfEasy.ts:89-159 | the legacy converter renders the same line as a paragraph stack, because it keeps the leading space |
| Legacy.MarkerAfterSpace | app/composables/usePdfEasy.ts:89-129 | a key starting with a space holds no marker |
| GarbledSymbols.GarbledNormalizeSymbols | app/composables/usePdfEasy.ts:84-87 | text without backticks and without characters of the written class is unchanged |
| GarbledSymbols.GarbledStars | app/composables/usePdfEasy.ts:87 | each character of the written class becomes the three-character written bullet; text without such characters is unchanged |
| GarbledSymbols.GarbledMissesStar | app/composables/usePdfEasy.ts:87 | the written normaliser leaves U+2B50 untouched, while the intended one makes it a bullet |
| GarbledSymbols.GarbledListMarker | app/composables/usePdfEasy.ts:128-131 | the written list marker is itself rewritten by the written normaliser |
| GarbledSymbols.GarbledNotIdempotent | app/composables/usePdfEasy.ts:87 | the written normaliser is not idempotent |
| GarbledSymbols.ListMarkerKept | app/composables/usePdfEasyFormatter.ts:237-239 | the intended normaliser keeps the `• ` marker and star-free item text |
| PdfDocument.DropForbidden | app/composables/usePdfEasy.ts:348 | no forbidden character remains, nothing new appears, and clean text is unchanged |
| PdfDocument.CollapseSpaces | app/composables/usePdfEasy.ts:350 | no whitespace remains, and only `_` is added |
| PdfDocument.CollapseRun | app/composables/usePdfEasy.ts:350 | a whitespace run becomes exactly one `_` |
| PdfDocument.Take | app/composables/usePdfEasy.ts:351 | `slice(0, n)` is a prefix of at most n characters, the whole text when shorter |
| PdfDocument.SafeFilename | app/composables/usePdfEasy.ts:347-351 | the safe filename is at most 200 characters |
| PdfDocument.SafeFilenameChars | app/composables/usePdfEasy.ts:347-351 | the safe filename contains none of NUL `< > : " / \ \| ? *` CR LF and no whitespace |
| PdfDocument.SafeFilenameFixed | app/composables/usePdfEasy.ts:347-351 | short clean text is its own safe filename |
| PdfDocument.SafeFilenameIdempotent | app/composables/usePdfEasy.ts:347-351 | the safe filename of a safe filename is itself |
| PdfDocument.EnsurePdfExtension | app/composables/usePdfEasy.ts:353 | the result ends in `.pdf` in any case; such input is returned unchanged, and other input gains `.pdf` |
| PdfDocument.EnsurePdfExtensionIdempotent | app/composables/usePdfEasy.ts:353 | adding the extension twice equals once |
| PdfDocument.StripPdfSuffix | app/composables/usePdfEasy.ts:359-362 | `replace(/\.pdf$/i, '')` removes exactly the last four characters when they are `.pdf` in any case |
| PdfDocument.StripEnsureRoundTrip | app/composables/usePdfEasy.ts:353-359 | stripping the extension undoes ensuring it, for names without one |
| PdfDocument.Or | app/composables/usePdfEasy.ts:345 | a present override wins, and a missing one falls back |
| PdfDocument.MergeMetadata | app/composables/usePdfEasy.ts:345 | each field the overrides carry wins, each field they lack keeps the base value; merging no overrides gives the base |
| PdfDocument.MergeMetadataAssociative | app/composables/usePdfEasy.ts:345 | merging successive overrides is associative |
| PdfDocument.ResolveSettings | app/composables/usePdfEasy.ts:344 | given size, margins and emit mode are used; the defaults are `a4`, 5 on every side, and `blob` |
| PdfDocument.Filename | app/composables/usePdfEasy.ts:355-358 | a non-empty `filename` option wins; otherwise a non-blank title gives exactly its safe name with `.pdf` ensured; with no option and no title it is `document.pdf` |
| PdfDocument.EmptyFilenameKept | app/composables/usePdfEasy.ts:355-358 | an empty `filename` option with no usable title gives the empty name, not the default |
| PdfDocument.ExportNameOfTitle | app/composables/usePdfEasy.ts:355-359 | without a filename option, the export name is the title's safe filename |
| PdfDocument.DefaultTitleSafe | app/composables/usePdfEasy.ts:72-80 | the default title is its own safe filename and is not blank |
| PdfDocument.DefaultTitleSuffix | app/composables/usePdfEasy.ts:74 | the default title ends in `.pdf`, and stripping that gives `steinhorst-dev_zusammenfassung` |
| PdfDocument.DefaultNames | app/composables/usePdfEasy.ts:72-359 | with no options the file is `steinhorst-dev_zusammenfassung.pdf` and the export name drops `.pdf` |
| PdfDocument.WhenTruthy | app/composables/usePdfEasy.ts:363-367 | a metadata field is kept exactly when it is a non-empty string |
| PdfDocument.KeywordsText | app/composables/usePdfEasy.ts:365 | keyword lists are joined with `, `, and keyword text is kept when truthy |
| PdfDocument.Collect | app/composables/usePdfEasy.ts:361-367 | document info has at most one entry per field |
| PdfDocument.CollectOrdered | app/composables/usePdfEasy.ts:361-367 | the entries keep the source's key order |
| PdfDocument.CollectLookup | app/composables/usePdfEasy.ts:361-367 | looking a key up in the collected info gives that field's value |
| PdfDocument.DocumentInfoLookup | app/composables/usePdfEasy.ts:361-367 | the info is ordered, Title is the truthy title without `.pdf`, and the other keys hold their truthy fields, with keywords joined |
| Json.Own | server/api/request.ts:133 | `hasOwnProperty` finds exactly an object's keys with their values; null, booleans and numbers have no own key (arrays and strings have their in-range indices and `length`) |
| Json.OwnIndex | server/api/request.ts:133 | an array has its indices as own keys |
| Json.PickFields | server/api/request.ts:128-138 | non-objects and an empty field list pass through; otherwise the result has exactly the asked-for own keys, with their values |
| Json.PickFieldsIdempotent | server/api/request.ts:128-138 | picking twice equals picking once |
| Json.PickAllFields | server/api/request.ts:128-138 | asking for every key of an object returns it unchanged |
| Json.Unwrap | server/api/request.ts:166 | the payload is the own `data` field exactly when that field is present and not null, and the response itself otherwise |
| Json.AsArray | server/api/request.ts:170 | an array stands for itself, and anything else for the empty array |
| Populate.Assign | server/api/request.ts:90-116 | assigning a key overwrites it in place or appends it, and keeps keys unique |
| Populate.AssignLookup | server/api/request.ts:90-116 | after an assignment the key reads back the new value and other keys are unchanged |
| Populate.Apply | server/api/request.ts:90-116 | applying writes in order leaves unique keys |
| Populate.ApplyLookup | server/api/request.ts:90-116 | a key reads back its last write |
| Populate.LastWriteConstant | server/api/request.ts:90-116 | a key written only with one value reads back that value |
| Populate.ClosesConcat | server/api/request.ts:91-115 | counting `]` distributes over concatenation |
| Populate.KeyInjective | server/api/request.ts:91 | `populate[a]...` keys with bracket-free names determine the name |
| Populate.Segments | server/api/request.ts:72 | a path has at least one dot-separated part |
| Populate.Simple | server/api/request.ts:72-74 | simple paths are exactly those with one part |
| Populate.Deep | server/api/request.ts:84-86 | deep paths are exactly those with three or more parts |
| Populate.Dedup | server/api/request.ts:80-82 | deduplication keeps exactly the same elements, each once |
| Populate.Parents | server/api/request.ts:75-83 | the group parents are distinct |
| Populate.ParentsHaveChildren | server/api/request.ts:75-83 | a name is a group parent exactly when some two-part path has it as parent |
| Populate.SimpleWrites | server/api/request.ts:90-92 | each simple path writes `populate[path] = *` |
| Populate.Groups | server/api/request.ts:95-103 | each parent's group holds the writes for its children in order |
| Populate.DeepWrites | server/api/request.ts:106-116 | each deep path writes its nested key with `*` |
| Populate.BuildPopulateParams | server/api/request.ts:60-119 | keys are unique, and no paths give `populate=*` |
| Populate.WritesShape | server/api/request.ts:90-116 | for bracket-free paths, only the one-child keys carry a value other than `*` |
| Populate.PopulateSimple | server/api/request.ts:90-92 | each one-part path reads back `populate[path] = *` |
| Populate.PopulateOneChild | server/api/request.ts:97-98 | a parent with one child reads back `populate[parent][populate] = child` |
| Populate.PopulateChildren | server/api/request.ts:99-102 | each child of a parent with several children reads back `populate[parent][populate][child] = *` |
| Populate.PopulateDeep | server/api/request.ts:106-116 | each path of three or more parts reads back its nested key with `*` |
| Populate.OneChildParentOf | server/api/request.ts:98 | the parent is recovered from its one-child key |
| Requests.NormalizeList | server/api/request.ts:32-34 | an array is kept, a non-empty string becomes a one-element list, and absence or `""` give the empty list |
| Requests.NormalizeEncodeList | server/api/request.ts:32-34 | normalising an encoded list returns it |
| Requests.NormalizeOne | server/api/request.ts:32-34 | a single value yields at most one element, and none exactly when it is empty |
| Requests.LocaleParams | server/api/request.ts:143-145 | a non-empty locale adds `locale`, otherwise nothing |
| Requests.PickEach | server/api/request.ts:172 | each item is picked in place |
| Requests.ShapeResponse | server/api/request.ts:166-177 | a collection is the picked items of the unwrapped array (empty for a non-array); a single type is the picked payload |
| Requests.PlanRequest | server/api/request.ts:36-151 | missing endpoint gives exactly the 400, missing base URL exactly the 500; with both present the plan succeeds, with URL `base/endpoint` and the locale and populate parameters |
| Requests.RequestParamsDefault | server/api/request.ts:61-151 | with no populates the parameters end with `populate=*` |
| Requests.HandleRequest | server/api/request.ts:36-191 | request errors pass through, an upstream failure is the 502, and otherwise the answer is shaped |
| Requests.PlanRequestIsProxy | server/api/request.ts:36-151 | with a base URL configured and no populate paths, the full endpoint plans exactly what the proxy plans, errors included |
| Requests.PlanProxy | server/api/request-proxy.ts:19-35 | a missing endpoint is exactly the 400; otherwise `base/endpoint`, optional locale, `populate=*` |
| Requests.ShapeProxyAgrees | server/api/request-proxy.ts:47-70 | the proxy's shaping equals the main handler's |
| Requests.HandleProxy | server/api/request-proxy.ts:13-70 | errors pass through, and otherwise the answer is shaped as in the main handler |
| Requests.ShapeSingleIdempotent | server/api/request.ts:166-177 | shaping a single type twice changes nothing when `data` is not asked for |
| Strapi.PlanCms | app/composables/useStrapi.ts:9-53 | an empty endpoint is exactly the error and any other endpoint succeeds; the query carries endpoint, fields, flag and the custom locale, falling back to `de` |
| Strapi.EncodeRoundTrip | app/composables/useStrapi.ts:36-53 | the proxy decodes the client's query back to its endpoint, fields, locale and collection flag |
| Strapi.EncodeLoneEmptyField | app/composables/useStrapi.ts:42-44 | a lone empty field name arrives at the proxy as no fields at all |
| Strapi.FilterItem | app/composables/useStrapi.ts:71-93 | filtering a null item fails; otherwise the result has exactly the asked-for defined fields, with their values |
| Strapi.FilterAll | app/composables/useStrapi.ts:71-79 | the collection filter succeeds exactly when no item is null, filtering each item in place |
| Strapi.ShapeCms | app/composables/useStrapi.ts:63-97 | a non-array collection is `[]`, no fields passes through, a truthy single response is filtered, and a falsy one is returned |
| Strapi.FilterIsPick | app/composables/useStrapi.ts:71-78 | on objects the client filter equals the server's `pickFields` |
| Strapi.CollectionFilterRedundant | app/composables/useStrapi.ts:63-82 | re-filtering a collection the proxy already picked changes nothing |
| Strapi.SingleFilterRedundant | app/composables/useStrapi.ts:86-94 | re-filtering a single type the proxy already picked changes nothing |
| Strapi.TrimTrailingSlashes | app/composables/useStrapi.ts:130 | the result is the longest prefix not ending in `/`, with only slashes removed |
| Strapi.TrimTrailingSlashesUnique | app/composables/useStrapi.ts:130 | that prefix is unique |
| Strapi.RelativeUrl | app/composables/useStrapi.ts:119-121 | a present format URL wins; any other result is `image.url` |
| Strapi.BaseUrl | app/composables/useStrapi.ts:116 | `api_base`, else `api_url`, else empty |
| Strapi.Rooted | app/composables/useStrapi.ts:131 | the path gains a leading `/` only when it lacks one |
| Strapi.BuildImageUrl | app/composables/useStrapi.ts:109-133 | a URL exists exactly when there is an image with a non-empty relative URL; absolute URLs are returned as they are |
| Strapi.ImageUrlJoin | app/composables/useStrapi.ts:129-132 | a relative URL is joined to the trimmed base with exactly one `/` |
| Strapi.ImageUrlRoundTrip | app/composables/useStrapi.ts:129-132 | the base and the path can be read back from the joined URL |
| Strapi.EmptyFormatUrl | app/composables/useStrapi.ts:121-122 | an empty format URL hides `image.url` and gives no URL |
| SafeId.DropMarks | app/composables/useIdGenerator.ts:18 | no `&`, `(` or `)` remains |
| SafeId.Hyphenate | app/composables/useIdGenerator.ts:19 | each character outside `[a-z0-9]` becomes `-` in place |
| SafeId.Collapse | app/composables/useIdGenerator.ts:20 | no two hyphens are adjacent; the first and last characters are kept |
| SafeId.CollapseDouble | app/composables/useIdGenerator.ts:20 | two adjacent hyphens collapse exactly as one does |
| SafeId.CollapseRunOfHyphens | app/composables/useIdGenerator.ts:20 | a hyphen run of any length collapses exactly as a single hyphen does |
| SafeId.CollapseJoinsWords | app/composables/useIdGenerator.ts:20 | a run between two words leaves exactly one hyphen there, and the words are kept |
| SafeId.Slug | app/composables/useIdGenerator.ts:16-21 | the slug is lower-case letters, digits and single inner hyphens |
| SafeId.CreateSafeId | app/composables/useIdGenerator.ts:15-27 | the id is `prefix-` when a prefix is given, then the slug, then `-index` when an index is given |
| SafeId.ComponentId | app/composables/useIdGenerator.ts:37-39 | the id is `createSafeId(content, name, index)`: the name and a hyphen when the name is non-empty, then the slug of the content, then `-index` when an index is given |
| SafeId.SlugKeepsLettersAndDigits | app/composables/useIdGenerator.ts:16-21 | the slug keeps every ASCII letter and digit of the lower-cased text in order and adds none |
| SafeId.SlugEmpty | app/composables/useIdGenerator.ts:16-21 | the slug is empty exactly when the text has no ASCII letter or digit |
| SafeId.SlugDeletesMarks | app/composables/useIdGenerator.ts:18 | inserting `&`, `(` or `)` anywhere does not change the slug |
| SafeId.SlugIdempotent | app/composables/useIdGenerator.ts:16-21 | the slug of a slug is itself |
| SafeId.CreateSafeIdIdempotent | app/composables/useIdGenerator.ts:15-27 | an unprefixed, unindexed id is its own id |
| SafeId.IndexReadBack | app/composables/useIdGenerator.ts:24-26 | the index can be read back as the digits after the last hyphen |
| Skills.ItemSkills | app/composables/useSkillSearch.ts:22-23 | an item yields one trimmed skill per `\|`-separated piece of its title |
| Skills.ItemPiecesJoin | app/composables/useSkillSearch.ts:23 | the pieces rejoin with `\|` to the title |
| Skills.AllSkills | app/composables/useSkillSearch.ts:18-26 | no cards give no skills, and one card gives its own skills |
| Skills.CardsSkillsConcat | app/composables/useSkillSearch.ts:21-25 | skills come out card after card, in order |
| Skills.FirstMatch | app/composables/useSkillSearch.ts:47-49 | `find` returns the first skill containing the query, case-insensitively |
| Skills.Search | app/composables/useSkillSearch.ts:43-45 | there is no result exactly when the trimmed query is empty |
| Skills.SearchResult | app/composables/useSkillSearch.ts:43-54 | the first matching skill is found; with no match, the trimmed query is reported as not found |
| Skills.FoundIsSkill | app/composables/useSkillSearch.ts:51-53 | a found skill is one of the skills |
| Skills.ResetSearch | app/composables/useSkillSearch.ts:59-68 | right after a reset nothing is being searched, whatever the debounced value still holds; once the debounce has passed the empty query on, no search has a result |
| Scroll.ResolveOptions | app/composables/useScrollHashes.ts:18-21 | the defaults are threshold 0.5 and hero ids `{hero}`; given hero ids are used as a set |
| Scroll.ResolveHash | app/composables/useScrollHashes.ts:29-37 | empty, `/` and hero ids give no hash; otherwise the hash starts with a single added `#` |
| Scroll.ResolveHashFixed | app/composables/useScrollHashes.ts:29-37 | resolving a section whose scroll hash is already the resolved hash gives it back |
| Scroll.ObservedRatio | app/composables/useScrollHashes.ts:68-79 | the ratio is in [0, 1]: 0 when not intersecting or the root has no height, else the clamped height ratio |
| Scroll.Lookup | app/composables/useScrollHashes.ts:25 | the ratio map yields a value exactly when the section is present |
| Scroll.SetRatio | app/composables/useScrollHashes.ts:70-79 | `Map.set` updates in place or appends, and other entries are unchanged |
| Scroll.SetRatioLookup | app/composables/useScrollHashes.ts:70-79 | after setting, the section reads back the new ratio, other sections keep theirs, and keys stay distinct |
| Scroll.Record | app/composables/useScrollHashes.ts:68-80 | recording reports keeps every ratio in [0, 1], never forgets a section and keeps every known section at its position |
| Scroll.RecordLast | app/composables/useScrollHashes.ts:68-80 | the last report about a section determines its ratio |
| Scroll.MostVisible | app/composables/useScrollHashes.ts:55-65 | there is no best section exactly when every ratio is below the threshold; otherwise the first section with the largest ratio is chosen |
| Scroll.MostVisibleUnique | app/composables/useScrollHashes.ts:55-65 | the most visible section is unique |
| Scroll.UrlUpdate | app/composables/useScrollHashes.ts:39-53 | the URL is left alone exactly when the hash is current; otherwise it is path, search and hash |
| Scroll.HandleReports | app/composables/useScrollHashes.ts:67-90 | ratios are recorded; with no visible section nothing changes; otherwise the hash is the best section's, and the URL is written exactly when the hash changed |
| Scroll.HandleReportsTwice | app/composables/useScrollHashes.ts:67-90 | after any batch of reports, handling an empty batch leaves the ratios and hash alone and writes no URL |

## Findings

| source | as written | input that shows it | evidently intended | confidence | as-written member | corrected member |
|---|---|---|---|---|---|---|
| app/composables/usePdfEasy.ts:84-87 | the star class (also at line 197) and the list bullet (line 128) are spelled as the UTF-8 bytes of `⭐🌟✨★☆✦✧✪✫✬✭✮✯` and `•` read back as Windows-1252 | `⭐` is kept unchanged; `â` (as in `château`) becomes `â€¢`; the list marker `â€¢ ` comes out as `â€¢€¢ ` | the formatter's set at `usePdfEasyFormatter.ts:42` and the bullet `•` | high that the class is garbled, not executed | GarbledSymbols.GarbledNotIdempotent | Symbols.NormalizeSymbolsIdempotent |

`GarbledSymbols.GarbledMissesStar` and `GarbledSymbols.GarbledListMarker`
exhibit the inputs above. The `Legacy` model uses `Symbols.NormalizeSymbols`
and the `•` bullet, as the formatter does. `GarbledSymbols.ListMarkerKept`
proves that this normaliser leaves the list marker intact.

## Left out

- PDF generation itself is left out. This covers `$pdf.new/add/run`, the dynamic `import('pdfeasy')`, the client-only guard and the Blob download (`usePdfEasy.ts:326-343,372-399`), which are browser I/O and a foreign library.
- `CreationDate`/`ModDate` (`usePdfEasy.ts:368-369`) are left out, because they are runtime date parsing.
- The font, size and colour objects of each block are reduced to the `Content.Style` record. Heading, body, quote and table styles are kept distinct.
- `$fetch`, `URL` and `searchParams` percent-encoding, authorization headers, timeouts and `console` logging are left out, as network I/O. A planned call is the base URL, the endpoint and an ordered parameter list, and the answer is a parameter (`Option<Json>` or `Result`).
- `useRuntimeConfig` is left out. The API URL, `api_base` and `api_url` are parameters.
- `Requests.PlanProxy`: it does not reject an empty `api_url`, because the proxy never checks it. The `URL` constructor failure is left out.
- `Strapi.PlanCms`: the `typeof endpoint !== 'string'` test is dropped, because the Dafny type is already `string`.
- JSON numbers are integers: floating point is left out. Object key order is not modelled (`map`). Inherited prototype properties are not own keys. As with `hasOwnProperty`, arrays and strings have their in-range decimal indices and `length` as own keys.
- Legacy.ReplaceParsedLine: uses `Symbols.NormalizeSymbols` and the `•` bullet, not the mis-encoded star class and bullet of `usePdfEasy.ts:84-87,128`; the code as written is modelled only by `GarbledSymbols`.
- Legacy.ReplaceParsedLineAgrees: states agreement for the corrected legacy line only; as written, a list line `- x` comes out as the mis-encoded bullet rewritten once more (`GarbledSymbols.GarbledListMarker`), not as `• x`.
- Legacy.ConvertAgrees: states agreement for the corrected legacy converter only; the converter as written differs from the formatter on every list item and on lines with star glyphs.
- PdfDocument.MergeMetadata: an override field is either present with a string (`Some`) or absent (`None`). A key present with the value `undefined`, which the spread copies over the default (so `meta: { title: undefined }` gives `document.pdf` and no Title entry), is modelled as absent.
- Strapi.FilterItem: a field counts as present when it is an own key. The source reads `item[field] !== undefined`, which also finds names on the prototype (`constructor`, `toString`, an array's `map`, a number's `toFixed`); those are treated as absent.
- Strapi.FilterPrimitive: holds only for field names that are not members of the number or boolean prototype.
- Strapi.FilterIsPick: holds only for field names that are not prototype members, since `pickFields` uses `hasOwnProperty` and the client filter does not.
- Strapi.CollectionFilterRedundant: holds only for field names that are not prototype members; for such a name (`constructor`) the client re-filter adds a key the proxy dropped.
- Strapi.SingleFilterRedundant: holds only for field names that are not prototype members, for the same reason.
- SafeId.CreateSafeId: the index is an integer printed in decimal. Fractional and NaN indices, and indices of magnitude 1e21 or more, which the template literal prints as `1.5`, `NaN` or `1e+21`, are left out.
- SafeId.IndexReadBack: the read-back holds for the integer index of the model; for an index of 1e21 or more the source writes exponent notation and its digits cannot be read back.
- `Text.ToLower` maps ASCII only. Non-ASCII case mapping of `toLowerCase` is left out.
- Strings are sequences of code points. `slice(0, 200)` counts UTF-16 units in the source, so `PdfDocument.SafeFilename` differs for astral characters.
- DOM querying, `IntersectionObserver`/`MutationObserver` wiring, the `selector`/`rootMargin` options, Vue refs and computed values, and debounce timing are left out. A report batch and the debounced query are parameters.
- The `replaceState` try/catch in `useScrollHashes.ts:48-52` is left out. A URL write is modelled as always succeeding.
- `Scroll.Record` tracks sections by value. DOM element identity is not modelled.
- `Populate.WritesShape`, `Populate.PopulateSimple`, `Populate.PopulateOneChild`, `Populate.PopulateChildren` and `Populate.PopulateDeep` require paths without `[` and `]`. For other paths, two different populate keys can spell the same string, and the read-back can differ.
- `LineSyntax.IsRuleIff`: a rule is exactly `---` with surrounding whitespace, as the code's `/^\s*---\s*$/` says; longer hyphen runs are paragraphs.
- `useFocusHelper.ts`, the plugins, the Cypress tests and the type declarations are not part of this model.

=== FILE: content.dfy ===
/** The content blocks both markdown converters emit for the PDF renderer:
    a styled text run, a stack of runs laid out as one paragraph, or a line
    break. */
module Content {
  import opened Wrappers

  datatype Align = Left | Center | Right | Justify

  /** The style options a run carries. `bold` stands for the `bold: true`
      entry; a style without it renders regular weight. */
  datatype Style = Style(font: string, fontSize: nat, bold: bool, color: Option<string>, align: Align)

  /** A text primitive: the characters to print and how. */
  datatype Run = Run(raw: string, style: Style)

  datatype Block =
    | Text(run: Run)
    | Stack(runs: seq<Run>)
    | LineBreak

  /** Headings: bold Helvetica at 18, 20 or 24 points for levels 3, 2, 1. */
  function HeadingStyle(level: nat): Style
    requires 1 <= level <= 3
  {
    Style("Helvetica", if level == 3 then 18 else if level == 2 then 20 else 24, true, None, Left)
  }

  /** Blockquotes: grey Helvetica at 12 points. */
  const QuoteStyle := Style("Helvetica", 12, false, Some("#6b7280"), Left)

  /** Paragraph text: Helvetica at 14 points, optionally bold. */
  function BodyStyle(bold: bool): Style {
    Style("Helvetica", 14, bold, None, Left)
  }

  /** Table lines: Courier at 12 points so that columns line up. */
  function TableStyle(bold: bool): Style {
    Style("Courier", 12, bold, None, Left)
  }

  /** Every character a list of blocks prints, line breaks as `\n`. */
  function Spell(blocks: seq<Block>): string {
    if |blocks| == 0 then ""
    else
      (match blocks[0]
         case Text(r) => r.raw
         case Stack(rs) => SpellRuns(rs)
         case LineBreak => "\n")
      + Spell(blocks[1..])
  }

  function SpellRuns(runs: seq<Run>): string {
    if |runs| == 0 then "" else runs[0].raw + SpellRuns(runs[1..])
  }
}

=== FILE: emphasis.dfy ===
/** The inline emphasis patterns `\*\*([^*]+?)\*\*` and `\*([^*]+?)\*`: a
    run of `k` stars, at least one character that is not a star, and a
    second run of `k` stars. Because the inner class excludes `*`, the only
    place a match can close is the first star after the opening run. */
module Emphasis {
  import opened Text

  predicate AllStars(s: string) {
    forall i | 0 <= i < |s| :: s[i] == '*'
  }

  /** The first position at or after `from` holding a star, or `|s|`. */
  function NextStar(s: string, from: nat): (j: nat)
    requires from <= |s|
    ensures from <= j <= |s|
    ensures forall i | from <= i < j :: s[i] != '*'
    ensures j < |s| ==> s[j] == '*'
    decreases |s| - from
  {
    if from == |s| || s[from] == '*' then from else NextStar(s, from + 1)
  }

  /** The pattern with `k` stars on each side matches at the start of `t`. */
  predicate Delimited(t: string, k: nat) {
    && 1 <= k <= |t|
    && AllStars(t[..k])
    && var j := NextStar(t, k);
       k < j && j + k <= |t| && AllStars(t[j..j + k])
  }

  /** The captured text of a match at the start of `t`. */
  function Inner(t: string, k: nat): (c: string)
    requires Delimited(t, k)
    ensures |c| >= 1 && '*' !in c
  {
    t[k..NextStar(t, k)]
  }

  /** Where a match at the start of `t` ends. */
  function MatchEnd(t: string, k: nat): (e: nat)
    requires Delimited(t, k)
    ensures 2 * k < e <= |t|
  {
    NextStar(t, k) + k
  }

  /** The pattern as the regex reads it: `k` stars, a star-free capture of at
      least one character, `k` stars. */
  predicate MatchesAs(t: string, k: nat, c: string) {
    && k >= 1 && |c| >= 1 && '*' !in c
    && 2 * k + |c| <= |t|
    && t[..2 * k + |c|] == Repeat('*', k) + c + Repeat('*', k)
  }

  /** `Delimited` is exactly the regex match, and `Inner` its capture. */
  lemma DelimitedIff(t: string, k: nat)
    ensures Delimited(t, k) ==> MatchesAs(t, k, Inner(t, k))
    ensures forall c :: MatchesAs(t, k, c) ==> Delimited(t, k) && c == Inner(t, k)
  {
    if Delimited(t, k) {
      DelimitedMatches(t, k);
    }
    forall c | MatchesAs(t, k, c) ensures Delimited(t, k) && c == Inner(t, k) {
      MatchesDelimited(t, k, c);
    }
  }

  lemma DelimitedMatches(t: string, k: nat)
    requires Delimited(t, k)
    ensures MatchesAs(t, k, Inner(t, k))
  {
    var j := NextStar(t, k);
    assert Inner(t, k) == t[k..j];
    assert t[..j + k] == t[..k] + t[k..j] + t[j..j + k];
    StarsRepeat(t[..k]);
    StarsRepeat(t[j..j + k]);
  }

  lemma StarsRepeat(s: string)
    requires AllStars(s)
    ensures s == Repeat('*', |s|)
  {
  }

  lemma MatchesDelimited(t: string, k: nat, c: string)
    requires MatchesAs(t, k, c)
    ensures Delimited(t, k) && c == Inner(t, k)
  {
    MatchPieces(t, k, c);
    assert forall i | k <= i < k + |c| :: t[i] == c[i - k] && t[i] != '*';
    NextStarAt(t, k, k + |c|);
    assert AllStars(t[..k]);
    assert t[k..k + |c|] == c;
  }

  /** The characters of a match, one piece at a time. */
  lemma MatchPieces(t: string, k: nat, c: string)
    requires MatchesAs(t, k, c)
    ensures forall i | 0 <= i < k :: t[i] == '*'
    ensures forall i | 0 <= i < |c| :: t[k + i] == c[i]
    ensures forall i | k + |c| <= i < 2 * k + |c| :: t[i] == '*'
  {
    var r := Repeat('*', k);
    var m := t[..2 * k + |c|];
    assert m == r + c + r;
    forall i | 0 <= i < k ensures t[i] == '*' {
      assert t[i] == m[i] == r[i];
    }
    forall i | 0 <= i < |c| ensures t[k + i] == c[i] {
      assert t[k + i] == m[k + i] == (r + c)[k + i];
    }
    forall i | k + |c| <= i < 2 * k + |c| ensures t[i] == '*' {
      assert t[i] == m[i] == r[i - k - |c|];
    }
  }

  lemma NextStarAt(s: string, from: nat, j: nat)
    requires from <= j < |s| && s[j] == '*'
    requires forall i | from <= i < j :: s[i] != '*'
    ensures NextStar(s, from) == j
  {
  }

  /** A global replace of every match by its capture, scanning left to right
      and resuming after each match. */
  function Unwrap(t: string, k: nat): (r: string)
    ensures |r| <= |t|
    ensures |t| > 0 ==> |r| > 0
    ensures forall c | c in r :: c in t
    decreases |t|
  {
    if |t| == 0 then ""
    else if Delimited(t, k) then Inner(t, k) + Unwrap(t[MatchEnd(t, k)..], k)
    else [t[0]] + Unwrap(t[1..], k)
  }

  /** Unwrapping deletes stars and nothing else. */
  lemma {:induction false} UnwrapDropsOnlyStars(t: string, k: nat)
    ensures Without(Unwrap(t, k), '*') == Without(t, '*')
    decreases |t|
  {
    if |t| > 0 {
      if Delimited(t, k) {
        var e := MatchEnd(t, k);
        UnwrapDropsOnlyStars(t[e..], k);
        WithoutMatch(t, k);
        WithoutAbsent(Inner(t, k), '*');
        WithoutConcat(Inner(t, k), Unwrap(t[e..], k), '*');
      } else {
        UnwrapDropsOnlyStars(t[1..], k);
        assert t == [t[0]] + t[1..];
        WithoutConcat([t[0]], t[1..], '*');
        WithoutConcat([t[0]], Unwrap(t[1..], k), '*');
      }
    }
  }

  /** Deleting the stars of a match leaves its capture. */
  lemma WithoutMatch(t: string, k: nat)
    requires Delimited(t, k)
    ensures Without(t, '*') == Inner(t, k) + Without(t[MatchEnd(t, k)..], '*')
  {
    var j := NextStar(t, k);
    var e := MatchEnd(t, k);
    assert Inner(t, k) == t[k..j];
    FourPieces(t, k, j, e);
    StarsAround(t[..k], t[k..j], t[j..e], t[e..]);
  }

  lemma FourPieces(t: string, a: nat, b: nat, c: nat)
    requires a <= b <= c <= |t|
    ensures t == t[..a] + t[a..b] + t[b..c] + t[c..]
  {
    assert t[..b] == t[..a] + t[a..b];
    assert t[..c] == t[..b] + t[b..c];
    assert t == t[..c] + t[c..];
  }

  /** Star runs on both sides of a star-free piece vanish. */
  lemma StarsAround(a: string, c: string, b: string, rest: string)
    requires AllStars(a) && AllStars(b) && '*' !in c
    ensures Without(a + c + b + rest, '*') == c + Without(rest, '*')
  {
    StarsVanish(a);
    StarsVanish(b);
    WithoutAbsent(c, '*');
    WithoutConcat(a, c, '*');
    assert Without(a + c, '*') == c;
    WithoutConcat(a + c, b, '*');
    assert Without(a + c + b, '*') == c;
    WithoutConcat(a + c + b, rest, '*');
  }

  lemma StarsVanish(s: string)
    requires AllStars(s)
    ensures Without(s, '*') == ""
  {
    if |s| > 0 {
      assert s == [s[0]] + s[1..];
      WithoutConcat([s[0]], s[1..], '*');
      StarsVanish(s[1..]);
    }
  }

  /** Text without stars passes through unchanged. */
  lemma UnwrapStarFree(t: string, k: nat)
    requires '*' !in t
    ensures Unwrap(t, k) == t
  {
    var r := Unwrap(t, k);
    UnwrapDropsOnlyStars(t, k);
    WithoutAbsent(t, '*');
    assert Without(r, '*') == t;
    UnwrapShrinks(t, k);
  }

  /** Each match shortens the text by its two star runs. */
  lemma {:induction false} UnwrapShrinks(t: string, k: nat)
    ensures |Unwrap(t, k)| == |t| ==> Unwrap(t, k) == t
    decreases |t|
  {
    if |t| > 0 && !Delimited(t, k) {
      UnwrapShrinks(t[1..], k);
      assert t == [t[0]] + t[1..];
    }
  }

  // ---------------------------------------------------------------------
  // Bold segments of a paragraph

  datatype Segment = Segment(text: string, bold: bool)

  /** The plain text collected since the previous match, if any. */
  function Flush(pending: string): (segs: seq<Segment>)
    ensures |segs| <= 1
    ensures forall i | 0 <= i < |segs| :: segs[i] == Segment(pending, false) && pending != ""
    ensures pending != "" ==> |segs| == 1
  {
    if pending == "" then [] else [Segment(pending, false)]
  }

  function Texts(segs: seq<Segment>): string {
    if |segs| == 0 then "" else segs[0].text + Texts(segs[1..])
  }

  predicate WellFormed(segs: seq<Segment>) {
    forall i | 0 <= i < |segs| :: segs[i].text != "" && (segs[i].bold ==> '*' !in segs[i].text)
  }

  /** The bold-splitting loop: plain text before each `**x**` match, the
      capture `x` as a bold segment, and the plain remainder. `pending` is
      the plain text read since the last match. */
  function Segments(t: string, pending: string): (segs: seq<Segment>)
    ensures WellFormed(segs)
    ensures segs == [] <==> t == "" && pending == ""
    decreases |t|
  {
    if |t| == 0 then Flush(pending)
    else if Delimited(t, 2) then
      Flush(pending) + [Segment(Inner(t, 2), true)] + Segments(t[MatchEnd(t, 2)..], "")
    else Segments(t[1..], pending + [t[0]])
  }

  lemma TextsConcat(a: seq<Segment>, b: seq<Segment>)
    ensures Texts(a + b) == Texts(a) + Texts(b)
  {
    if |a| > 0 {
      assert (a + b)[1..] == a[1..] + b;
      TextsConcat(a[1..], b);
    } else {
      assert a + b == b;
    }
  }

  /** The segments spell the line with every `**x**` replaced by `x`. */
  lemma {:induction false} SegmentsSpellUnwrap(t: string, pending: string)
    ensures Texts(Segments(t, pending)) == pending + Unwrap(t, 2)
    decreases |t|
  {
    if |t| == 0 {
      TextsFlush(pending);
      assert pending + "" == pending;
    } else if Delimited(t, 2) {
      var rest := t[MatchEnd(t, 2)..];
      var c := Inner(t, 2);
      SegmentsSpellUnwrap(rest, "");
      assert Texts(Segments(rest, "")) == Unwrap(rest, 2);
      DelimitedStep(pending, c, Segments(rest, ""));
      assert Unwrap(t, 2) == c + Unwrap(rest, 2);
    } else {
      SegmentsSpellUnwrap(t[1..], pending + [t[0]]);
      assert Unwrap(t, 2) == [t[0]] + Unwrap(t[1..], 2);
      assert (pending + [t[0]]) + Unwrap(t[1..], 2) == pending + ([t[0]] + Unwrap(t[1..], 2));
    }
  }

  lemma TextsFlush(pending: string)
    ensures Texts(Flush(pending)) == pending
  {
    if pending != "" {
      assert Flush(pending)[1..] == [];
    }
  }

  /** The text of the segments around one bold match. */
  lemma DelimitedStep(pending: string, c: string, after: seq<Segment>)
    ensures Texts(Flush(pending) + [Segment(c, true)] + after) == pending + (c + Texts(after))
  {
    TextsConcat(Flush(pending) + [Segment(c, true)], after);
    TextsConcat(Flush(pending), [Segment(c, true)]);
    TextsFlush(pending);
    assert Texts([Segment(c, true)]) == c + Texts([]);
  }
}

=== FILE: formatter.dfy ===
/** The markdown-to-PDF converter: the input is split into lines, tables
    are recognised by a divider on the following line, and every other line
    is classified and rendered on its own. */
module Formatter {
  import opened Text
  import opened Content
  import opened Table
  import opened LineSyntax

  // ---------------------------------------------------------------------
  // Line endings

  /** `replace(/\r\n/g, '\n')`: each CR LF pair, read left to right without
      overlap, becomes LF. A lone CR stays. */
  function ReplaceCrLf(s: string): (r: string)
    ensures |r| <= |s|
    decreases |s|
  {
    if |s| == 0 then ""
    else if |s| >= 2 && s[0] == '\r' && s[1] == '\n' then "\n" + ReplaceCrLf(s[2..])
    else [s[0]] + ReplaceCrLf(s[1..])
  }

  /** Windows line endings: every LF written as CR LF. */
  function ToCrLf(s: string): (r: string)
    ensures |r| >= |s|
    decreases |s|
  {
    if |s| == 0 then "" else (if s[0] == '\n' then "\r\n" else [s[0]]) + ToCrLf(s[1..])
  }

  /** Reading a text saved with Windows line endings gives back the text. */
  lemma {:induction false} ReplaceCrLfToCrLf(s: string)
    requires '\r' !in s
    ensures ReplaceCrLf(ToCrLf(s)) == s
    decreases |s|
  {
    if |s| > 0 {
      var x := ToCrLf(s[1..]);
      assert '\r' !in s[1..] by { assert forall k | 0 <= k < |s[1..]| :: s[1..][k] == s[k + 1]; }
      ReplaceCrLfToCrLf(s[1..]);
      if s[0] == '\n' {
        assert ("\r\n" + x)[2..] == x;
      } else {
        assert ([s[0]] + x)[1..] == x;
      }
    }
  }

  /** The replacement removes carriage returns and nothing else. */
  lemma {:induction false} ReplaceCrLfDropsOnlyCr(s: string)
    ensures Without(ReplaceCrLf(s), '\r') == Without(s, '\r')
    decreases |s|
  {
    if |s| >= 2 && s[0] == '\r' && s[1] == '\n' {
      ReplaceCrLfDropsOnlyCr(s[2..]);
      var rest := ReplaceCrLf(s[2..]);
      assert ("\n" + rest)[1..] == rest;
      assert Without("\n" + rest, '\r') == "\n" + Without(rest, '\r');
      assert s[1..][1..] == s[2..];
      assert Without(s[1..], '\r') == "\n" + Without(s[2..], '\r');
    } else if |s| > 0 {
      ReplaceCrLfDropsOnlyCr(s[1..]);
      var rest := ReplaceCrLf(s[1..]);
      assert ([s[0]] + rest)[1..] == rest;
    }
  }

  /** A text without carriage returns is left as it is. */
  lemma {:induction false} ReplaceCrLfPlain(s: string)
    requires '\r' !in s
    ensures ReplaceCrLf(s) == s
    decreases |s|
  {
    if |s| > 0 {
      assert '\r' !in s[1..] by { assert forall k | 0 <= k < |s[1..]| :: s[1..][k] == s[k + 1]; }
      ReplaceCrLfPlain(s[1..]);
    }
  }

  /** The lines of a markdown text. */
  function Lines(markdown: string): (lines: seq<string>)
    ensures |lines| >= 1
    ensures forall k | 0 <= k < |lines| :: '\n' !in lines[k]
  {
    Split(ReplaceCrLf(markdown), '\n')
  }

  /** Joining the lines with LF gives the text back, up to line endings. */
  lemma LinesJoin(markdown: string)
    ensures Join(Lines(markdown), "\n") == ReplaceCrLf(markdown)
    ensures '\r' !in markdown ==> Join(Lines(markdown), "\n") == markdown
  {
    JoinSplit(ReplaceCrLf(markdown), '\n');
    if '\r' !in markdown {
      ReplaceCrLfPlain(markdown);
    }
  }

  // ---------------------------------------------------------------------
  // The conversion loop

  /** Line `i` holds a pipe and the next line is a table divider. */
  predicate StartsTable(lines: seq<string>, i: nat)
    requires i < |lines|
  {
    '|' in Trim(lines[i]) && i + 1 < |lines| && IsTableDivider(lines[i + 1])
  }

  /** The blocks of a line outside any table. A blank line directly before
      a heading emits nothing. */
  function LineBlocks(lines: seq<string>, i: nat): seq<Block>
    requires i < |lines|
  {
    var key := Trim(lines[i]);
    var kind := Classify(lines[i], key);
    if kind.Blank? && i + 1 < |lines| && HeadingAhead(Trim(lines[i + 1])) then []
    else Render(kind)
  }

  /** The blocks of `lines[i..]`. */
  function Convert(lines: seq<string>, i: nat): seq<Block>
    decreases if i < |lines| then |lines| - i else 0
  {
    if i >= |lines| then []
    else if StartsTable(lines, i) then
      var tb := ParseTableBlock(lines, i);
      tb.content + Convert(lines, tb.next)
    else LineBlocks(lines, i) + Convert(lines, i + 1)
  }

  /** `convertMarkdownToPdfEasy`. */
  function ConvertMarkdown(markdown: string): seq<Block> {
    Convert(Lines(markdown), 0)
  }

  // ---------------------------------------------------------------------
  // Properties

  /** A table prints no empty run. */
  lemma TableWellFormed(m: Layout)
    ensures BlocksWellFormed(RenderTable(m))
  {
    var b := RenderTable(m);
    forall i | 0 <= i < |b| ensures b[i].Text? ==> b[i].run.raw != "" {
      if 3 <= i < |b| - 1 {
        assert b[i] == TableLine(m.data[i - 3], m, false);
      }
    }
  }

  /** The converter never emits an empty run or an empty stack. */
  lemma {:induction false} ConvertWellFormed(lines: seq<string>, i: nat)
    ensures BlocksWellFormed(Convert(lines, i))
    decreases if i < |lines| then |lines| - i else 0
  {
    if i < |lines| {
      if StartsTable(lines, i) {
        var tb := ParseTableBlock(lines, i);
        TableWellFormed(TableLayoutAt(lines, i));
        ConvertWellFormed(lines, tb.next);
        BlocksWellFormedConcat(tb.content, Convert(lines, tb.next));
      } else {
        ConvertWellFormed(lines, i + 1);
        BlocksWellFormedConcat(LineBlocks(lines, i), Convert(lines, i + 1));
      }
    }
  }

  /** Line by line, as a text without tables reads. */
  function PerLine(lines: seq<string>, i: nat): seq<Block>
    decreases if i < |lines| then |lines| - i else 0
  {
    if i >= |lines| then [] else LineBlocks(lines, i) + PerLine(lines, i + 1)
  }

  /** Without a pipe anywhere, the converter treats every line on its own. */
  lemma {:induction false} ConvertPerLine(lines: seq<string>, i: nat)
    requires forall k | 0 <= k < |lines| :: '|' !in lines[k]
    ensures Convert(lines, i) == PerLine(lines, i)
    decreases if i < |lines| then |lines| - i else 0
  {
    if i < |lines| {
      var t := Trim(lines[i]);
      var b, e := TrimBounds(lines[i]);
      assert '|' !in t by { assert forall k | 0 <= k < |t| :: t[k] == lines[i][b + k]; }
      ConvertPerLine(lines, i + 1);
    }
  }

  /** A blank line before a heading leaves no trace. */
  lemma BlankBeforeHeading(lines: seq<string>, i: nat)
    requires i + 1 < |lines| && Trim(lines[i]) == "" && HeadingAhead(Trim(lines[i + 1]))
    ensures Convert(lines, i) == Convert(lines, i + 1)
  {
  }

  /** Any other blank line is one line break. */
  lemma BlankElsewhere(lines: seq<string>, i: nat)
    requires i < |lines| && Trim(lines[i]) == ""
    requires i + 1 < |lines| ==> !HeadingAhead(Trim(lines[i + 1]))
    ensures Convert(lines, i) == [LineBreak] + Convert(lines, i + 1)
  {
  }

  /** A table header line starts a table block that resumes after the last
      body line, and the block is the parsed table. */
  lemma ConvertTable(lines: seq<string>, i: nat)
    requires i + 1 < |lines| && '|' in Trim(lines[i]) && IsTableDivider(lines[i + 1])
    ensures var e := RowsEnd(lines, i + 2);
      Convert(lines, i) == RenderTable(TableLayoutAt(lines, i)) + Convert(lines, e)
  {
  }
}

=== FILE: garbled.dfy ===
/** The symbol normaliser of the older converter exactly as its source spells
    it: the star class and the bullet there are the UTF-8 bytes of the
    intended glyphs read back as Windows-1252 characters. The rest of the
    model uses the formatter's normaliser in its place. */
module GarbledSymbols {
  import opened Text
  import opened Symbols

  /** The characters listed in the older converter's star class. */
  predicate IsGarbledStar(c: char) {
    || c == '\U{E2}' || c == '\U{AD}' || c == '\U{F0}' || c == '\U{178}'
    || c == '\U{152}' || c == '\U{153}' || c == '\U{A8}' || c == '\U{2DC}'
    || c == '\U{2026}' || c == '\U{2020}' || c == '\U{A6}' || c == '\U{A7}'
    || c == '\U{AA}' || c == '\U{AB}' || c == '\U{AC}' || c == '\U{AE}'
    || c == '\U{AF}'
  }

  /** The three characters written where a bullet was meant. */
  const GarbledBullet: string := ['\U{E2}', '\U{20AC}', '\U{A2}']

  /** Every listed character replaced by the three-character bullet. */
  function GarbledStars(s: string): (r: string)
    ensures |r| >= |s|
    ensures (forall i | 0 <= i < |s| :: !IsGarbledStar(s[i])) ==> r == s
    ensures |s| > 0 && IsGarbledStar(s[0]) ==> |r| >= 3 && r[..3] == GarbledBullet
    decreases |s|
  {
    if |s| == 0 then []
    else (if IsGarbledStar(s[0]) then GarbledBullet else [s[0]]) + GarbledStars(s[1..])
  }

  /** `normalizeSymbols` of the older converter, as written. */
  function GarbledNormalizeSymbols(s: string): (r: string)
    ensures '`' !in s && (forall i | 0 <= i < |s| :: !IsGarbledStar(s[i])) ==> r == s
  {
    WithoutAbsentIf(s);
    GarbledStars(Without(s, '`'))
  }

  lemma WithoutAbsentIf(s: string)
    ensures '`' !in s ==> Without(s, '`') == s
  {
    if '`' !in s {
      WithoutAbsent(s, '`');
    }
  }

  /** A star glyph passes the written normaliser untouched, while the
      intended one turns it into a bullet. */
  lemma GarbledMissesStar()
    ensures GarbledNormalizeSymbols("\U{2B50}") == "\U{2B50}"
    ensures NormalizeSymbols("\U{2B50}") == [Bullet]
  {
    var s := "\U{2B50}";
    assert !IsGarbledStar(s[0]);
    assert Without(s, '`') == s;
  }

  /** The list marker the older converter writes is rewritten by its own
      normaliser: its first character is in the star class. */
  lemma GarbledListMarker()
    ensures GarbledNormalizeSymbols(GarbledBullet + " x")
         == GarbledBullet + ['\U{20AC}', '\U{A2}', ' ', 'x']
  {
    var s := GarbledBullet + " x";
    WithoutAbsentIf(s);
    assert s == ['\U{E2}', '\U{20AC}', '\U{A2}', ' ', 'x'];
    assert s[1..] == ['\U{20AC}', '\U{A2}', ' ', 'x'];
    assert GarbledStars(s[1..]) == s[1..];
  }

  /** So the written normaliser is not idempotent: a second pass grows the
      text again. */
  lemma GarbledNotIdempotent()
    ensures GarbledNormalizeSymbols(GarbledNormalizeSymbols("\U{E2}")) != GarbledNormalizeSymbols("\U{E2}")
  {
    var once := GarbledNormalizeSymbols("\U{E2}");
    assert once[..3] == GarbledBullet;
    assert |once| == 3 by { assert GarbledStars("\U{E2}"[1..]) == []; }
    var twice := GarbledNormalizeSymbols(once);
    assert Without(once, '`') == once by { WithoutAbsentIf(once); }
    assert |twice| > 3 by {
      assert GarbledStars(once) == GarbledBullet + GarbledStars(once[1..]);
      assert |GarbledStars(once[1..])| >= 2;
    }
  }

  /** The corrected normaliser keeps the list marker `• ` and any star-free,
      backtick-free item text. */
  lemma ListMarkerKept(item: string)
    requires '`' !in item && NoStars(item)
    ensures NormalizeSymbols([Bullet, ' '] + item) == [Bullet, ' '] + item
  {
    var s := [Bullet, ' '] + item;
    assert forall i | 0 <= i < |s| :: s[i] == if i < 2 then [Bullet, ' '][i] else item[i - 2];
    assert '`' !in s;
    NormalizeSymbolsFixedIff(s);
  }
}

=== FILE: json.dfy ===
/** JSON values as the CMS returns them, with the JavaScript notions the
    response shaping relies on: truthiness, own properties and field
    picking. */
module Json {
  import opened Wrappers
  import opened Text

  /** A JSON value. Numbers are integers; objects are maps from key to
      value. */
  datatype Json =
    | JNull
    | JBool(b: bool)
    | JNum(n: int)
    | JStr(s: string)
    | JArr(items: seq<Json>)
    | JObj(fields: map<string, Json>)

  /** `!!v` in JavaScript. */
  predicate Truthy(v: Json) {
    match v
    case JNull => false
    case JBool(b) => b
    case JNum(n) => n != 0
    case JStr(s) => s != ""
    case JArr(_) => true
    case JObj(_) => true
  }

  /** `v && typeof v === 'object'`: arrays and objects. */
  predicate IsObject(v: Json) {
    v.JArr? || v.JObj?
  }

  /** The own property `key` of a value: an object's entry, or an array's
      or string's `length` and in-range element indices. */
  function Own(v: Json, key: string): (r: Option<Json>)
    ensures v.JObj? ==> (r.Some? <==> key in v.fields)
    ensures v.JObj? && key in v.fields ==> r == Some(v.fields[key])
    ensures v.JNull? || v.JBool? || v.JNum? ==> r.None?
  {
    match v
    case JObj(fields) => if key in fields then Some(fields[key]) else None
    case JArr(items) =>
      if key == "length" then Some(JNum(|items|))
      else if IsCanonicalIndex(key) && DigitsValue(key) < |items| then Some(items[DigitsValue(key)])
      else None
    case JStr(s) =>
      if key == "length" then Some(JNum(|s|))
      else if IsCanonicalIndex(key) && DigitsValue(key) < |s| then Some(JStr([s[DigitsValue(key)]]))
      else None
    case _ => None
  }

  /** Each element of an array is its own property under its decimal index. */
  lemma OwnIndex(items: seq<Json>, i: nat)
    requires i < |items|
    ensures Own(JArr(items), NatToString(i)) == Some(items[i])
  {
    var key := NatToString(i);
    DigitsValueOfNatToString(i);
    assert key != "length" by { assert IsDigit(key[0]); }
  }

  /** `pickFields`: a non-object, or any value when no field is asked for,
      comes back as it is; otherwise a new object holding the asked-for own
      properties. */
  function PickFields(v: Json, fields: seq<string>): (r: Json)
    ensures !IsObject(v) || |fields| == 0 ==> r == v
    ensures IsObject(v) && |fields| > 0 ==>
      && r.JObj?
      && (forall k :: k in r.fields <==> k in fields && Own(v, k).Some?)
      && (forall k | k in r.fields :: Own(v, k) == Some(r.fields[k]))
  {
    if !IsObject(v) || |fields| == 0 then v
    else JObj(map k | k in fields && Own(v, k).Some? :: Own(v, k).value)
  }

  /** Picking the same fields again changes nothing. */
  lemma PickFieldsIdempotent(v: Json, fields: seq<string>)
    ensures PickFields(PickFields(v, fields), fields) == PickFields(v, fields)
  {
    var r := PickFields(v, fields);
    if IsObject(v) && |fields| > 0 {
      var r2 := PickFields(r, fields);
      assert r2.fields == r.fields;
    }
  }

  /** Asking for every key of an object gives the object back. */
  lemma PickAllFields(fields: map<string, Json>, asked: seq<string>)
    requires |asked| > 0 && forall k | k in fields :: k in asked
    ensures PickFields(JObj(fields), asked) == JObj(fields)
  {
    assert PickFields(JObj(fields), asked).fields == fields;
  }

  /** `response?.data ?? response`: the `data` member when it is present
      and not null, otherwise the response itself. */
  function Unwrap(response: Json): (r: Json)
    ensures r == response || Own(response, "data") == Some(r)
    ensures r != response ==> !r.JNull?
    ensures Own(response, "data").Some? && !Own(response, "data").value.JNull? ==>
      r == Own(response, "data").value
    ensures Own(response, "data").None? || Own(response, "data").value.JNull? ==> r == response
  {
    if response.JObj? && "data" in response.fields && !response.fields["data"].JNull? then response.fields["data"]
    else response
  }

  /** The array a collection response unwraps to, or nothing. */
  function AsArray(v: Json): (items: seq<Json>)
    ensures v.JArr? ==> items == v.items
    ensures !v.JArr? ==> items == []
  {
    if v.JArr? then v.items else []
  }
}

=== FILE: legacy.dfy ===
/** The older converter kept next to the PDF generator. Its table handling
    and line rendering match the formatter's, but it classifies each line
    with only its trailing whitespace removed, and it drops a blank line
    before a heading before classifying the line. */
module Legacy {
  import opened Wrappers
  import opened Text
  import opened Symbols
  import opened Content
  import opened Table
  import opened LineSyntax
  import Formatter

  /** `replaceParsedLine`: the blocks of one line, classified on the line
      with trailing whitespace removed. */
  function ReplaceParsedLine(line: string): (blocks: seq<Block>)
    ensures BlocksWellFormed(blocks)
  {
    Render(Classify(line, TrimEnd(line)))
  }

  /** The legacy `convertMarkdownToPdfEasy` over `lines[i..]`. */
  function Convert(lines: seq<string>, i: nat): seq<Block>
    decreases if i < |lines| then |lines| - i else 0
  {
    if i >= |lines| then []
    else if Formatter.StartsTable(lines, i) then
      var tb := ParseTableBlock(lines, i);
      tb.content + Convert(lines, tb.next)
    else if Trim(lines[i]) == "" && i + 1 < |lines| && HeadingAhead(Trim(lines[i + 1])) then
      Convert(lines, i + 1)
    else ReplaceParsedLine(lines[i]) + Convert(lines, i + 1)
  }

  function ConvertMarkdown(markdown: string): seq<Block> {
    Convert(Formatter.Lines(markdown), 0)
  }

  /** A line that starts at column zero, or holds nothing but whitespace. */
  predicate FlushLeft(line: string) {
    line == [] || !IsSpace(line[0]) || AllSpace(line)
  }

  /** On a flush-left line both converters see the same key. */
  lemma ReplaceParsedLineAgrees(lines: seq<string>, i: nat)
    requires i < |lines| && FlushLeft(lines[i])
    requires !(Trim(lines[i]) == "" && i + 1 < |lines| && HeadingAhead(Trim(lines[i + 1])))
    ensures ReplaceParsedLine(lines[i]) == Formatter.LineBlocks(lines, i)
  {
    TrimEndIsTrim(lines[i]);
  }

  /** A line outside any table: a blank before a heading is dropped, any
      other line is rendered on its own. */
  lemma LineStep(lines: seq<string>, i: nat)
    requires i < |lines| && !Formatter.StartsTable(lines, i)
    ensures Convert(lines, i) ==
      if Trim(lines[i]) == "" && i + 1 < |lines| && HeadingAhead(Trim(lines[i + 1])) then Convert(lines, i + 1)
      else ReplaceParsedLine(lines[i]) + Convert(lines, i + 1)
  {
  }

  lemma FormatterLineStep(lines: seq<string>, i: nat)
    requires i < |lines| && !Formatter.StartsTable(lines, i)
    ensures Formatter.Convert(lines, i) == Formatter.LineBlocks(lines, i) + Formatter.Convert(lines, i + 1)
  {
  }

  lemma BlankBeforeHeading(lines: seq<string>, i: nat)
    requires i + 1 < |lines| && Trim(lines[i]) == "" && HeadingAhead(Trim(lines[i + 1]))
    ensures Formatter.LineBlocks(lines, i) == []
  {
  }

  /** One flush-left line outside a table leads both converters to the
      same blocks, given that they agree on the rest. */
  lemma LineAgrees(lines: seq<string>, i: nat)
    requires i < |lines| && !Formatter.StartsTable(lines, i) && FlushLeft(lines[i])
    requires Convert(lines, i + 1) == Formatter.Convert(lines, i + 1)
    ensures Convert(lines, i) == Formatter.Convert(lines, i)
  {
    LineStep(lines, i);
    FormatterLineStep(lines, i);
    if Trim(lines[i]) == "" && i + 1 < |lines| && HeadingAhead(Trim(lines[i + 1])) {
      BlankBeforeHeading(lines, i);
    } else {
      ReplaceParsedLineAgrees(lines, i);
    }
  }

  /** When no line is indented, the two converters produce the same blocks. */
  lemma {:induction false} ConvertAgrees(lines: seq<string>, i: nat)
    requires forall k | 0 <= k < |lines| :: FlushLeft(lines[k])
    ensures Convert(lines, i) == Formatter.Convert(lines, i)
    decreases if i < |lines| then |lines| - i else 0
  {
    if i < |lines| {
      if Formatter.StartsTable(lines, i) {
        ConvertAgrees(lines, ParseTableBlock(lines, i).next);
      } else {
        ConvertAgrees(lines, i + 1);
        LineAgrees(lines, i);
      }
    }
  }

  lemma ClassifyHashLine()
    ensures Classify(" # A", "# A") == Heading(1, "A")
  {
    HashKeyNotQuoteOrRule();
    HashKeyMarkers();
    assert Trim("A") == "A" by { TrimOfTrimmed("A"); }
    assert NormalizeSymbols("A") == "A" by { NormalizeSymbolsFixedIff("A"); }
  }

  lemma HashKeyNotQuoteOrRule()
    ensures MarkerContent("# A", ">").None? && !IsRule("# A")
  {
    assert "# A"[..1][0] != ">"[0];
    assert Trim("# A") == "# A" by {
      assert SkipSpaces("# A", 0) == 0;
      assert BackSpaces("# A", 0, 3) == 3;
    }
  }

  lemma HashKeyMarkers()
    ensures MarkerContent("# A", "###").None? && MarkerContent("# A", "##").None?
    ensures MarkerContent("# A", "#") == Some("A")
  {
    assert "# A"[..1] == "#";
    assert "# A"[..2][1] != "##"[1];
    assert "# A"[1..] == " A";
    assert TrimStart(" A") == "A" by { assert SkipSpaces(" A", 0) == 1; }
  }

  lemma TrimHashLine()
    ensures Trim(" # A") == "# A"
  {
    assert SkipSpaces(" # A", 0) == 1;
    assert BackSpaces(" # A", 1, 4) == 4;
  }

  /** An indented heading is a heading to the formatter. */
  lemma IndentedHeadingFormatter()
    ensures Formatter.Convert([" # A"], 0) == [Text(Run("A\n", HeadingStyle(1)))]
  {
    var lines := [" # A"];
    TrimHashLine();
    ClassifyHashLine();
    assert !Formatter.StartsTable(lines, 0);
    FormatterLineStep(lines, 0);
    assert Classify(lines[0], Trim(lines[0])) == Heading(1, "A");
    assert "A" + "\n" == "A\n";
    assert Render(Heading(1, "A")) == [Text(Run("A\n", HeadingStyle(1)))];
    assert Formatter.LineBlocks(lines, 0) == [Text(Run("A\n", HeadingStyle(1)))];
  }

  /** The same line is a paragraph to the legacy converter, which looks for
      the heading marker at column zero only. */
  lemma IndentedHeadingLegacy()
    ensures var blocks := Convert([" # A"], 0); |blocks| >= 1 && blocks[0].Stack?
  {
    var lines := [" # A"];
    LineStep(lines, 0);
    IndentedKeyParagraph();
    assert ReplaceParsedLine(lines[0]) == ParagraphBlocks(" # A");
  }

  /** The indented line, read with only its trailing whitespace removed, is
      a paragraph of its own characters. */
  lemma IndentedKeyParagraph()
    ensures TrimEnd(" # A") == " # A" && Classify(" # A", " # A") == Paragraph(" # A")
  {
    var line := " # A";
    assert BackSpaces(line, 0, 4) == 4;
    IndentedKeyUnmarked();
    IndentedTextPlain();
    assert ParagraphText(line, line) == line;
  }

  lemma IndentedTextPlain()
    ensures NormalizeSymbols(" # A") == " # A"
  {
    var line := " # A";
    assert NoStars(line) by {
      assert line[0] == ' ' && line[1] == '#' && line[2] == ' ' && line[3] == 'A';
    }
    NormalizeSymbolsFixedIff(line);
  }

  lemma IndentedKeyUnmarked()
    ensures MarkerContent(" # A", ">").None? && !IsRule(" # A")
    ensures MarkerContent(" # A", "###").None? && MarkerContent(" # A", "##").None?
    ensures MarkerContent(" # A", "#").None? && MarkerContent(" # A", "-").None?
  {
    TrimHashLine();
    MarkerAfterSpace(" # A", ">");
    MarkerAfterSpace(" # A", "###");
    MarkerAfterSpace(" # A", "##");
    MarkerAfterSpace(" # A", "#");
    MarkerAfterSpace(" # A", "-");
  }

  /** A key that starts with a space holds no marker. */
  lemma MarkerAfterSpace(key: string, marker: string)
    requires |key| > 0 && key[0] == ' ' && |marker| > 0 && marker[0] != ' '
    ensures MarkerContent(key, marker).None?
  {
    if |key| > |marker| {
      assert key[..|marker|][0] != marker[0];
    }
  }
}

=== FILE: linesyntax.dfy ===
/** What a single markdown line means to the converters: blockquote, rule,
    heading, blank line or paragraph, and the blocks each of these emits.
    Both converters share this classification; they differ only in the key
    they classify, the trimmed line or the line with trailing whitespace
    removed. */
module LineSyntax {
  import opened Wrappers
  import opened Text
  import opened Symbols
  import opened Emphasis
  import opened Content

  // ---------------------------------------------------------------------
  // Line patterns

  /** The pattern `^M\s+(.*)$` on `key`: the marker, at least one whitespace
      character, then the rest of the line as the capture. The greedy `\s+`
      leaves the capture without leading whitespace, and `.` does not cross
      a line terminator. */
  function MarkerContent(key: string, marker: string): (c: Option<string>)
    ensures c.Some? ==> NoLineTerminator(c.value) && (c.value == [] || !IsSpace(c.value[0]))
  {
    var m := |marker|;
    if |key| > m && key[..m] == marker && IsSpace(key[m]) then
      var rest := TrimStart(key[m..]);
      if NoLineTerminator(rest) then Some(rest) else None
    else None
  }

  /** The regex's reading of a match: marker, whitespace, capture. */
  predicate MarkerMatch(key: string, marker: string, ws: string, c: string) {
    key == marker + ws + c && |ws| >= 1 && AllSpace(ws) && NoLineTerminator(c)
  }

  /** A captured marker line splits as the regex describes. */
  lemma MarkerContentSound(key: string, marker: string) returns (ws: string)
    requires MarkerContent(key, marker).Some?
    ensures MarkerMatch(key, marker, ws, MarkerContent(key, marker).value)
  {
    var m := |marker|;
    var rest := TrimStart(key[m..]);
    ws := key[m..|key| - |rest|];
    assert key == key[..m] + key[m..];
    assert key[m..] == ws + rest;
  }

  /** Any split the regex accepts is found, and the capture is what follows
      the longest whitespace run. */
  lemma MarkerContentComplete(key: string, marker: string, ws: string, c: string)
    requires MarkerMatch(key, marker, ws, c)
    ensures MarkerContent(key, marker) == Some(TrimStart(c))
  {
    var m := |marker|;
    assert key[..m] == marker;
    assert key[m] == ws[0];
    assert key[m..] == ws + c;
    var i := SkipSpaces(c, 0);
    TrimStartUnique(ws + c, |ws| + i);
    assert (ws + c)[|ws| + i..] == c[i..];
  }

  /** `^#{n}\s`: exactly `n` hashes at the start, then whitespace. */
  predicate HeadingAt(key: string, n: nat) {
    |key| > n && AllHashes(key[..n]) && IsSpace(key[n])
  }

  /** `^#{1,3}\s+`: one to three hashes and then whitespace. */
  predicate HeadingAhead(key: string) {
    exists n | 1 <= n <= 3 :: HeadingAt(key, n)
  }

  predicate AllHashes(s: string) {
    forall i | 0 <= i < |s| :: s[i] == '#'
  }

  /** `^\s*---\s*$`: three hyphens with only whitespace around them. */
  predicate IsRule(key: string) {
    Trim(key) == "---"
  }

  /** The rule pattern as the regex reads it. */
  lemma IsRuleIff(key: string)
    ensures IsRule(key) <==> exists i | 0 <= i <= |key| - 3 ::
      key[i..i + 3] == "---" && AllSpace(key[..i]) && AllSpace(key[i + 3..])
  {
    if IsRule(key) {
      var i := RuleAt(key);
    }
    if exists i | 0 <= i <= |key| - 3 :: key[i..i + 3] == "---" && AllSpace(key[..i]) && AllSpace(key[i + 3..]) {
      var i :| 0 <= i <= |key| - 3 && key[i..i + 3] == "---" && AllSpace(key[..i]) && AllSpace(key[i + 3..]);
      RuleFrom(key, i);
    }
  }

  /** Where the dashes of a rule sit. */
  lemma RuleAt(key: string) returns (i: nat)
    requires IsRule(key)
    ensures i + 3 <= |key| && key[i..i + 3] == "---" && AllSpace(key[..i]) && AllSpace(key[i + 3..])
  {
    var j;
    i, j := TrimBounds(key);
    assert key[i..j] == "---";
    assert j == i + 3;
  }

  /** Dashes framed by whitespace make a rule. */
  lemma RuleFrom(key: string, i: nat)
    requires i + 3 <= |key| && key[i..i + 3] == "---" && AllSpace(key[..i]) && AllSpace(key[i + 3..])
    ensures IsRule(key)
  {
    assert key[i] == key[i..i + 3][0] == '-';
    assert key[i + 2] == key[i..i + 3][2] == '-';
    assert forall k | 0 <= k < i :: key[k] == key[..i][k];
    assert forall k | i + 3 <= k < |key| :: key[k] == key[i + 3..][k - i - 3];
    TrimUnique(key, i, i + 3);
  }

  // ---------------------------------------------------------------------
  // Classification

  datatype LineKind =
    | Quote(text: string)
    | Rule
    | Heading(level: nat, title: string)
    | Blank
    | Paragraph(text: string)

  /** The list marker `- ` becomes a bullet; any other line is kept whole,
      leading whitespace included. */
  function ParagraphText(line: string, key: string): string {
    match MarkerContent(key, "-")
    case Some(item) => [Bullet, ' '] + item
    case None => line
  }

  /** The kind of a line, tried in the order the converters try them: quote,
      rule, third-, second- and first-level heading, blank, paragraph. */
  function Classify(line: string, key: string): (k: LineKind)
    ensures k.Heading? ==> 1 <= k.level <= 3
    ensures k.Blank? <==> key == "" 
  {
    if MarkerContent(key, ">").Some? then Quote(NormalizeSymbols(Trim(MarkerContent(key, ">").value)))
    else if IsRule(key) then Rule
    else if MarkerContent(key, "###").Some? then Heading(3, NormalizeSymbols(Trim(MarkerContent(key, "###").value)))
    else if MarkerContent(key, "##").Some? then Heading(2, NormalizeSymbols(Trim(MarkerContent(key, "##").value)))
    else if MarkerContent(key, "#").Some? then Heading(1, NormalizeSymbols(Trim(MarkerContent(key, "#").value)))
    else if key == "" then Blank
    else Paragraph(NormalizeSymbols(ParagraphText(line, key)))
  }

  // ---------------------------------------------------------------------
  // Rendering

  /** The runs of a paragraph's segments, with a newline closing the last. */
  function SegmentRuns(segs: seq<Segment>): (runs: seq<Run>)
    ensures |runs| == |segs|
    ensures forall i | 0 <= i < |segs| ::
      runs[i].style == BodyStyle(segs[i].bold)
      && runs[i].raw == segs[i].text + (if i == |segs| - 1 then "\n" else "")
  {
    seq(|segs|, i requires 0 <= i < |segs| =>
      Run(segs[i].text + (if i == |segs| - 1 then "\n" else ""), BodyStyle(segs[i].bold)))
  }

  /** A paragraph: one stack of plain and bold runs split at `**x**`, or a
      bare text run when the line holds no characters at all. */
  function ParagraphBlocks(text: string): (blocks: seq<Block>)
    ensures |blocks| == 1 && BlocksWellFormed(blocks)
    ensures blocks[0].Text? <==> text == ""
  {
    var segs := Segments(text, "");
    if |segs| == 0 then [Text(Run(text + "\n", BodyStyle(false)))]
    else [Stack(SegmentRuns(segs))]
  }

  /** No block prints nothing but a line break: runs carry characters and
      stacks carry runs. */
  predicate BlocksWellFormed(blocks: seq<Block>) {
    forall i | 0 <= i < |blocks| ::
      match blocks[i]
      case Text(r) => r.raw != ""
      case Stack(rs) => |rs| > 0 && forall j | 0 <= j < |rs| :: rs[j].raw != ""
      case LineBreak => true
  }

  lemma BlocksWellFormedConcat(a: seq<Block>, b: seq<Block>)
    requires BlocksWellFormed(a) && BlocksWellFormed(b)
    ensures BlocksWellFormed(a + b)
  {
    forall i | 0 <= i < |a + b| ensures (a + b)[i] == if i < |a| then a[i] else b[i - |a|] { }
  }

  /** The blocks a classified line emits: at most two, none of them empty. */
  function Render(k: LineKind): (blocks: seq<Block>)
    requires k.Heading? ==> 1 <= k.level <= 3
    ensures 1 <= |blocks| <= 2 || (k.Rule? && blocks == [])
    ensures BlocksWellFormed(blocks)
  {
    match k
    case Quote(t) => if t != "" then [Text(Run(t, QuoteStyle)), LineBreak] else [LineBreak]
    case Rule => []
    case Heading(level, t) =>
      if t == "" then [LineBreak]
      else [Text(Run(if level == 3 then "\n" + t + "\n" else t + "\n", HeadingStyle(level)))]
    case Blank => [LineBreak]
    case Paragraph(t) => ParagraphBlocks(t)
  }

  /** The blocks of a line, classified on `key`. */
  function LineOutput(line: string, key: string): seq<Block> {
    Render(Classify(line, key))
  }

  // ---------------------------------------------------------------------
  // Properties

  lemma {:induction false} SpellSegmentRuns(segs: seq<Segment>, runs: seq<Run>)
    requires |segs| == |runs| > 0
    requires forall i | 0 <= i < |segs| :: runs[i].raw == segs[i].text + (if i == |segs| - 1 then "\n" else "")
    ensures SpellRuns(runs) == Texts(segs) + "\n"
    decreases |segs|
  {
    if |segs| > 1 {
      SpellSegmentRuns(segs[1..], runs[1..]);
    }
  }

  /** A paragraph prints its text with every `**x**` replaced by `x`, and
      a closing newline. */
  lemma ParagraphSpelling(text: string)
    ensures Spell(ParagraphBlocks(text)) == Unwrap(text, 2) + "\n"
  {
    var segs := Segments(text, "");
    SegmentsSpellUnwrap(text, "");
    if |segs| > 0 {
      SpellSegmentRuns(segs, SegmentRuns(segs));
    } else {
      assert text == "";
    }
  }

  lemma HeadingAtUnique(key: string, n: nat, m: nat)
    requires HeadingAt(key, n) && HeadingAt(key, m)
    ensures n == m
  {
  }

  lemma HeadingMarker(key: string, n: nat)
    requires 1 <= n <= 3
    ensures MarkerContent(key, Hashes(n)).Some? ==> HeadingAt(key, n)
    ensures HeadingAt(key, n) && NoLineTerminator(key) ==> MarkerContent(key, Hashes(n)).Some?
  {
    if HeadingAt(key, n) && NoLineTerminator(key) {
      assert key[..n] == Hashes(n);
      var rest := TrimStart(key[n..]);
      assert forall i | 0 <= i < |rest| :: rest[i] == key[|key| - |rest| + i];
    }
  }

  function Hashes(n: nat): (h: string)
    ensures |h| == n && AllHashes(h)
  {
    if n == 0 then "" else Hashes(n - 1) + "#"
  }

  /** A key opening with hashes is neither a blockquote nor a rule. */
  lemma HeadingNotEarlier(key: string, n: nat)
    requires HeadingAt(key, n) && n >= 1
    ensures MarkerContent(key, ">").None? && !IsRule(key)
  {
    assert key[..n][0] == '#';
    if IsRule(key) {
      var i, j := TrimBounds(key);
    }
  }

  /** On a single line, the converters render a heading of level `n` exactly
      when the key opens with `n` hashes and whitespace. */
  lemma ClassifyHeading(line: string, key: string, n: nat)
    requires NoLineTerminator(key) && 1 <= n <= 3
    ensures Classify(line, key).Heading? && Classify(line, key).level == n <==> HeadingAt(key, n)
  {
    assert Hashes(3) == "###" && Hashes(2) == "##" && Hashes(1) == "#";
    HeadingMarker(key, 1);
    HeadingMarker(key, 2);
    HeadingMarker(key, 3);
    if HeadingAt(key, n) {
      HeadingNotEarlier(key, n);
      if n != 3 && HeadingAt(key, 3) { HeadingAtUnique(key, n, 3); }
      if n != 2 && HeadingAt(key, 2) { HeadingAtUnique(key, n, 2); }
    }
  }

  /** Whether any line classifies as a heading depends on its key alone. */
  lemma ClassifyHeadingAhead(line: string, key: string)
    requires NoLineTerminator(key)
    ensures Classify(line, key).Heading? <==> HeadingAhead(key)
  {
    var k := Classify(line, key);
    if k.Heading? {
      ClassifyHeading(line, key, k.level);
    }
    if HeadingAhead(key) {
      var n :| 1 <= n <= 3 && HeadingAt(key, n);
      ClassifyHeading(line, key, n);
    }
  }
}

=== FILE: pdffile.dfy ===
/** The document settings the PDF generator derives from its options: a
    safe file name, the export name, merged metadata and the document
    information dictionary. */
module PdfDocument {
  import opened Wrappers
  import opened Text

  // ---------------------------------------------------------------------
  // Safe file names

  /** The characters `[\0<>:"/\\|?*\n\r]` removed from file names. */
  predicate Forbidden(c: char) {
    c == '\0' || c == '<' || c == '>' || c == ':' || c == '"' || c == '/'
    || c == '\\' || c == '|' || c == '?' || c == '*' || c == '\n' || c == '\r'
  }

  /** The name with every forbidden character deleted. */
  function DropForbidden(s: string): (r: string)
    ensures forall i | 0 <= i < |r| :: !Forbidden(r[i])
    ensures forall x | x in r :: x in s
    ensures (forall i | 0 <= i < |s| :: !Forbidden(s[i])) ==> r == s
    decreases |s|
  {
    if |s| == 0 then ""
    else (if Forbidden(s[0]) then "" else [s[0]]) + DropForbidden(s[1..])
  }

  /** `replace(/\s+/g, '_')`: every maximal whitespace run becomes one `_`. */
  function CollapseSpaces(s: string): (r: string)
    ensures forall i | 0 <= i < |r| :: !IsSpace(r[i])
    ensures forall x | x in r :: x in s || x == '_'
    ensures |r| <= |s|
    decreases |s|
  {
    if |s| == 0 then ""
    else if IsSpace(s[0]) then
      var j := SkipSpaces(s, 0);
      "_" + CollapseSpaces(s[j..])
    else [s[0]] + CollapseSpaces(s[1..])
  }

  /** No two underscores produced from whitespace are adjacent: the runs
      are maximal, so a run's `_` is followed by the non-space character
      that ended it. Stated on the run: a text without whitespace is kept. */
  lemma {:induction false} CollapseSpacesFixed(s: string)
    requires forall i | 0 <= i < |s| :: !IsSpace(s[i])
    ensures CollapseSpaces(s) == s
    decreases |s|
  {
    if |s| > 0 {
      CollapseSpacesFixed(s[1..]);
    }
  }

  /** A whitespace run and what follows it collapse to `_` and the rest. */
  lemma CollapseRun(w: string, t: string)
    requires |w| >= 1 && AllSpace(w) && (t == [] || !IsSpace(t[0]))
    ensures CollapseSpaces(w + t) == "_" + CollapseSpaces(t)
  {
    var s := w + t;
    assert s[0] == w[0];
    assert s[|w|..] == t;
  }

  /** The first `n` characters, or all of them. */
  function Take(s: string, n: nat): (r: string)
    ensures |r| <= n && r <= s
    ensures |s| <= n ==> r == s
  {
    if |s| <= n then s else s[..n]
  }

  const MaxFilenameLength := 200

  /** `createSafeFilename`. */
  function SafeFilename(text: string): (r: string)
    ensures |r| <= MaxFilenameLength
  {
    Take(CollapseSpaces(Trim(DropForbidden(text))), MaxFilenameLength)
  }

  /** A safe name holds no forbidden character and no whitespace. */
  lemma SafeFilenameChars(text: string)
    ensures forall i | 0 <= i < |SafeFilename(text)| ::
      !Forbidden(SafeFilename(text)[i]) && !IsSpace(SafeFilename(text)[i])
  {
    var d := DropForbidden(text);
    var t := Trim(d);
    var i0, j0 := TrimBounds(d);
    assert forall x | x in t :: x in d by {
      forall x | x in t ensures x in d {
        var k :| 0 <= k < |t| && t[k] == x;
        assert d[i0 + k] == x;
      }
    }
    var c := CollapseSpaces(t);
    var r := SafeFilename(text);
    forall i | 0 <= i < |r| ensures !Forbidden(r[i]) && !IsSpace(r[i]) {
      assert r[i] == c[i];
      assert c[i] in c;
      if c[i] != '_' {
        assert c[i] in d;
      }
    }
  }

  /** A name that is already safe is left alone. */
  lemma SafeFilenameFixed(s: string)
    requires forall i | 0 <= i < |s| :: !Forbidden(s[i]) && !IsSpace(s[i])
    requires |s| <= MaxFilenameLength
    ensures SafeFilename(s) == s
  {
    if s != [] {
      TrimOfTrimmed(s);
    }
    CollapseSpacesFixed(s);
  }

  /** Making a name safe twice is making it safe once. */
  lemma SafeFilenameIdempotent(text: string)
    ensures SafeFilename(SafeFilename(text)) == SafeFilename(text)
  {
    SafeFilenameChars(text);
    SafeFilenameFixed(SafeFilename(text));
  }

  // ---------------------------------------------------------------------
  // The `.pdf` extension

  const PdfSuffix := ".pdf"

  /** The name ends in `.pdf` in any letter case. */
  predicate HasPdfSuffix(s: string) {
    EndsWith(ToLower(s), PdfSuffix)
  }

  /** `ensurePdfExtension`. */
  function EnsurePdfExtension(s: string): (r: string)
    ensures HasPdfSuffix(r)
    ensures HasPdfSuffix(s) ==> r == s
    ensures !HasPdfSuffix(s) ==> r == s + PdfSuffix
  {
    if HasPdfSuffix(s) then s
    else
      assert ToLower(s + PdfSuffix)[|s|..] == PdfSuffix;
      s + PdfSuffix
  }

  lemma EnsurePdfExtensionIdempotent(s: string)
    ensures EnsurePdfExtension(EnsurePdfExtension(s)) == EnsurePdfExtension(s)
  {
  }

  /** `replace(/\.pdf$/i, '')`: one trailing `.pdf`, in any case, removed. */
  function StripPdfSuffix(s: string): (r: string)
    ensures HasPdfSuffix(s) ==> |r| == |s| - 4 && s == r + s[|r|..]
    ensures !HasPdfSuffix(s) ==> r == s
  {
    if HasPdfSuffix(s) then s[..|s| - 4] else s
  }

  /** The export name is the file name without its extension, and adding
      the extension back gives the file name of a name that lacked one. */
  lemma StripEnsureRoundTrip(s: string)
    requires !HasPdfSuffix(s)
    ensures StripPdfSuffix(EnsurePdfExtension(s)) == s
  {
    assert (s + PdfSuffix)[..|s|] == s;
  }

  // ---------------------------------------------------------------------
  // Metadata

  datatype Keywords = KeywordList(items: seq<string>) | KeywordText(text: string)

  /** `PdfMetadata` without the two dates. `None` stands for an absent key. */
  datatype Metadata = Metadata(
    title: Option<string>,
    author: Option<string>,
    subject: Option<string>,
    keywords: Option<Keywords>,
    creator: Option<string>,
    producer: Option<string>)

  const DefaultKeywords: seq<string> := [
    "denis", "steinhorst", "steinhorst-dev", "summary", "portfolio", "developer",
    "frontend", "backend", "fullstack", "software", "engineer", "web", "app",
    "vue", "nuxt", "javascript", "typescript", "nodejs"]

  /** `steinhorst-dev_zusammenfassung`, spelled in two pieces. */
  const DefaultStem := "steinhorst-dev" + "_zusammenfassung"
  const DefaultTitle := DefaultStem + PdfSuffix

  const DefaultMetadata := Metadata(
    Some(DefaultTitle),
    Some("Denis Steinhorst"),
    Some("ai-generated PDF summary from www.steinhorst.dev"),
    Some(KeywordList(DefaultKeywords)),
    Some("www.steinhorst.dev"),
    Some("PDFKit"))

  const NoMetadata := Metadata(None, None, None, None, None, None)

  function Or<T>(o: Option<T>, fallback: Option<T>): (r: Option<T>)
    ensures o.Some? ==> r == o
    ensures o.None? ==> r == fallback
  {
    if o.Some? then o else fallback
  }

  /** `{ ...base, ...overrides }`: every key the overrides carry wins. */
  function MergeMetadata(base: Metadata, overrides: Metadata): (m: Metadata)
    ensures overrides == NoMetadata ==> m == base
    ensures overrides.title.Some? ==> m.title == overrides.title
    ensures overrides.title.None? ==> m.title == base.title
    ensures overrides.author.Some? ==> m.author == overrides.author
    ensures overrides.author.None? ==> m.author == base.author
    ensures overrides.subject.Some? ==> m.subject == overrides.subject
    ensures overrides.subject.None? ==> m.subject == base.subject
    ensures overrides.keywords.Some? ==> m.keywords == overrides.keywords
    ensures overrides.keywords.None? ==> m.keywords == base.keywords
    ensures overrides.creator.Some? ==> m.creator == overrides.creator
    ensures overrides.creator.None? ==> m.creator == base.creator
    ensures overrides.producer.Some? ==> m.producer == overrides.producer
    ensures overrides.producer.None? ==> m.producer == base.producer
  {
    Metadata(
      Or(overrides.title, base.title),
      Or(overrides.author, base.author),
      Or(overrides.subject, base.subject),
      Or(overrides.keywords, base.keywords),
      Or(overrides.creator, base.creator),
      Or(overrides.producer, base.producer))
  }

  /** Merging is associative: later overrides win over earlier ones. */
  lemma MergeMetadataAssociative(a: Metadata, b: Metadata, c: Metadata)
    ensures MergeMetadata(MergeMetadata(a, b), c) == MergeMetadata(a, MergeMetadata(b, c))
  {
  }

  // ---------------------------------------------------------------------
  // Generator options

  datatype Margins = Margins(top: Option<int>, bottom: Option<int>, left: Option<int>, right: Option<int>)

  datatype Options = Options(
    size: Option<string>,
    margins: Option<Margins>,
    clientEmit: Option<string>,
    filename: Option<string>,
    meta: Option<Metadata>)

  datatype Settings = Settings(size: string, margins: Margins, clientEmit: string)

  const DefaultMargins := Margins(Some(5), Some(5), Some(5), Some(5))

  /** Destructuring with defaults: `a4`, 5-point margins, blob output. */
  function ResolveSettings(o: Options): (s: Settings)
    ensures o.size.Some? ==> s.size == o.size.value
    ensures o.margins.Some? ==> s.margins == o.margins.value
    ensures o.clientEmit.Some? ==> s.clientEmit == o.clientEmit.value
    ensures o.size.None? ==> s.size == "a4"
    ensures o.margins.None? ==> s.margins == DefaultMargins
    ensures o.clientEmit.None? ==> s.clientEmit == "blob"
  {
    Settings(o.size.GetOr("a4"), o.margins.GetOr(DefaultMargins), o.clientEmit.GetOr("blob"))
  }

  /** The metadata in effect: the defaults overridden by `options.meta`. */
  function EffectiveMetadata(o: Options): Metadata {
    MergeMetadata(DefaultMetadata, o.meta.GetOr(NoMetadata))
  }

  const DefaultFilename := "document.pdf"

  /** The title is a string with something other than whitespace in it. */
  predicate NonBlank(t: Option<string>) {
    t.Some? && Trim(t.value) != ""
  }

  /** The download file name: a non-empty `filename` option wins; without
      one, a non-blank title is made safe and given the extension; failing
      both, the option as given, or `document.pdf` when absent. */
  function Filename(o: Options, meta: Metadata): (name: string)
    ensures o.filename.Some? && o.filename.value != "" ==> name == o.filename.value
    ensures (o.filename.None? || o.filename.value == "") && NonBlank(meta.title) ==>
      name == EnsurePdfExtension(SafeFilename(meta.title.value)) && HasPdfSuffix(name)
    ensures o.filename.None? && !NonBlank(meta.title) ==> name == DefaultFilename
  {
    var filename := o.filename.GetOr(DefaultFilename);
    if (o.filename.None? || o.filename.value == "") && NonBlank(meta.title) then
      EnsurePdfExtension(SafeFilename(meta.title.value))
    else filename
  }

  /** An empty `filename` option is kept when there is no usable title. */
  lemma EmptyFilenameKept(o: Options, meta: Metadata)
    requires o.filename == Some("") && !NonBlank(meta.title)
    ensures Filename(o, meta) == ""
  {
  }

  /** The export name: the file name without a trailing `.pdf`. */
  function ExportName(o: Options, meta: Metadata): string {
    StripPdfSuffix(Filename(o, meta))
  }

  /** A derived file name loses exactly the extension it was given. */
  lemma ExportNameOfTitle(o: Options, meta: Metadata)
    requires (o.filename.None? || o.filename.value == "") && NonBlank(meta.title)
    requires !HasPdfSuffix(SafeFilename(meta.title.value))
    ensures ExportName(o, meta) == SafeFilename(meta.title.value)
  {
    StripEnsureRoundTrip(SafeFilename(meta.title.value));
  }

  const NoOptions := Options(None, None, None, None, None)

  lemma DefaultTitleSafe()
    ensures SafeFilename(DefaultTitle) == DefaultTitle
    ensures NonBlank(Some(DefaultTitle))
  {
    var t := DefaultTitle;
    PlainHead();
    PlainTail();
    PlainSuffix();
    PlainConcat("steinhorst-dev", "_zusammenfassung");
    PlainConcat(DefaultStem, PdfSuffix);
    SafeFilenameFixed(t);
    TrimOfTrimmed(t);
  }

  /** Neither forbidden nor whitespace: kept by `SafeFilename`. */
  predicate Plain(s: string) {
    forall i | 0 <= i < |s| :: !Forbidden(s[i]) && !IsSpace(s[i])
  }

  lemma PlainConcat(a: string, b: string)
    requires Plain(a) && Plain(b)
    ensures Plain(a + b)
  {
    assert forall i | 0 <= i < |a + b| :: (a + b)[i] == if i < |a| then a[i] else b[i - |a|];
  }

  lemma PlainHead()
    ensures Plain("steinhorst-dev")
  {
  }

  lemma PlainTail()
    ensures Plain("_zusammenfassung")
  {
  }

  lemma PlainSuffix()
    ensures Plain(PdfSuffix)
  {
  }

  lemma DefaultTitleSuffix()
    ensures HasPdfSuffix(DefaultTitle)
    ensures StripPdfSuffix(DefaultTitle) == DefaultStem
  {
    var t := DefaultTitle;
    assert ToLower(t)[|t| - 4..] == PdfSuffix;
    assert t[..|t| - 4] == DefaultStem;
  }

  /** Without options the file is named after the default title, which is
      already safe and already carries the extension. */
  lemma DefaultNames()
    ensures Filename(NoOptions, EffectiveMetadata(NoOptions)) == DefaultTitle
    ensures ExportName(NoOptions, EffectiveMetadata(NoOptions)) == DefaultStem
  {
    DefaultTitleSafe();
    DefaultTitleSuffix();
    assert EffectiveMetadata(NoOptions).title == Some(DefaultTitle);
  }

  // ---------------------------------------------------------------------
  // The document information dictionary

  /** A string that JavaScript treats as true: present and not empty. */
  predicate Truthy(t: Option<string>) {
    t.Some? && t.value != ""
  }

  /** The keys of the document information dictionary, in the order the
      generator writes them. */
  datatype InfoKey = Title | Author | Subject | KeywordsKey | Creator | Producer
  {
    function Rank(): nat {
      match this
      case Title => 0
      case Author => 1
      case Subject => 2
      case KeywordsKey => 3
      case Creator => 4
      case Producer => 5
    }
  }

  datatype Entry = Entry(key: InfoKey, value: string)

  /** The value of a field when JavaScript treats it as true. */
  function WhenTruthy(t: Option<string>): (r: Option<string>)
    ensures r.Some? <==> Truthy(t)
    ensures r.Some? ==> r == t
  {
    if Truthy(t) then t else None
  }

  /** The text of the keywords: a list (always truthy, even empty) is
      joined with commas, a string is kept when not empty. */
  function KeywordsText(k: Option<Keywords>): (t: Option<string>)
    ensures k.Some? && k.value.KeywordList? ==> t == Some(Join(k.value.items, ", "))
    ensures k.Some? && k.value.KeywordText? ==> t == WhenTruthy(Some(k.value.text))
    ensures k.None? ==> t.None?
  {
    match k
    case None => None
    case Some(KeywordList(items)) => Some(Join(items, ", "))
    case Some(KeywordText(s)) => WhenTruthy(Some(s))
  }

  /** Each candidate key with the value it would carry, in writing order. */
  function Fields(meta: Metadata): seq<(InfoKey, Option<string>)> {
    [ (Title, if Truthy(meta.title) then Some(StripPdfSuffix(meta.title.value)) else None),
      (Author, WhenTruthy(meta.author)),
      (Subject, WhenTruthy(meta.subject)),
      (KeywordsKey, KeywordsText(meta.keywords)),
      (Creator, WhenTruthy(meta.creator)),
      (Producer, WhenTruthy(meta.producer)) ]
  }

  /** The spread of conditional one-key objects: an entry for each field
      that has a value. */
  function Collect(fs: seq<(InfoKey, Option<string>)>): (info: seq<Entry>)
    ensures |info| <= |fs|
  {
    if |fs| == 0 then []
    else (if fs[0].1.Some? then [Entry(fs[0].0, fs[0].1.value)] else []) + Collect(fs[1..])
  }

  /** `documentInfo` without the two dates. */
  function DocumentInfo(meta: Metadata): seq<Entry> {
    Collect(Fields(meta))
  }

  /** The value stored under `key`, if any. */
  function Lookup(info: seq<Entry>, key: InfoKey): Option<string>
  {
    if |info| == 0 then None
    else if info[0].key == key then Some(info[0].value)
    else Lookup(info[1..], key)
  }

  /** The value a field list gives `key`. */
  function FieldValue(fs: seq<(InfoKey, Option<string>)>, key: InfoKey): Option<string>
  {
    if |fs| == 0 then None
    else if fs[0].0 == key then fs[0].1
    else FieldValue(fs[1..], key)
  }

  predicate RanksAscend(fs: seq<(InfoKey, Option<string>)>) {
    forall i, j | 0 <= i < j < |fs| :: fs[i].0.Rank() < fs[j].0.Rank()
  }

  /** Keys strictly ascending in rank: a fixed order, each key at most once. */
  predicate Ordered(info: seq<Entry>) {
    forall i, j | 0 <= i < j < |info| :: info[i].key.Rank() < info[j].key.Rank()
  }

  lemma {:induction false} CollectAbove(fs: seq<(InfoKey, Option<string>)>, lo: int)
    requires forall i | 0 <= i < |fs| :: fs[i].0.Rank() > lo
    ensures forall i | 0 <= i < |Collect(fs)| :: Collect(fs)[i].key.Rank() > lo
    decreases |fs|
  {
    if |fs| > 0 {
      CollectAbove(fs[1..], lo);
    }
  }

  lemma RanksAscendTail(fs: seq<(InfoKey, Option<string>)>)
    requires |fs| > 0 && RanksAscend(fs)
    ensures RanksAscend(fs[1..])
    ensures forall i | 0 <= i < |fs[1..]| :: fs[1..][i].0.Rank() > fs[0].0.Rank()
  {
    var rest := fs[1..];
    forall i, j | 0 <= i < j < |rest| ensures rest[i].0.Rank() < rest[j].0.Rank() {
      assert rest[i] == fs[i + 1] && rest[j] == fs[j + 1];
    }
    forall i | 0 <= i < |rest| ensures rest[i].0.Rank() > fs[0].0.Rank() {
      assert rest[i] == fs[i + 1];
    }
  }

  /** Collecting keeps the keys in order. */
  lemma {:induction false} CollectOrdered(fs: seq<(InfoKey, Option<string>)>)
    requires RanksAscend(fs)
    ensures Ordered(Collect(fs))
    decreases |fs|
  {
    if |fs| > 0 {
      var rest := fs[1..];
      RanksAscendTail(fs);
      CollectOrdered(rest);
      CollectAbove(rest, fs[0].0.Rank());
      var tail := Collect(rest);
      if fs[0].1.Some? {
        var info := [Entry(fs[0].0, fs[0].1.value)] + tail;
        assert Collect(fs) == info;
        forall i, j | 0 <= i < j < |info| ensures info[i].key.Rank() < info[j].key.Rank() {
          assert info[j] == tail[j - 1];
          if i > 0 { assert info[i] == tail[i - 1]; }
        }
      } else {
        assert Collect(fs) == tail;
      }
    }
  }

  /** Each collected key holds the value its field gives it. */
  lemma {:induction false} CollectLookup(fs: seq<(InfoKey, Option<string>)>, key: InfoKey)
    requires RanksAscend(fs)
    ensures Lookup(Collect(fs), key) == FieldValue(fs, key)
    decreases |fs|
  {
    if |fs| > 0 {
      var rest := fs[1..];
      RanksAscendTail(fs);
      CollectLookup(rest, key);
      var tail := Collect(rest);
      if fs[0].1.None? {
        assert Collect(fs) == tail;
        if fs[0].0 == key {
          CollectAbove(rest, fs[0].0.Rank());
          LookupAbsent(tail, key);
        }
      }
    }
  }

  /** In a list of distinct keys, each key's value is its own field's. */
  lemma {:induction false} FieldValueAt(fs: seq<(InfoKey, Option<string>)>, i: nat)
    requires RanksAscend(fs) && i < |fs|
    ensures FieldValue(fs, fs[i].0) == fs[i].1
    decreases i
  {
    if i > 0 {
      RanksAscendTail(fs);
      FieldValueAt(fs[1..], i - 1);
      assert fs[1..][i - 1] == fs[i];
    }
  }

  lemma {:induction false} LookupAbsent(info: seq<Entry>, key: InfoKey)
    requires forall i | 0 <= i < |info| :: info[i].key.Rank() > key.Rank()
    ensures Lookup(info, key) == None
    decreases |info|
  {
    if |info| > 0 {
      LookupAbsent(info[1..], key);
    }
  }

  lemma FieldsAscend(meta: Metadata)
    ensures RanksAscend(Fields(meta))
  {
    var fs := Fields(meta);
    forall i, j | 0 <= i < j < |fs| ensures fs[i].0.Rank() < fs[j].0.Rank() {
      assert fs[i].0.Rank() == i && fs[j].0.Rank() == j;
    }
  }

  /** The dictionary lists its keys in a fixed order, each at most once;
      each key holds exactly what the metadata says and is present exactly
      when the metadata field is truthy; a `.pdf` title appears without its
      extension, and a keyword list always appears, joined with commas. */
  lemma DocumentInfoLookup(meta: Metadata)
    ensures Ordered(DocumentInfo(meta))
    ensures Lookup(DocumentInfo(meta), Title) ==
      if Truthy(meta.title) then Some(StripPdfSuffix(meta.title.value)) else None
    ensures Lookup(DocumentInfo(meta), Author) == WhenTruthy(meta.author)
    ensures Lookup(DocumentInfo(meta), Subject) == WhenTruthy(meta.subject)
    ensures Lookup(DocumentInfo(meta), KeywordsKey) == KeywordsText(meta.keywords)
    ensures Lookup(DocumentInfo(meta), Creator) == WhenTruthy(meta.creator)
    ensures Lookup(DocumentInfo(meta), Producer) == WhenTruthy(meta.producer)
  {
    var fs := Fields(meta);
    FieldsAscend(meta);
    CollectOrdered(fs);
    var k := 0;
    while k < |fs|
      invariant k <= |fs|
      invariant forall n | 0 <= n < k :: Lookup(DocumentInfo(meta), fs[n].0) == fs[n].1
    {
      CollectLookup(fs, fs[k].0);
      FieldValueAt(fs, k);
      k := k + 1;
    }
    assert fs[0].0 == Title && fs[1].0 == Author && fs[2].0 == Subject;
    assert fs[3].0 == KeywordsKey && fs[4].0 == Creator && fs[5].0 == Producer;
  }
}

=== FILE: populate.dfy ===
/** The CMS `populate` query parameters built from dot-separated relation
    paths: `image` asks for a relation, `author.avatar` for a relation of a
    relation, and deeper paths for deeper nesting. */
module Populate {
  import opened Wrappers
  import opened Text

  // ---------------------------------------------------------------------
  // Parameter lists with assignment semantics

  /** Query parameters in insertion order, each key at most once. */
  type Params = seq<(string, string)>

  predicate UniqueKeys(ps: Params) {
    forall i, j | 0 <= i < j < |ps| :: ps[i].0 != ps[j].0
  }

  function Lookup(ps: Params, key: string): Option<string> {
    if |ps| == 0 then None
    else if ps[0].0 == key then Some(ps[0].1)
    else Lookup(ps[1..], key)
  }

  /** `params[key] = value`: an existing key keeps its place and takes the
      new value; a new key goes last. */
  function Assign(ps: Params, key: string, value: string): (r: Params)
    ensures |r| == |ps| || |r| == |ps| + 1
    ensures UniqueKeys(ps) ==> UniqueKeys(r)
    ensures forall i | 0 <= i < |ps| :: r[i].0 == ps[i].0
    ensures |r| == |ps| + 1 ==> r[|ps|] == (key, value)
    ensures forall i | 0 <= i < |r| :: r[i] == (key, value) || (i < |ps| && r[i] == ps[i])
    decreases |ps|
  {
    if |ps| == 0 then [(key, value)]
    else if ps[0].0 == key then
      var r := [(key, value)] + ps[1..];
      assert forall i | 0 <= i < |ps| :: r[i].0 == ps[i].0;
      r
    else [ps[0]] + Assign(ps[1..], key, value)
  }

  lemma {:induction false} AssignLookup(ps: Params, key: string, value: string, k: string)
    ensures Lookup(Assign(ps, key, value), k) == if k == key then Some(value) else Lookup(ps, k)
    decreases |ps|
  {
    if |ps| > 0 && ps[0].0 != key {
      AssignLookup(ps[1..], key, value, k);
    }
  }

  /** The parameters after a sequence of assignments. */
  function Apply(writes: Params): (ps: Params)
    ensures UniqueKeys(ps)
    decreases |writes|
  {
    if |writes| == 0 then []
    else
      var w := writes[|writes| - 1];
      Assign(Apply(writes[..|writes| - 1]), w.0, w.1)
  }

  /** The value of the last assignment to `key`. */
  function LastWrite(writes: Params, key: string): Option<string>
    decreases |writes|
  {
    if |writes| == 0 then None
    else if writes[|writes| - 1].0 == key then Some(writes[|writes| - 1].1)
    else LastWrite(writes[..|writes| - 1], key)
  }

  /** Each key holds the value last assigned to it. */
  lemma {:induction false} ApplyLookup(writes: Params, key: string)
    ensures Lookup(Apply(writes), key) == LastWrite(writes, key)
    decreases |writes|
  {
    if |writes| > 0 {
      var w := writes[|writes| - 1];
      ApplyLookup(writes[..|writes| - 1], key);
      AssignLookup(Apply(writes[..|writes| - 1]), w.0, w.1, key);
    }
  }

  /** A key assigned at least once, and always the same value, holds it. */
  lemma {:induction false} LastWriteConstant(writes: Params, key: string, value: string)
    requires exists i | 0 <= i < |writes| :: writes[i].0 == key
    requires forall i | 0 <= i < |writes| && writes[i].0 == key :: writes[i].1 == value
    ensures LastWrite(writes, key) == Some(value)
    decreases |writes|
  {
    var n := |writes| - 1;
    if writes[n].0 != key {
      var front := writes[..n];
      var i :| 0 <= i < |writes| && writes[i].0 == key;
      assert front[i] == writes[i];
      forall j | 0 <= j < |front| && front[j].0 == key ensures front[j].1 == value {
        assert front[j] == writes[j];
      }
      LastWriteConstant(front, key, value);
    }
  }

  // ---------------------------------------------------------------------
  // Keys

  /** A path segment that cannot forge a key: no square brackets. */
  predicate BracketFree(s: string) {
    '[' !in s && ']' !in s
  }

  /** `populate[a]`. */
  function Key(a: string): string {
    "populate[" + a + "]"
  }

  /** `[populate][s]` for each later segment of a deep path. */
  function Nested(segs: seq<string>): string
    decreases |segs|
  {
    if |segs| == 0 then "" else Part(segs[0]) + Nested(segs[1..])
  }

  /** `[populate][s]`. */
  function Part(s: string): string {
    "[populate][" + s + "]"
  }

  /** `populate[parent][populate]`. */
  function OneChildKey(parent: string): string {
    Key(parent) + "[populate]"
  }

  /** `populate[parent][populate][child]`. */
  function ChildKey(parent: string, child: string): string {
    Key(parent) + Nested([child])
  }

  /** The closing brackets a key holds. */
  function Closes(s: string): nat
    decreases |s|
  {
    if |s| == 0 then 0 else (if s[0] == ']' then 1 else 0) + Closes(s[1..])
  }

  lemma {:induction false} ClosesConcat(a: string, b: string)
    ensures Closes(a + b) == Closes(a) + Closes(b)
    decreases |a|
  {
    if |a| == 0 {
      assert a + b == b;
    } else {
      assert (a + b)[0] == a[0] && (a + b)[1..] == a[1..] + b;
      ClosesConcat(a[1..], b);
    }
  }

  lemma {:induction false} ClosesFree(s: string)
    requires BracketFree(s)
    ensures Closes(s) == 0
    decreases |s|
  {
    if |s| > 0 {
      assert s[0] in s;
      assert forall c | c in s[1..] :: c in s;
      ClosesFree(s[1..]);
    }
  }

  /** The closing brackets of the fixed key pieces. */
  lemma PieceCloses()
    ensures Closes("populate[") == 0 && Closes("]") == 1
    ensures Closes("[populate][") == 1 && Closes("[populate]") == 1
  {
    KeyHeadCloses();
    PartHeadCloses();
    PartTailCloses();
  }

  lemma KeyHeadCloses()
    ensures Closes("populate[") == 0
  {
  }

  lemma PartHeadCloses()
    ensures Closes("[populate][") == 1
  {
  }

  lemma PartTailCloses()
    ensures Closes("[populate]") == 1
  {
  }

  lemma PartCloses(s: string)
    requires BracketFree(s)
    ensures Closes(Part(s)) == 2
  {
    ClosesFree(s);
    PieceCloses();
    ClosesConcat("[populate][", s);
    ClosesConcat("[populate][" + s, "]");
  }

  lemma {:induction false} NestedCloses(segs: seq<string>)
    requires forall i | 0 <= i < |segs| :: BracketFree(segs[i])
    ensures Closes(Nested(segs)) == 2 * |segs|
    decreases |segs|
  {
    if |segs| > 0 {
      NestedCloses(segs[1..]);
      PartCloses(segs[0]);
      ClosesConcat(Part(segs[0]), Nested(segs[1..]));
    }
  }

  lemma KeyCloses(a: string)
    requires BracketFree(a)
    ensures Closes(Key(a)) == 1 && Closes(OneChildKey(a)) == 2
  {
    ClosesFree(a);
    PieceCloses();
    ClosesConcat("populate[", a);
    ClosesConcat("populate[" + a, "]");
    ClosesConcat(Key(a), "[populate]");
  }

  lemma CloseMismatch(a: string, b: string, x: string, y: string)
    requires BracketFree(b) && |a| < |b|
    ensures "populate[" + a + "]" + x != "populate[" + b + "]" + y
  {
    var s := "populate[" + a + "]" + x;
    var t := "populate[" + b + "]" + y;
    assert s[9 + |a|] == ']';
    assert t[9 + |a|] == b[|a|];
  }

  /** A bracket-free key part is read back from the key. */
  lemma KeyInjective(a: string, b: string, x: string, y: string)
    requires BracketFree(a) && BracketFree(b)
    requires "populate[" + a + "]" + x == "populate[" + b + "]" + y
    ensures a == b
  {
    var s := "populate[" + a + "]" + x;
    var t := "populate[" + b + "]" + y;
    if |a| < |b| {
      CloseMismatch(a, b, x, y);
    } else if |b| < |a| {
      CloseMismatch(b, a, y, x);
    } else {
      assert s[9..9 + |a|] == a;
      assert t[9..9 + |b|] == b;
      assert s[9..9 + |a|] == t[9..9 + |b|];
    }
  }

  // ---------------------------------------------------------------------
  // Classifying paths

  function Segments(path: string): (parts: seq<string>)
    ensures |parts| >= 1
  {
    Split(path, '.')
  }

  /** The paths of one segment, in order. */
  function Simple(paths: seq<string>): (r: seq<string>)
    ensures forall x :: x in r <==> x in paths && |Segments(x)| == 1
    decreases |paths|
  {
    if |paths| == 0 then []
    else (if |Segments(paths[0])| == 1 then [paths[0]] else []) + Simple(paths[1..])
  }

  /** The paths of three or more segments, in order. */
  function Deep(paths: seq<string>): (r: seq<string>)
    ensures forall x :: x in r <==> x in paths && |Segments(x)| >= 3
    decreases |paths|
  {
    if |paths| == 0 then []
    else (if |Segments(paths[0])| >= 3 then [paths[0]] else []) + Deep(paths[1..])
  }

  /** The parent of each two-segment path, in order, repeats included. */
  function ParentList(paths: seq<string>): seq<string>
    decreases |paths|
  {
    if |paths| == 0 then []
    else
      var parts := Segments(paths[0]);
      (if |parts| == 2 then [parts[0]] else []) + ParentList(paths[1..])
  }

  /** The first occurrence of each element, in order. */
  function Dedup(s: seq<string>): (r: seq<string>)
    ensures forall x :: x in r <==> x in s
    ensures forall i, j | 0 <= i < j < |r| :: r[i] != r[j]
    decreases |s|
  {
    if |s| == 0 then []
    else
      var front := Dedup(s[..|s| - 1]);
      assert s == s[..|s| - 1] + [s[|s| - 1]];
      if s[|s| - 1] in front then front else front + [s[|s| - 1]]
  }

  /** The parents of two-segment paths, each once, in order of first use. */
  function Parents(paths: seq<string>): (ps: seq<string>)
    ensures forall i, j | 0 <= i < j < |ps| :: ps[i] != ps[j]
  {
    Dedup(ParentList(paths))
  }

  /** The children of `parent` among two-segment paths, in order. */
  function Children(paths: seq<string>, parent: string): seq<string>
    decreases |paths|
  {
    if |paths| == 0 then []
    else
      var parts := Segments(paths[0]);
      (if |parts| == 2 && parts[0] == parent then [parts[1]] else []) + Children(paths[1..], parent)
  }

  /** The parents are exactly the names that have children. */
  lemma {:induction false} ParentsHaveChildren(paths: seq<string>, x: string)
    ensures x in Parents(paths) <==> |Children(paths, x)| > 0
    decreases |paths|
  {
    if |paths| > 0 {
      ParentsHaveChildren(paths[1..], x);
    }
  }

  predicate AllBracketFree(paths: seq<string>) {
    forall i | 0 <= i < |paths| :: BracketFree(paths[i])
  }

  /** Splitting keeps only characters of the text. */
  lemma {:induction false} SplitBracketFree(s: string, d: char)
    requires BracketFree(s)
    ensures AllBracketFree(Split(s, d))
    decreases |s|
  {
    if |s| > 0 {
      assert BracketFree(s[1..]) by { assert forall x | x in s[1..] :: x in s; }
      SplitBracketFree(s[1..], d);
    }
  }

  lemma {:induction false} ChildrenBracketFree(paths: seq<string>, parent: string)
    requires AllBracketFree(paths)
    ensures AllBracketFree(Children(paths, parent))
    decreases |paths|
  {
    if |paths| > 0 {
      SplitBracketFree(paths[0], '.');
      ChildrenBracketFree(paths[1..], parent);
    }
  }

  lemma {:induction false} ParentListBracketFree(paths: seq<string>)
    requires AllBracketFree(paths)
    ensures AllBracketFree(ParentList(paths))
    decreases |paths|
  {
    if |paths| > 0 {
      SplitBracketFree(paths[0], '.');
      ParentListBracketFree(paths[1..]);
    }
  }

  // ---------------------------------------------------------------------
  // The assignments

  function SimpleWrites(simple: seq<string>): (ws: Params)
    ensures |ws| == |simple|
    ensures forall i | 0 <= i < |ws| :: ws[i] == (Key(simple[i]), "*")
  {
    seq(|simple|, i requires 0 <= i < |simple| => (Key(simple[i]), "*"))
  }

  /** The assignments for one parent: its only child as the value, or a
      `*` entry per child. */
  function GroupWrites(parent: string, children: seq<string>): (ws: Params)
  {
    if |children| == 1 then [(OneChildKey(parent), children[0])]
    else seq(|children|, i requires 0 <= i < |children| => (ChildKey(parent, children[i]), "*"))
  }

  /** Each parent's assignments, parent by parent. */
  function Groups(paths: seq<string>, parents: seq<string>): (gs: seq<Params>)
    ensures |gs| == |parents|
    ensures forall j | 0 <= j < |parents| :: gs[j] == GroupWrites(parents[j], Children(paths, parents[j]))
  {
    seq(|parents|, j requires 0 <= j < |parents| => GroupWrites(parents[j], Children(paths, parents[j])))
  }

  /** The groups one after another. */
  function Flatten(gs: seq<Params>): Params
    decreases |gs|
  {
    if |gs| == 0 then [] else gs[0] + Flatten(gs[1..])
  }

  function AllGroupWrites(paths: seq<string>, parents: seq<string>): Params {
    Flatten(Groups(paths, parents))
  }

  /** `populate[a][populate][b]...[populate][z]` for a deep path `a.b...z`. */
  function DeepKey(path: string): string {
    var parts := Segments(path);
    Key(parts[0]) + Nested(parts[1..])
  }

  function DeepWrites(deep: seq<string>): (ws: Params)
    ensures |ws| == |deep|
    ensures forall i | 0 <= i < |ws| :: ws[i] == (DeepKey(deep[i]), "*")
  {
    seq(|deep|, i requires 0 <= i < |deep| => (DeepKey(deep[i]), "*"))
  }

  /** Every assignment, in the order the builder makes them. */
  function Writes(paths: seq<string>): Params {
    SimpleWrites(Simple(paths)) + AllGroupWrites(paths, Parents(paths)) + DeepWrites(Deep(paths))
  }

  /** `buildPopulateParams`. */
  function BuildPopulateParams(paths: seq<string>): (ps: Params)
    ensures UniqueKeys(ps)
    ensures |paths| == 0 ==> ps == [("populate", "*")]
  {
    if |paths| == 0 then [("populate", "*")] else Apply(Writes(paths))
  }

  // ---------------------------------------------------------------------
  // What each key holds

  lemma DeepKeyCloses(path: string)
    requires BracketFree(path) && |Segments(path)| >= 3
    ensures Closes(DeepKey(path)) >= 5
  {
    var parts := Segments(path);
    SplitBracketFree(path, '.');
    KeyCloses(parts[0]);
    NestedCloses(parts[1..]);
    ClosesConcat(Key(parts[0]), Nested(parts[1..]));
  }

  /** The parent named in a `populate[q][populate]` key. */
  function OneChildParent(key: string): string {
    if |key| >= 20 then key[9..|key| - 11] else ""
  }

  lemma OneChildParentOf(q: string)
    ensures OneChildParent(OneChildKey(q)) == q
  {
    var key := OneChildKey(q);
    assert key == "populate[" + q + "][populate]";
    assert key[9..|key| - 11] == q;
  }

  /** What an assignment may look like: a one-bracket key holding `*`, a
      two-bracket key holding the only child of its parent, a three-bracket
      key holding `*`, or a deeper key holding `*`. */
  predicate Shaped(paths: seq<string>, w: (string, string)) {
    var n := Closes(w.0);
    if n == 2 then
      var cs := Children(paths, OneChildParent(w.0));
      |cs| >= 1 && w.1 == cs[0]
    else (n == 1 || n >= 3) && w.1 == "*"
  }

  predicate AllShaped(paths: seq<string>, ws: Params) {
    forall i | 0 <= i < |ws| :: Shaped(paths, ws[i])
  }

  lemma AllShapedConcat(paths: seq<string>, a: Params, b: Params)
    requires AllShaped(paths, a) && AllShaped(paths, b)
    ensures AllShaped(paths, a + b)
  {
    forall i | 0 <= i < |a + b| ensures Shaped(paths, (a + b)[i]) {
      if i < |a| { assert (a + b)[i] == a[i]; } else { assert (a + b)[i] == b[i - |a|]; }
    }
  }

  lemma SimpleShape(paths: seq<string>)
    requires AllBracketFree(paths)
    ensures AllShaped(paths, SimpleWrites(Simple(paths)))
  {
    var simple := Simple(paths);
    var ws := SimpleWrites(simple);
    forall i | 0 <= i < |ws| ensures Shaped(paths, ws[i]) {
      assert simple[i] in paths;
      KeyCloses(simple[i]);
    }
  }

  lemma ShapedStar(paths: seq<string>, w: (string, string))
    requires w.1 == "*" && Closes(w.0) != 2 && Closes(w.0) != 0
    ensures Shaped(paths, w)
  {
  }

  lemma DeepShape(paths: seq<string>)
    requires AllBracketFree(paths)
    ensures AllShaped(paths, DeepWrites(Deep(paths)))
  {
    var deep := Deep(paths);
    var ws := DeepWrites(deep);
    forall i | 0 <= i < |ws| ensures Shaped(paths, ws[i]) {
      assert deep[i] in paths;
      DeepKeyCloses(deep[i]);
      ShapedStar(paths, ws[i]);
    }
  }

  lemma GroupShape(paths: seq<string>, parent: string)
    requires AllBracketFree(paths) && BracketFree(parent) && |Children(paths, parent)| > 0
    ensures AllShaped(paths, GroupWrites(parent, Children(paths, parent)))
  {
    var cs := Children(paths, parent);
    var ws := GroupWrites(parent, cs);
    KeyCloses(parent);
    if |cs| == 1 {
      OneChildParentOf(parent);
    } else {
      ChildrenBracketFree(paths, parent);
      forall i | 0 <= i < |ws| ensures Shaped(paths, ws[i]) {
        NestedCloses([cs[i]]);
        ClosesConcat(Key(parent), Nested([cs[i]]));
      }
    }
  }

  lemma AllGroupShape(paths: seq<string>, parents: seq<string>)
    requires AllBracketFree(paths) && AllBracketFree(parents)
    requires forall i | 0 <= i < |parents| :: |Children(paths, parents[i])| > 0
    ensures AllShaped(paths, AllGroupWrites(paths, parents))
  {
    var gs := Groups(paths, parents);
    forall j | 0 <= j < |gs| ensures AllShaped(paths, gs[j]) {
      GroupShape(paths, parents[j]);
    }
    FlattenShaped(paths, gs);
  }

  lemma {:induction false} FlattenShaped(paths: seq<string>, gs: seq<Params>)
    requires forall j | 0 <= j < |gs| :: AllShaped(paths, gs[j])
    ensures AllShaped(paths, Flatten(gs))
    decreases |gs|
  {
    if |gs| > 0 {
      FlattenShaped(paths, gs[1..]);
      AllShapedConcat(paths, gs[0], Flatten(gs[1..]));
    }
  }

  lemma ParentsShape(paths: seq<string>)
    requires AllBracketFree(paths)
    ensures AllBracketFree(Parents(paths))
    ensures forall i | 0 <= i < |Parents(paths)| :: |Children(paths, Parents(paths)[i])| > 0
  {
    var parents := Parents(paths);
    ParentListBracketFree(paths);
    forall i | 0 <= i < |parents| ensures BracketFree(parents[i]) && |Children(paths, parents[i])| > 0 {
      assert parents[i] in ParentList(paths);
      ParentsHaveChildren(paths, parents[i]);
    }
  }

  lemma WritesShape(paths: seq<string>)
    requires AllBracketFree(paths)
    ensures AllShaped(paths, Writes(paths))
  {
    ParentsShape(paths);
    SimpleShape(paths);
    AllGroupShape(paths, Parents(paths));
    DeepShape(paths);
    var s := SimpleWrites(Simple(paths));
    var g := AllGroupWrites(paths, Parents(paths));
    AllShapedConcat(paths, s, g);
    AllShapedConcat(paths, s + g, DeepWrites(Deep(paths)));
  }

  lemma StarKey(paths: seq<string>, ws: Params, key: string)
    requires AllShaped(paths, ws) && Closes(key) != 2
    ensures forall i | 0 <= i < |ws| && ws[i].0 == key :: ws[i].1 == "*"
  {
    forall i | 0 <= i < |ws| && ws[i].0 == key ensures ws[i].1 == "*" {
      assert Shaped(paths, ws[i]);
    }
  }

  /** A key assigned somewhere, and only ever the same value, holds it. */
  lemma WrittenAt(paths: seq<string>, key: string, value: string, k: nat)
    requires |paths| > 0 && k < |Writes(paths)| && Writes(paths)[k].0 == key
    requires forall i | 0 <= i < |Writes(paths)| && Writes(paths)[i].0 == key :: Writes(paths)[i].1 == value
    ensures Lookup(BuildPopulateParams(paths), key) == Some(value)
  {
    ApplyLookup(Writes(paths), key);
    LastWriteConstant(Writes(paths), key, value);
  }

  /** A one-segment path `p` asks for `populate[p]=*`. */
  lemma PopulateSimple(paths: seq<string>, p: string)
    requires AllBracketFree(paths) && p in paths && |Segments(p)| == 1
    ensures Lookup(BuildPopulateParams(paths), Key(p)) == Some("*")
  {
    var ws := Writes(paths);
    var s := SimpleWrites(Simple(paths));
    var k :| 0 <= k < |Simple(paths)| && Simple(paths)[k] == p;
    assert ws[k] == s[k];
    KeyCloses(p);
    WritesShape(paths);
    StarKey(paths, ws, Key(p));
    WrittenAt(paths, Key(p), "*", k);
  }

  lemma DeepWriteIndex(paths: seq<string>, p: string) returns (k: nat)
    requires p in paths && |Segments(p)| >= 3
    ensures k < |Writes(paths)| && Writes(paths)[k].0 == DeepKey(p)
  {
    var front := SimpleWrites(Simple(paths)) + AllGroupWrites(paths, Parents(paths));
    var d := DeepWrites(Deep(paths));
    assert Writes(paths) == front + d;
    assert p in Deep(paths);
    var j :| 0 <= j < |Deep(paths)| && Deep(paths)[j] == p;
    k := |front| + j;
    assert (front + d)[k] == d[j];
  }

  /** A path of three or more segments asks for its nested key with `*`. */
  lemma PopulateDeep(paths: seq<string>, p: string)
    requires AllBracketFree(paths) && p in paths && |Segments(p)| >= 3
    ensures Lookup(BuildPopulateParams(paths), DeepKey(p)) == Some("*")
  {
    var k := DeepWriteIndex(paths, p);
    DeepKeyCloses(p);
    WritesShape(paths);
    StarKey(paths, Writes(paths), DeepKey(p));
    WrittenAt(paths, DeepKey(p), "*", k);
  }

  lemma GroupWriteIndex(paths: seq<string>, parents: seq<string>, j: nat, i: nat) returns (k: nat)
    requires j < |parents| && i < |GroupWrites(parents[j], Children(paths, parents[j]))|
    ensures k < |AllGroupWrites(paths, parents)|
    ensures AllGroupWrites(paths, parents)[k] == GroupWrites(parents[j], Children(paths, parents[j]))[i]
  {
    k := FlattenIndex(Groups(paths, parents), j, i);
  }

  /** Where the `i`-th entry of group `j` lands in the flattened list. */
  lemma {:induction false} FlattenIndex(gs: seq<Params>, j: nat, i: nat) returns (k: nat)
    requires j < |gs| && i < |gs[j]|
    ensures k < |Flatten(gs)| && Flatten(gs)[k] == gs[j][i]
    decreases j
  {
    if j == 0 {
      k := i;
    } else {
      var k' := FlattenIndex(gs[1..], j - 1, i);
      k := |gs[0]| + k';
    }
  }

  lemma GroupIndex(paths: seq<string>, parent: string, i: nat) returns (k: nat)
    requires |Children(paths, parent)| > 0
    requires i < |GroupWrites(parent, Children(paths, parent))|
    ensures k < |Writes(paths)| && Writes(paths)[k] == GroupWrites(parent, Children(paths, parent))[i]
  {
    ParentsHaveChildren(paths, parent);
    var parents := Parents(paths);
    var j :| 0 <= j < |parents| && parents[j] == parent;
    var k' := GroupWriteIndex(paths, parents, j, i);
    var s := SimpleWrites(Simple(paths));
    var g := AllGroupWrites(paths, parents);
    assert Writes(paths) == s + g + DeepWrites(Deep(paths));
    k := |s| + k';
  }

  /** A parent named by exactly one two-segment path `parent.child` asks
      for `populate[parent][populate]=child`. */
  lemma PopulateOneChild(paths: seq<string>, parent: string, child: string)
    requires AllBracketFree(paths) && Children(paths, parent) == [child]
    ensures Lookup(BuildPopulateParams(paths), OneChildKey(parent)) == Some(child)
  {
    assert |paths| > 0;
    var k := GroupIndex(paths, parent, 0);
    ParentsShape(paths);
    ParentsHaveChildren(paths, parent);
    assert BracketFree(parent);
    KeyCloses(parent);
    OneChildParentOf(parent);
    WritesShape(paths);
    var ws := Writes(paths);
    forall i | 0 <= i < |ws| && ws[i].0 == OneChildKey(parent) ensures ws[i].1 == child {
      assert Shaped(paths, ws[i]);
    }
    WrittenAt(paths, OneChildKey(parent), child, k);
  }

  lemma ChildWriteIndex(paths: seq<string>, parent: string, child: string) returns (k: nat)
    requires |Children(paths, parent)| >= 2 && child in Children(paths, parent)
    ensures k < |Writes(paths)| && Writes(paths)[k].0 == ChildKey(parent, child)
  {
    var cs := Children(paths, parent);
    var i :| 0 <= i < |cs| && cs[i] == child;
    assert GroupWrites(parent, cs)[i] == (ChildKey(parent, child), "*");
    k := GroupIndex(paths, parent, i);
  }

  lemma ChildKeyCloses(parent: string, child: string)
    requires BracketFree(parent) && BracketFree(child)
    ensures Closes(ChildKey(parent, child)) == 3
  {
    KeyCloses(parent);
    NestedCloses([child]);
    ClosesConcat(Key(parent), Nested([child]));
  }

  /** A parent named by several two-segment paths asks for
      `populate[parent][populate][child]=*` for each child. */
  lemma PopulateChildren(paths: seq<string>, parent: string, child: string)
    requires AllBracketFree(paths) && |Children(paths, parent)| >= 2 && child in Children(paths, parent)
    ensures Lookup(BuildPopulateParams(paths), ChildKey(parent, child)) == Some("*")
  {
    assert |paths| > 0;
    var k := ChildWriteIndex(paths, parent, child);
    ParentsShape(paths);
    ParentsHaveChildren(paths, parent);
    ChildrenBracketFree(paths, parent);
    assert BracketFree(parent);
    ChildKeyCloses(parent, child);
    WritesShape(paths);
    StarKey(paths, Writes(paths), ChildKey(parent, child));
    WrittenAt(paths, ChildKey(parent, child), "*", k);
  }
}

=== FILE: requests.dfy ===
/** The two server endpoints that forward requests to the CMS: the full
    one, which validates its configuration, builds `populate` parameters
    and reports upstream failures, and the plain proxy, which always asks
    for every relation. Both shape the CMS response the same way. */
module Requests {
  import opened Wrappers
  import opened Json
  import Populate

  // ---------------------------------------------------------------------
  // Query parameters

  /** A list parameter as it arrives: missing, given once, or repeated. */
  datatype ListParam = Absent | One(value: string) | Many(values: seq<string>)

  /** `raw ? (Array.isArray(raw) ? raw : [raw]) : []`. */
  function NormalizeList(p: ListParam): (r: seq<string>)
    ensures p.Many? ==> r == p.values
    ensures p.One? && p.value != "" ==> r == [p.value]
    ensures p.Absent? || p == One("") ==> r == []
  {
    match p
    case Absent => []
    case One(v) => if v == "" then [] else [v]
    case Many(vs) => vs
  }

  /** A list parameter written out the way a client sends it: nothing for
      an empty list, otherwise every value. */
  function EncodeList(values: seq<string>): ListParam {
    if |values| == 0 then Absent else Many(values)
  }

  /** Normalisation reads back exactly what the client sent. */
  lemma NormalizeEncodeList(values: seq<string>)
    ensures NormalizeList(EncodeList(values)) == values
  {
  }

  /** A single value read as a list is that value alone, unless empty. */
  lemma NormalizeOne(v: string)
    ensures |NormalizeList(One(v))| <= 1
    ensures NormalizeList(One(v)) == [] <==> v == ""
  {
  }

  /** A flag parameter: missing, a query string, or a boolean. */
  datatype FlagParam = NoFlag | FlagText(text: string) | FlagBool(b: bool)

  /** `raw === 'true' || raw === true`. */
  predicate IsSet(f: FlagParam) {
    f == FlagText("true") || f == FlagBool(true)
  }

  /** The query both endpoints read. */
  datatype Query = Query(
    endpoint: Option<string>,
    fields: ListParam,
    locale: Option<string>,
    isCollection: FlagParam,
    populates: ListParam)

  datatype HttpError = HttpError(status: nat, message: string)

  /** The CMS request an endpoint makes: a URL and its query parameters in
      order. */
  datatype CmsCall = CmsCall(url: string, params: seq<(string, string)>)

  predicate Given(s: Option<string>) {
    s.Some? && s.value != ""
  }

  /** `locale` first, when one is given. */
  function LocaleParams(locale: Option<string>): (ps: seq<(string, string)>)
    ensures Given(locale) ==> ps == [("locale", locale.value)]
    ensures !Given(locale) ==> ps == []
  {
    if Given(locale) then [("locale", locale.value)] else []
  }

  // ---------------------------------------------------------------------
  // Shaping the CMS response

  /** Each item with the requested fields picked. */
  function PickEach(items: seq<Json>, fields: seq<string>): (r: seq<Json>)
    ensures |r| == |items| && forall i | 0 <= i < |items| :: r[i] == PickFields(items[i], fields)
  {
    seq(|items|, i requires 0 <= i < |items| => PickFields(items[i], fields))
  }

  /** The full endpoint's shaping: unwrap `data`; a collection becomes an
      array (empty when the payload is not one) with each item picked when
      fields are asked for; a single payload is picked. */
  function ShapeResponse(collection: bool, fields: seq<string>, response: Json): (r: Json)
    ensures collection ==> r.JArr? && |r.items| == |AsArray(Unwrap(response))|
    ensures collection && !Unwrap(response).JArr? ==> r == JArr([])
    ensures collection ==> forall i | 0 <= i < |r.items| :: r.items[i] == PickFields(AsArray(Unwrap(response))[i], fields)
    ensures !collection ==> r == PickFields(Unwrap(response), fields)
  {
    var data := Unwrap(response);
    if collection then
      var items := AsArray(data);
      if |fields| > 0 then JArr(PickEach(items, fields)) else JArr(items)
    else PickFields(data, fields)
  }

  // ---------------------------------------------------------------------
  // The full endpoint

  /** The request the full endpoint makes, or why it refuses: a missing
      endpoint is a client error and a missing base URL a server error,
      checked in that order and before any request. */
  function PlanRequest(q: Query, apiUrl: string): (r: Result<CmsCall, HttpError>)
    ensures !Given(q.endpoint) <==> r == Err(HttpError(400, "Missing endpoint parameter"))
    ensures Given(q.endpoint) && apiUrl == "" <==> r == Err(HttpError(500, "API base URL is not configured"))
    ensures Given(q.endpoint) && apiUrl != "" ==> r.Ok?
    ensures r.Ok? ==> r.value.url == apiUrl + "/" + q.endpoint.value
    ensures r.Ok? ==> r.value.params == LocaleParams(q.locale) + Populate.BuildPopulateParams(NormalizeList(q.populates))
  {
    if !Given(q.endpoint) then Err(HttpError(400, "Missing endpoint parameter"))
    else if apiUrl == "" then Err(HttpError(500, "API base URL is not configured"))
    else Ok(CmsCall(apiUrl + "/" + q.endpoint.value,
                    LocaleParams(q.locale) + Populate.BuildPopulateParams(NormalizeList(q.populates))))
  }

  /** The full endpoint: plan the request, then shape what the CMS answers
      (`None` when the call failed, which becomes a 502). */
  function HandleRequest(q: Query, apiUrl: string, answer: Option<Json>): (r: Result<Json, HttpError>)
    ensures PlanRequest(q, apiUrl).Err? ==> r == Err(PlanRequest(q, apiUrl).error)
    ensures PlanRequest(q, apiUrl).Ok? && answer.None? ==> r == Err(HttpError(502, "Upstream CMS request failed"))
    ensures PlanRequest(q, apiUrl).Ok? && answer.Some? ==>
      r == Ok(ShapeResponse(IsSet(q.isCollection), NormalizeList(q.fields), answer.value))
  {
    match PlanRequest(q, apiUrl)
    case Err(e) => Err(e)
    case Ok(_) =>
      match answer
      case None => Err(HttpError(502, "Upstream CMS request failed"))
      case Some(response) => Ok(ShapeResponse(IsSet(q.isCollection), NormalizeList(q.fields), response))
  }

  /** Without populate paths the full endpoint asks for every relation,
      after the locale if one is given. */
  lemma RequestParamsDefault(q: Query, apiUrl: string)
    requires PlanRequest(q, apiUrl).Ok? && NormalizeList(q.populates) == []
    ensures PlanRequest(q, apiUrl).value.params == LocaleParams(q.locale) + [("populate", "*")]
  {
  }

  // ---------------------------------------------------------------------
  // The plain proxy

  /** The proxy's request: a missing endpoint is a client error; the
      locale, when given, comes before `populate=*`. */
  function PlanProxy(q: Query, apiUrl: string): (r: Result<CmsCall, HttpError>)
    ensures !Given(q.endpoint) <==> r.Err?
    ensures r.Err? ==> r.error == HttpError(400, "Missing endpoint parameter")
    ensures r.Ok? ==> r.value == CmsCall(apiUrl + "/" + q.endpoint.value, LocaleParams(q.locale) + [("populate", "*")])
  {
    if !Given(q.endpoint) then Err(HttpError(400, "Missing endpoint parameter"))
    else Ok(CmsCall(apiUrl + "/" + q.endpoint.value, LocaleParams(q.locale) + [("populate", "*")]))
  }

  /** With a base URL configured and no populate paths, the full endpoint
      plans exactly the request the proxy makes, refusals included. */
  lemma PlanRequestIsProxy(q: Query, apiUrl: string)
    requires apiUrl != "" && NormalizeList(q.populates) == []
    ensures PlanRequest(q, apiUrl) == PlanProxy(q, apiUrl)
  {
  }

  /** The proxy's shaping: a single payload is picked only when fields are
      asked for. */
  function ShapeProxy(collection: bool, fields: seq<string>, response: Json): Json {
    var data := Unwrap(response);
    if collection then
      var items := AsArray(data);
      if |fields| > 0 then JArr(PickEach(items, fields)) else JArr(items)
    else if |fields| > 0 then PickFields(data, fields) else data
  }

  /** The two endpoints shape every response alike. */
  lemma ShapeProxyAgrees(collection: bool, fields: seq<string>, response: Json)
    ensures ShapeProxy(collection, fields, response) == ShapeResponse(collection, fields, response)
  {
  }

  /** The proxy: plan the request, then shape the answer; a failed call
      passes its error on. */
  function HandleProxy(q: Query, apiUrl: string, answer: Result<Json, HttpError>): (r: Result<Json, HttpError>)
    ensures PlanProxy(q, apiUrl).Err? ==> r == Err(PlanProxy(q, apiUrl).error)
    ensures PlanProxy(q, apiUrl).Ok? && answer.Err? ==> r == Err(answer.error)
    ensures PlanProxy(q, apiUrl).Ok? && answer.Ok? ==>
      r == Ok(ShapeResponse(IsSet(q.isCollection), NormalizeList(q.fields), answer.value))
  {
    match PlanProxy(q, apiUrl)
    case Err(e) => Err(e)
    case Ok(_) =>
      match answer
      case Err(e) => Err(e)
      case Ok(response) =>
        ShapeProxyAgrees(IsSet(q.isCollection), NormalizeList(q.fields), response);
        Ok(ShapeProxy(IsSet(q.isCollection), NormalizeList(q.fields), response))
  }

  /** Shaping a shaped single response again with the same fields changes
      nothing once the payload carries no `data` member of its own. */
  lemma ShapeSingleIdempotent(fields: seq<string>, response: Json)
    requires |fields| > 0 && "data" !in fields
    ensures ShapeResponse(false, fields, ShapeResponse(false, fields, response)) == ShapeResponse(false, fields, response)
  {
    var r := ShapeResponse(false, fields, response);
    PickFieldsIdempotent(Unwrap(response), fields);
    if r.JObj? {
      assert "data" !in r.fields;
    }
  }
}

=== FILE: safeid.dfy ===
/** Element ids for ARIA references: a slug of the text, optionally
    behind a prefix and followed by an index. */
module SafeId {
  import opened Wrappers
  import opened Text

  /** The characters a slug keeps as they are: `[a-z0-9]`. */
  predicate IsSlugChar(c: char) {
    'a' <= c <= 'z' || '0' <= c <= '9'
  }

  /** The characters deleted outright: `[&()]`. */
  predicate IsDropped(c: char) {
    c == '&' || c == '(' || c == ')'
  }

  /** A finished slug: slug characters and single inner hyphens only. */
  predicate IsSlug(s: string) {
    && (forall i | 0 <= i < |s| :: IsSlugChar(s[i]) || s[i] == '-')
    && (forall i | 0 <= i < |s| - 1 :: !(s[i] == '-' && s[i + 1] == '-'))
    && (|s| > 0 ==> s[0] != '-' && s[|s| - 1] != '-')
  }

  /** `replace(/[&()]/g, '')`. */
  function DropMarks(s: string): (r: string)
    ensures forall i | 0 <= i < |r| :: !IsDropped(r[i])
    ensures |r| <= |s|
    decreases |s|
  {
    if |s| == 0 then ""
    else (if IsDropped(s[0]) then "" else [s[0]]) + DropMarks(s[1..])
  }

  /** `replace(/[^a-z0-9]/g, '-')`. */
  function Hyphenate(s: string): (r: string)
    ensures |r| == |s|
    ensures forall i | 0 <= i < |s| :: r[i] == (if IsSlugChar(s[i]) then s[i] else '-')
  {
    seq(|s|, i requires 0 <= i < |s| => if IsSlugChar(s[i]) then s[i] else '-')
  }

  /** `replace(/-+/g, '-')`: each run of hyphens becomes one. */
  function Collapse(s: string): (r: string)
    ensures |r| <= |s|
    ensures |s| > 0 ==> |r| > 0 && r[0] == s[0] && r[|r| - 1] == s[|s| - 1]
    ensures forall i | 0 <= i < |r| :: r[i] in s
    ensures forall i | 0 <= i < |r| - 1 :: !(r[i] == '-' && r[i + 1] == '-')
    decreases |s|
  {
    if |s| <= 1 then s
    else if s[0] == '-' && s[1] == '-' then Collapse(s[1..])
    else [s[0]] + Collapse(s[1..])
  }

  /** `replace(/^-|-$/g, '')`: one leading and one trailing hyphen gone. */
  function StripEdges(s: string): (r: string)
    ensures var a := if |s| > 0 && s[0] == '-' then s[1..] else s;
            r == (if |a| > 0 && a[|a| - 1] == '-' then a[..|a| - 1] else a)
  {
    var a := if |s| > 0 && s[0] == '-' then s[1..] else s;
    if |a| > 0 && a[|a| - 1] == '-' then a[..|a| - 1] else a
  }

  /** The slug of a text. */
  function Slug(text: string): (r: string)
    ensures IsSlug(r)
  {
    var c := Collapse(Hyphenate(DropMarks(ToLower(text))));
    assert forall i | 0 <= i < |c| :: IsSlugChar(c[i]) || c[i] == '-';
    StripEdgesSlug(c);
    StripEdges(c)
  }

  lemma StripEdgesSlug(c: string)
    requires forall i | 0 <= i < |c| :: IsSlugChar(c[i]) || c[i] == '-'
    requires forall i | 0 <= i < |c| - 1 :: !(c[i] == '-' && c[i + 1] == '-')
    ensures IsSlug(StripEdges(c))
  {
    var a := if |c| > 0 && c[0] == '-' then c[1..] else c;
    assert |a| > 1 ==> a[0] != '-';
    var r := StripEdges(c);
    assert r <= a;
  }

  /** `createSafeId`: the slug, behind `prefix-` when a prefix is given and
      followed by `-index` whenever an index is given. */
  function CreateSafeId(text: string, prefix: string, index: Option<int>): (id: string)
    ensures var head := if prefix != "" then prefix + "-" else "";
            var tail := if index.Some? then "-" + IntToString(index.value) else "";
            && |id| == |head| + |Slug(text)| + |tail|
            && id[..|head|] == head
            && id[|head|..|head| + |Slug(text)|] == Slug(text)
            && id[|head| + |Slug(text)|..] == tail
  {
    var head := if prefix != "" then prefix + "-" else "";
    var tail := if index.Some? then "-" + IntToString(index.value) else "";
    var id := head + Slug(text) + tail;
    assert id[..|head|] == head;
    assert id[|head|..|head| + |Slug(text)|] == Slug(text);
    assert id[|head| + |Slug(text)|..] == tail;
    id
  }

  /** `generateComponentId`: the component name is the prefix, the content
      is slugged, and the component name itself is kept verbatim. */
  function ComponentId(componentName: string, content: string, index: Option<int>): (id: string)
    ensures componentName != "" ==>
      |id| > |componentName| && id[..|componentName|] == componentName && id[|componentName|] == '-'
    ensures componentName == "" && index.None? ==> id == Slug(content)
    ensures index.Some? ==> |id| > |IntToString(index.value)| && id[|id| - |IntToString(index.value)| - 1..] == "-" + IntToString(index.value)
    ensures id == (if componentName != "" then componentName + "-" else "") + Slug(content)
                  + (if index.Some? then "-" + IntToString(index.value) else "")
  {
    var id := CreateSafeId(content, componentName, index);
    assert componentName != "" ==> id[..|componentName| + 1] == componentName + "-";
    id
  }

  // ---------------------------------------------------------------------
  // Properties

  /** The letters and digits of the lower-cased text, in order. */
  function Kept(s: string): (r: string)
    ensures forall i | 0 <= i < |r| :: IsSlugChar(r[i])
    decreases |s|
  {
    if |s| == 0 then "" else (if IsSlugChar(s[0]) then [s[0]] else "") + Kept(s[1..])
  }

  lemma {:induction false} KeptConcat(a: string, b: string)
    ensures Kept(a + b) == Kept(a) + Kept(b)
    decreases |a|
  {
    if |a| == 0 {
      assert a + b == b;
    } else {
      assert (a + b)[1..] == a[1..] + b;
      KeptConcat(a[1..], b);
    }
  }

  lemma {:induction false} KeptDropMarks(s: string)
    ensures Kept(DropMarks(s)) == Kept(s)
    decreases |s|
  {
    if |s| > 0 {
      KeptDropMarks(s[1..]);
      KeptConcat(if IsDropped(s[0]) then "" else [s[0]], DropMarks(s[1..]));
    }
  }

  lemma {:induction false} KeptHyphenate(s: string)
    ensures Kept(Hyphenate(s)) == Kept(s)
    decreases |s|
  {
    if |s| > 0 {
      KeptHyphenate(s[1..]);
      assert Hyphenate(s) == [Hyphenate(s)[0]] + Hyphenate(s[1..]);
      KeptConcat([Hyphenate(s)[0]], Hyphenate(s[1..]));
    }
  }

  lemma {:induction false} KeptCollapse(s: string)
    ensures Kept(Collapse(s)) == Kept(s)
    decreases |s|
  {
    if |s| > 1 {
      KeptCollapse(s[1..]);
      if !(s[0] == '-' && s[1] == '-') {
        KeptConcat([s[0]], Collapse(s[1..]));
      }
    }
  }

  lemma KeptStripEdges(s: string)
    ensures Kept(StripEdges(s)) == Kept(s)
  {
    var a := if |s| > 0 && s[0] == '-' then s[1..] else s;
    if |s| > 0 && s[0] == '-' {
      KeptConcat([s[0]], s[1..]);
      assert s == [s[0]] + s[1..];
    }
    if |a| > 0 && a[|a| - 1] == '-' {
      KeptConcat(a[..|a| - 1], [a[|a| - 1]]);
      assert a == a[..|a| - 1] + [a[|a| - 1]];
    }
  }

  /** The slug keeps every ASCII letter and digit of the lower-cased text,
      in order, and adds none. */
  lemma SlugKeepsLettersAndDigits(text: string)
    ensures Kept(Slug(text)) == Kept(ToLower(text))
  {
    var l := ToLower(text);
    KeptDropMarks(l);
    KeptHyphenate(DropMarks(l));
    KeptCollapse(Hyphenate(DropMarks(l)));
    KeptStripEdges(Collapse(Hyphenate(DropMarks(l))));
  }

  /** Only hyphens are left when the text has no letter or digit. */
  lemma SlugEmpty(text: string)
    ensures Slug(text) == "" <==> Kept(ToLower(text)) == ""
  {
    SlugKeepsLettersAndDigits(text);
    var s := Slug(text);
    if s != "" && Kept(s) == "" {
      SlugHasKept(s);
    }
  }

  /** A non-empty slug starts with a letter or digit. */
  lemma SlugHasKept(s: string)
    requires IsSlug(s) && s != ""
    ensures Kept(s) != ""
  {
    KeptConcat([s[0]], s[1..]);
    assert s == [s[0]] + s[1..];
  }

  /** `&`, `(` and `)` vanish without leaving a hyphen behind. */
  lemma DropMarksDeletes(a: string, c: char, b: string)
    requires IsDropped(c)
    ensures DropMarks(a + [c] + b) == DropMarks(a + b)
    decreases |a|
  {
    if |a| == 0 {
      assert a + [c] + b == [c] + b;
      assert ([c] + b)[1..] == b;
      assert DropMarks([c] + b) == "" + DropMarks(b);
      assert a + b == b;
    } else {
      assert (a + [c] + b)[0] == a[0] && (a + [c] + b)[1..] == a[1..] + [c] + b;
      assert (a + b)[0] == a[0] && (a + b)[1..] == a[1..] + b;
      DropMarksDeletes(a[1..], c, b);
    }
  }

  lemma SlugDeletesMarks(a: string, c: char, b: string)
    requires IsDropped(c)
    ensures Slug(a + [c] + b) == Slug(a + b)
  {
    assert ToLower(a + [c] + b) == ToLower(a) + [c] + ToLower(b);
    assert ToLower(a + b) == ToLower(a) + ToLower(b);
    DropMarksDeletes(ToLower(a), c, ToLower(b));
  }

  lemma {:induction false} CollapseFixed(s: string)
    requires forall i | 0 <= i < |s| - 1 :: !(s[i] == '-' && s[i + 1] == '-')
    ensures Collapse(s) == s
    decreases |s|
  {
    if |s| > 1 {
      CollapseFixed(s[1..]);
    }
  }

  /** Two adjacent hyphens collapse as one does. */
  lemma {:induction false} CollapseDouble(a: string, b: string)
    ensures Collapse(a + "--" + b) == Collapse(a + "-" + b)
    decreases |a|
  {
    var s, t := a + "--" + b, a + "-" + b;
    if |a| == 0 {
      assert s[1..] == t;
    } else {
      assert s[0] == t[0] && s[1] == t[1];
      assert s[1..] == a[1..] + "--" + b;
      assert t[1..] == a[1..] + "-" + b;
      CollapseDouble(a[1..], b);
    }
  }

  /** A run of hyphens, however long, collapses to the single hyphen. */
  lemma {:induction false} CollapseRunOfHyphens(a: string, n: nat, b: string)
    ensures Collapse(a + Repeat('-', n + 1) + b) == Collapse(a + "-" + b)
    decreases n
  {
    if n > 0 {
      var r := Repeat('-', n - 1);
      assert Repeat('-', n + 1) == "--" + r;
      assert Repeat('-', n) == "-" + r;
      RunSplit(a, "--", r, b);
      RunSplit(a, "-", r, b);
      CollapseDouble(a, r + b);
      CollapseRunOfHyphens(a, n - 1, b);
    } else {
      assert Repeat('-', 1) == "-";
    }
  }

  lemma RunSplit(a: string, h: string, r: string, b: string)
    ensures a + (h + r) + b == a + h + (r + b)
  {
  }

  /** Words joined by one hyphen, with no other hyphen pair, are kept: a
      run between two words leaves exactly one hyphen there. */
  lemma CollapseJoinsWords(x: string, n: nat, y: string)
    requires forall i | 0 <= i < |x + "-" + y| - 1 :: !((x + "-" + y)[i] == '-' && (x + "-" + y)[i + 1] == '-')
    ensures Collapse(x + Repeat('-', n + 1) + y) == x + "-" + y
  {
    CollapseRunOfHyphens(x, n, y);
    CollapseFixed(x + "-" + y);
  }

  lemma {:induction false} DropMarksFixed(s: string)
    requires forall i | 0 <= i < |s| :: !IsDropped(s[i])
    ensures DropMarks(s) == s
    decreases |s|
  {
    if |s| > 0 {
      DropMarksFixed(s[1..]);
    }
  }

  /** A slug is its own slug. */
  lemma SlugIdempotent(text: string)
    ensures Slug(Slug(text)) == Slug(text)
  {
    var s := Slug(text);
    assert ToLower(s) == s;
    DropMarksFixed(s);
    assert Hyphenate(s) == s;
    CollapseFixed(s);
  }

  /** Without prefix or index the id is the slug alone. */
  lemma PlainId(text: string)
    ensures CreateSafeId(text, "", None) == Slug(text)
  {
  }

  /** With neither prefix nor index the id of an id is the id. */
  lemma CreateSafeIdIdempotent(text: string)
    ensures CreateSafeId(CreateSafeId(text, "", None), "", None) == CreateSafeId(text, "", None)
  {
    PlainId(text);
    PlainId(Slug(text));
    SlugIdempotent(text);
  }

  /** An id with an index is something, a hyphen, and the numeral. */
  lemma IndexedId(text: string, prefix: string, i: nat)
    ensures CreateSafeId(text, prefix, Some(i)) == (if prefix != "" then prefix + "-" else "") + Slug(text) + "-" + NatToString(i)
  {
  }

  lemma NumeralAtEnd(x: string, d: string)
    ensures var id := x + "-" + d;
            && |id| > |d|
            && id[|id| - |d| - 1] == '-'
            && id[|id| - |d|..] == d
  {
    var id := x + "-" + d;
    assert id[|x|] == '-';
    assert id[|x| + 1..] == d;
  }

  /** A non-negative index can be read back from the end of the id. */
  lemma IndexReadBack(text: string, prefix: string, i: nat)
    ensures var id := CreateSafeId(text, prefix, Some(i));
            var d := NatToString(i);
            && |id| > |d|
            && id[|id| - |d| - 1] == '-'
            && id[|id| - |d|..] == d
            && DigitsValue(id[|id| - |d|..]) == i
  {
    IndexedId(text, prefix, i);
    NumeralAtEnd((if prefix != "" then prefix + "-" else "") + Slug(text), NatToString(i));
    DigitsValueOfNatToString(i);
  }
}

=== FILE: scroll.dfy ===
/** Keeping the URL hash in step with the section most visible in the
    viewport: the visibility ratios the observer reports, the choice of the
    most visible section, the hash a section stands for, and the rule that
    rewrites the URL only when the hash changes. */
module Scroll {
  import opened Wrappers
  import opened Text

  /** The fraction of the viewport a section must cover by default. */
  const DefaultThreshold: real := 0.5

  /** Section names that stand for the top of the page by default. */
  const DefaultHeroIds: set<string> := {"hero"}

  /** The caller's options; absent ones take the defaults. */
  datatype Options = Options(threshold: Option<real>, heroIds: Option<seq<string>>)

  datatype Settings = Settings(threshold: real, heroIds: set<string>)

  function ResolveOptions(o: Options): (s: Settings)
    ensures o.threshold.None? ==> s.threshold == DefaultThreshold
    ensures o.heroIds.None? ==> s.heroIds == DefaultHeroIds
    ensures o.heroIds.Some? ==> forall h :: h in s.heroIds <==> h in o.heroIds.value
  {
    Settings(o.threshold.GetOr(DefaultThreshold),
             if o.heroIds.Some? then set h | h in o.heroIds.value else DefaultHeroIds)
  }

  /** An observed section: an identity, its `data-scroll-hash` attribute
      if it has one, and its element id (empty when it has none). */
  datatype Section = Section(key: nat, scrollHash: Option<string>, id: string)

  // ---------------------------------------------------------------------
  // The hash a section stands for

  /** The attribute when present, even if empty, else the id; trimmed. */
  function RawHash(s: Section): string {
    Trim(if s.scrollHash.Some? then s.scrollHash.value else s.id)
  }

  /** `resolveHash`: no hash for an empty value, `/` or a hero name;
      otherwise `#` and the value with one leading `#` dropped. */
  function ResolveHash(s: Section, heroIds: set<string>): (h: string)
    ensures h == "" <==> RawHash(s) == "" || RawHash(s) == "/" || RawHash(s) in heroIds
    ensures h != "" ==> h[0] == '#' && (h == RawHash(s) || h == "#" + RawHash(s))
    ensures h != "" && RawHash(s)[0] == '#' ==> h == RawHash(s)
  {
    var raw := RawHash(s);
    if raw == "" || raw == "/" || raw in heroIds then ""
    else
      var clean := if raw[0] == '#' then raw[1..] else raw;
      assert raw[0] == '#' ==> raw == "#" + clean;
      "#" + clean
  }

  /** A resolved hash has no surrounding whitespace. */
  lemma ResolvedTrimmed(s: Section, heroIds: set<string>)
    requires ResolveHash(s, heroIds) != ""
    ensures Trim(ResolveHash(s, heroIds)) == ResolveHash(s, heroIds)
  {
    var raw := RawHash(s);
    TrimIdempotent(if s.scrollHash.Some? then s.scrollHash.value else s.id);
    if raw[0] != '#' {
      HashTrimmed(raw);
    }
  }

  /** A `#` in front of a trimmed non-empty string keeps it trimmed. */
  lemma HashTrimmed(raw: string)
    requires raw != "" && Trim(raw) == raw
    ensures Trim("#" + raw) == "#" + raw
  {
    var i, j := TrimBounds(raw);
    assert i == 0 && j == |raw|;
    var h := "#" + raw;
    assert h[|h| - 1] == raw[|raw| - 1];
    assert TrimmedAt(h, 0, |h|);
    TrimUnique(h, 0, |h|);
  }

  /** A section whose attribute is a resolved hash resolves to that hash
      again, unless the hash itself is a hero name. */
  lemma ResolveHashFixed(s: Section, heroIds: set<string>, key: nat, id: string)
    requires ResolveHash(s, heroIds) != "" && ResolveHash(s, heroIds) !in heroIds
    ensures ResolveHash(Section(key, Some(ResolveHash(s, heroIds)), id), heroIds) == ResolveHash(s, heroIds)
  {
    ResolvedTrimmed(s, heroIds);
  }

  // ---------------------------------------------------------------------
  // Visibility ratios

  /** One observer report about one section. */
  datatype Report = Report(target: Section, isIntersecting: bool, rootHeight: Option<real>, height: real)

  /** The share of the viewport a report says its section covers: none
      when it is out of view or the viewport has no height, otherwise the
      covered height over the viewport height, clamped to [0, 1]. The
      viewport height is the window's when the report carries none. */
  function ObservedRatio(r: Report, windowHeight: real): (v: real)
    ensures 0.0 <= v <= 1.0
    ensures !r.isIntersecting || r.rootHeight.GetOr(windowHeight) <= 0.0 ==> v == 0.0
    ensures r.isIntersecting && r.rootHeight.GetOr(windowHeight) > 0.0 ==>
      var q := r.height / r.rootHeight.GetOr(windowHeight);
      v == (if q < 0.0 then 0.0 else if q > 1.0 then 1.0 else q)
  {
    if !r.isIntersecting then 0.0
    else
      var rootHeight := r.rootHeight.GetOr(windowHeight);
      if rootHeight > 0.0 then Min(1.0, Max(0.0, r.height / rootHeight)) else 0.0
  }

  function Min(a: real, b: real): real { if a <= b then a else b }

  function Max(a: real, b: real): real { if a >= b then a else b }

  /** The ratio table in insertion order, as a JavaScript `Map` iterates. */
  type Ratios = seq<(Section, real)>

  predicate Distinct(t: Ratios) {
    forall i, j | 0 <= i < j < |t| :: t[i].0 != t[j].0
  }

  predicate InRange(t: Ratios) {
    forall i | 0 <= i < |t| :: 0.0 <= t[i].1 <= 1.0
  }

  function Lookup(t: Ratios, s: Section): (r: Option<real>)
    ensures r.None? <==> forall i | 0 <= i < |t| :: t[i].0 != s
    ensures r.Some? ==> exists i | 0 <= i < |t| :: t[i] == (s, r.value)
  {
    if |t| == 0 then None
    else if t[0].0 == s then Some(t[0].1)
    else
      var r := Lookup(t[1..], s);
      assert forall i | 1 <= i < |t| :: t[i] == t[1..][i - 1];
      r
  }

  /** Where `s` sits in the table, if anywhere. */
  function Position(t: Ratios, s: Section): (p: Option<nat>)
    ensures p.Some? ==> p.value < |t| && t[p.value].0 == s
    ensures p.None? ==> forall i | 0 <= i < |t| :: t[i].0 != s
    decreases |t|
  {
    if |t| == 0 then None
    else if t[|t| - 1].0 == s then Some(|t| - 1)
    else Position(t[..|t| - 1], s)
  }

  /** `Map.prototype.set`: a known section keeps its place and gets the new
      ratio; a new one is added at the end. */
  function SetRatio(t: Ratios, s: Section, v: real): (r: Ratios)
    ensures Position(t, s).Some? ==> |r| == |t|
    ensures Position(t, s).None? ==> |r| == |t| + 1 && r[|t|] == (s, v)
    ensures forall i | 0 <= i < |t| :: r[i].0 == t[i].0
    ensures forall i | 0 <= i < |t| && t[i].0 != s :: r[i] == t[i]
    ensures Position(t, s).Some? ==> r[Position(t, s).value] == (s, v)
  {
    match Position(t, s)
    case Some(p) => t[p := (s, v)]
    case None => t + [(s, v)]
  }

  /** Setting keeps sections distinct and records the new ratio, leaving
      every other section's ratio as it was. */
  lemma SetRatioLookup(t: Ratios, s: Section, v: real, other: Section)
    requires Distinct(t)
    ensures Distinct(SetRatio(t, s, v))
    ensures Lookup(SetRatio(t, s, v), s) == Some(v)
    ensures other != s ==> Lookup(SetRatio(t, s, v), other) == Lookup(t, other)
  {
    var r := SetRatio(t, s, v);
    LookupDistinct(r, s);
    LookupDistinct(r, other);
    LookupDistinct(t, other);
  }

  lemma LookupDistinct(t: Ratios, s: Section)
    requires Distinct(t)
    ensures forall i | 0 <= i < |t| && t[i].0 == s :: Lookup(t, s) == Some(t[i].1)
  {
  }

  /** The reports applied in order. */
  function Record(t: Ratios, reports: seq<Report>, windowHeight: real): (r: Ratios)
    ensures InRange(t) ==> InRange(r)
    ensures |t| <= |r|
    ensures forall i | 0 <= i < |t| :: r[i].0 == t[i].0
    decreases |reports|
  {
    if |reports| == 0 then t
    else
      var last := reports[|reports| - 1];
      SetRatio(Record(t, reports[..|reports| - 1], windowHeight), last.target, ObservedRatio(last, windowHeight))
  }

  /** After a batch, a section's ratio is what its last report says. */
  lemma RecordLast(t: Ratios, reports: seq<Report>, r: Report, windowHeight: real)
    requires Distinct(t)
    ensures Distinct(Record(t, reports + [r], windowHeight))
    ensures Lookup(Record(t, reports + [r], windowHeight), r.target) == Some(ObservedRatio(r, windowHeight))
  {
    assert (reports + [r])[..|reports|] == reports;
    RecordDistinct(t, reports, windowHeight);
    SetRatioLookup(Record(t, reports, windowHeight), r.target, ObservedRatio(r, windowHeight), r.target);
  }

  lemma {:induction false} RecordDistinct(t: Ratios, reports: seq<Report>, windowHeight: real)
    requires Distinct(t)
    ensures Distinct(Record(t, reports, windowHeight))
    decreases |reports|
  {
    if |reports| > 0 {
      var last := reports[|reports| - 1];
      RecordDistinct(t, reports[..|reports| - 1], windowHeight);
      SetRatioLookup(Record(t, reports[..|reports| - 1], windowHeight), last.target, ObservedRatio(last, windowHeight), last.target);
    }
  }

  // ---------------------------------------------------------------------
  // The most visible section

  /** Entry `b` covers at least the threshold, no entry covers more, and
      every earlier entry covers strictly less. */
  predicate IsMostVisible(t: Ratios, threshold: real, b: nat) {
    && b < |t|
    && t[b].1 >= threshold
    && (forall j | 0 <= j < |t| :: t[j].1 <= t[b].1)
    && (forall j | 0 <= j < b :: t[j].1 < t[b].1)
  }

  /** `findMostVisibleElement`: the first entry with the largest ratio, if
      that ratio reaches the threshold. */
  method MostVisible(t: Ratios, threshold: real) returns (best: Option<nat>)
    ensures best.None? <==> forall j | 0 <= j < |t| :: t[j].1 < threshold
    ensures best.Some? ==> IsMostVisible(t, threshold, best.value)
  {
    best := None;
    var i := 0;
    while i < |t|
      invariant 0 <= i <= |t|
      invariant best.None? <==> forall j | 0 <= j < i :: t[j].1 < threshold
      invariant best.Some? ==> IsMostVisible(t[..i], threshold, best.value)
    {
      var ratio := t[i].1;
      if ratio >= threshold && (best.None? || ratio > t[best.value].1) {
        best := Some(i);
      }
      i := i + 1;
    }
    assert t[..i] == t;
  }

  /** At most one entry is the most visible. */
  lemma MostVisibleUnique(t: Ratios, threshold: real, a: nat, b: nat)
    requires IsMostVisible(t, threshold, a) && IsMostVisible(t, threshold, b)
    ensures a == b
  {
  }

  // ---------------------------------------------------------------------
  // Updating the URL

  /** The parts of the current location the update reads. */
  datatype Location = Location(pathname: string, search: string, hash: string)

  /** `updateUrlHash`: nothing when the location already shows `hash`;
      otherwise the path and search, followed by the hash if any. */
  function UrlUpdate(loc: Location, hash: string): (url: Option<string>)
    ensures url.None? <==> hash == loc.hash
    ensures url.Some? ==> |url.value| == |loc.pathname + loc.search| + |hash|
    ensures url.Some? ==> url.value[..|loc.pathname + loc.search|] == loc.pathname + loc.search
    ensures url.Some? ==> url.value[|loc.pathname + loc.search|..] == hash
  {
    var base := loc.pathname + loc.search;
    if hash == loc.hash then None
    else
      var url := if hash != "" then base + hash else base;
      assert url[..|base|] == base && url[|base|..] == hash;
      Some(url)
  }

  /** The outcome of one batch of reports. */
  datatype Outcome = Outcome(ratios: Ratios, activeHash: string, written: Option<string>)

  /** `handleIntersectionEntries`: record the reports, pick the most
      visible section, and change the active hash and the URL only when
      its hash differs from the active one. */
  method HandleReports(t: Ratios, active: string, reports: seq<Report>, windowHeight: real, settings: Settings, loc: Location)
    returns (out: Outcome, best: Option<nat>)
    ensures out.ratios == Record(t, reports, windowHeight)
    ensures best.None? <==> forall j | 0 <= j < |out.ratios| :: out.ratios[j].1 < settings.threshold
    ensures best.Some? ==> IsMostVisible(out.ratios, settings.threshold, best.value)
    ensures best.None? ==> out.activeHash == active
    ensures best.Some? ==> out.activeHash == ResolveHash(out.ratios[best.value].0, settings.heroIds)
    ensures out.activeHash == active ==> out.written.None?
    ensures out.activeHash != active ==> out.written == UrlUpdate(loc, out.activeHash)
  {
    var ratios := Record(t, reports, windowHeight);
    best := MostVisible(ratios, settings.threshold);
    if best.None? {
      out := Outcome(ratios, active, None);
    } else {
      var hash := ResolveHash(ratios[best.value].0, settings.heroIds);
      out := Outcome(ratios, hash, if hash == active then None else UrlUpdate(loc, hash));
    }
  }

  /** After any batch, an empty batch that follows changes nothing: the
      same ratios, the same active hash and no URL write. */
  method HandleReportsTwice(t: Ratios, active: string, reports: seq<Report>, windowHeight: real, settings: Settings, loc: Location)
    returns (first: Outcome, second: Outcome)
    ensures first.ratios == Record(t, reports, windowHeight)
    ensures second.ratios == first.ratios
    ensures second.activeHash == first.activeHash
    ensures second.written.None?
  {
    var a, b;
    first, a := HandleReports(t, active, reports, windowHeight, settings, loc);
    second, b := HandleReports(first.ratios, first.activeHash, [], windowHeight, settings, loc);
    if a.Some? && b.Some? {
      MostVisibleUnique(first.ratios, settings.threshold, a.value, b.value);
    }
  }
}

=== FILE: skills.dfy ===
/** The skill search box: the flat list of skills on the skill cards and
    the first skill matching a query, ignoring case. */
module Skills {
  import opened Wrappers
  import opened Text

  /** A skill item; its title may list several skills separated by `|`. */
  datatype SkillItem = SkillItem(title: Option<string>)

  datatype SkillCard = SkillCard(skillItems: Option<seq<SkillItem>>)

  /** The skills one item lists: the title split on `|`, each piece
      trimmed; a missing title counts as empty. */
  function ItemSkills(item: SkillItem): (skills: seq<string>)
    ensures |skills| == multiset(item.title.GetOr(""))['|'] + 1 == |Split(item.title.GetOr(""), '|')|
    ensures forall k | 0 <= k < |skills| :: skills[k] == Trim(Split(item.title.GetOr(""), '|')[k])
  {
    SplitCount(item.title.GetOr(""), '|');
    TrimAll(Split(item.title.GetOr(""), '|'))
  }

  /** The skills of a list of items, item by item. */
  function ItemsSkills(items: seq<SkillItem>): seq<string> {
    if |items| == 0 then [] else ItemSkills(items[0]) + ItemsSkills(items[1..])
  }

  /** The skills of a card; a card without items has none. */
  function CardSkills(card: SkillCard): seq<string> {
    ItemsSkills(card.skillItems.GetOr([]))
  }

  function CardsSkills(cards: seq<SkillCard>): seq<string> {
    if |cards| == 0 then [] else CardSkills(cards[0]) + CardsSkills(cards[1..])
  }

  /** `extractAllSkills`: nothing while the cards are not loaded, otherwise
      every card's skills in order. */
  function AllSkills(cards: Option<seq<SkillCard>>): (skills: seq<string>)
    ensures cards.None? ==> skills == []
    ensures cards.Some? && |cards.value| == 1 ==> skills == CardSkills(cards.value[0])
  {
    match cards
    case None => []
    case Some(cs) =>
      assert |cs| == 1 ==> CardsSkills(cs) == CardSkills(cs[0]) + CardsSkills([]);
      CardsSkills(cs)
  }

  /** Skills come out card after card, in the order the cards are given. */
  lemma {:induction false} CardsSkillsConcat(a: seq<SkillCard>, b: seq<SkillCard>)
    ensures CardsSkills(a + b) == CardsSkills(a) + CardsSkills(b)
    decreases |a|
  {
    if |a| == 0 {
      assert a + b == b;
    } else {
      assert (a + b)[0] == a[0] && (a + b)[1..] == a[1..] + b;
      CardsSkillsConcat(a[1..], b);
    }
  }

  /** Within a card, item after item. */
  lemma {:induction false} ItemsSkillsConcat(a: seq<SkillItem>, b: seq<SkillItem>)
    ensures ItemsSkills(a + b) == ItemsSkills(a) + ItemsSkills(b)
    decreases |a|
  {
    if |a| == 0 {
      assert a + b == b;
    } else {
      assert (a + b)[0] == a[0] && (a + b)[1..] == a[1..] + b;
      ItemsSkillsConcat(a[1..], b);
    }
  }

  /** A title without `|` is one skill, trimmed; a missing title is one
      empty skill. */
  lemma SingleSkill(title: Option<string>)
    requires '|' !in title.GetOr("")
    ensures ItemSkills(SkillItem(title)) == [Trim(title.GetOr(""))]
  {
    SplitNoSeparator(title.GetOr(""), '|');
  }

  /** Joining the untrimmed pieces with `|` gives the title back. */
  lemma ItemPiecesJoin(item: SkillItem)
    ensures Join(Split(item.title.GetOr(""), '|'), "|") == item.title.GetOr("")
  {
    JoinSplit(item.title.GetOr(""), '|');
  }

  // ---------------------------------------------------------------------
  // Searching

  /** `skill.toLowerCase().includes(query)`. */
  predicate Matches(skill: string, query: string) {
    Includes(ToLower(skill), query)
  }

  /** `Array.prototype.find`: the index of the first matching skill. */
  function FirstMatch(skills: seq<string>, query: string): (r: Option<nat>)
    ensures r.Some? ==> r.value < |skills| && Matches(skills[r.value], query)
    ensures r.Some? ==> forall j | 0 <= j < r.value :: !Matches(skills[j], query)
    ensures r.None? ==> forall j | 0 <= j < |skills| :: !Matches(skills[j], query)
    decreases |skills|
  {
    if |skills| == 0 then None
    else if Matches(skills[0], query) then Some(0)
    else
      match FirstMatch(skills[1..], query)
      case None => None
      case Some(k) => Some(k + 1)
  }

  datatype SkillResult = Found(skill: string) | NotFound(query: string)

  /** `skillResult`: nothing for a blank query; otherwise the first skill
      containing the trimmed, lower-cased query, or the trimmed query as
      typed when none does. */
  function Search(skills: seq<string>, debounced: string): (r: Option<SkillResult>)
    ensures r.None? <==> Trim(debounced) == ""
  {
    var query := ToLower(Trim(debounced));
    if query == "" then None
    else
      match FirstMatch(skills, query)
      case Some(k) => if skills[k] != "" then Some(Found(skills[k])) else Some(NotFound(Trim(debounced)))
      case None => Some(NotFound(Trim(debounced)))
  }

  /** No non-empty query occurs in the empty string. */
  lemma NothingInEmpty(query: string)
    requires query != ""
    ensures !Includes("", query)
  {
  }

  /** A non-blank query finds the first skill that contains it, ignoring
      case, and reports the trimmed query when no skill does. */
  lemma SearchResult(skills: seq<string>, debounced: string)
    requires Trim(debounced) != ""
    ensures var query := ToLower(Trim(debounced));
            && (forall k | 0 <= k < |skills| && Matches(skills[k], query) && (forall j | 0 <= j < k :: !Matches(skills[j], query)) ::
                  Search(skills, debounced) == Some(Found(skills[k])))
            && ((forall k | 0 <= k < |skills| :: !Matches(skills[k], query)) ==>
                  Search(skills, debounced) == Some(NotFound(Trim(debounced))))
  {
    var query := ToLower(Trim(debounced));
    match FirstMatch(skills, query)
    case None =>
    case Some(m) =>
      NothingInEmpty(query);
      assert ToLower(skills[m]) != "";
  }

  /** A found skill is one of the skills. */
  lemma FoundIsSkill(skills: seq<string>, debounced: string)
    requires Search(skills, debounced).Some? && Search(skills, debounced).value.Found?
    ensures Search(skills, debounced).value.skill in skills
  {
  }

  /** `isSearching`: a query typed but not yet passed on by the debounce. */
  predicate IsSearching(query: string, debounced: string) {
    Trim(query) != "" && Trim(debounced) == ""
  }

  /** `resetSearch`: the query it leaves behind. Nothing is being searched
      right after it, whatever the debounced value still holds; once the
      debounce has passed the empty query on, no search has a result. */
  function ResetSearch(): (query: string)
    ensures forall debounced: string :: !IsSearching(query, debounced)
    ensures forall skills: seq<string> :: Search(skills, query) == None
  {
    ""
  }
}

=== FILE: strapi.dfy ===
/** The browser-side CMS helper: it sends a query to the plain proxy,
    filters the fields of what comes back once more, and builds absolute
    image URLs from image records. */
module Strapi {
  import opened Wrappers
  import opened Text
  import opened Json
  import Requests

  // ---------------------------------------------------------------------
  // The query sent to the proxy

  /** The locale used when the caller names none. */
  const DefaultLocale: string := "de"

  /** What the helper sends: the endpoint, the collection flag, the fields
      when there are any, and a locale. */
  datatype ClientQuery = ClientQuery(endpoint: string, isCollection: bool, fields: seq<string>, locale: string)

  /** The query for a call, or the error thrown for an empty endpoint. A
      caller's locale wins when it is non-empty; otherwise the default. */
  function PlanCms(endpoint: string, fields: seq<string>, customLocale: Option<string>, isCollection: bool): (r: Result<ClientQuery, string>)
    ensures endpoint == "" <==> r == Err("Invalid endpoint provided")
    ensures endpoint != "" ==> r.Ok?
    ensures r.Ok? ==> r.value.endpoint == endpoint && r.value.fields == fields && r.value.isCollection == isCollection
    ensures r.Ok? ==> r.value.locale != ""
    ensures r.Ok? && Requests.Given(customLocale) ==> r.value.locale == customLocale.value
    ensures r.Ok? && !Requests.Given(customLocale) ==> r.value.locale == DefaultLocale
  {
    if endpoint == "" then Err("Invalid endpoint provided")
    else
      var locale := if Requests.Given(customLocale) then customLocale.value else DefaultLocale;
      Ok(ClientQuery(endpoint, isCollection, fields, locale))
  }

  /** The query string as the proxy reads it: a repeated parameter arrives
      as a list, a single one as a string, and a boolean as its text. */
  function Encode(q: ClientQuery): Requests.Query {
    var fields :=
      if |q.fields| == 0 then Requests.Absent
      else if |q.fields| == 1 then Requests.One(q.fields[0])
      else Requests.Many(q.fields);
    Requests.Query(Some(q.endpoint), fields, Some(q.locale),
                   Requests.FlagText(if q.isCollection then "true" else "false"),
                   Requests.Absent)
  }

  /** The proxy reads back the endpoint, fields, locale and collection flag
      the helper sent, except a lone empty field name. */
  lemma EncodeRoundTrip(q: ClientQuery)
    requires q.endpoint != "" && q.locale != "" && q.fields != [""]
    ensures Requests.Given(Encode(q).endpoint) && Encode(q).endpoint.value == q.endpoint
    ensures Requests.NormalizeList(Encode(q).fields) == q.fields
    ensures Requests.Given(Encode(q).locale) && Encode(q).locale.value == q.locale
    ensures Requests.IsSet(Encode(q).isCollection) == q.isCollection
  {
    if |q.fields| == 1 {
      assert q.fields == [q.fields[0]];
    }
  }

  /** A lone empty field name arrives as an empty parameter and is dropped. */
  lemma EncodeLoneEmptyField(q: ClientQuery)
    requires q.fields == [""]
    ensures Requests.NormalizeList(Encode(q).fields) == []
  {
  }

  // ---------------------------------------------------------------------
  // Filtering the proxy's answer

  /** The own properties of `item` among `fields`, copied into a new
      object; reading a property of `null` throws. */
  function FilterItem(item: Json, fields: seq<string>): (r: Result<Json, string>)
    ensures item.JNull? <==> r.Err?
    ensures r.Ok? ==> r.value.JObj?
    ensures r.Ok? ==> forall k :: k in r.value.fields <==> k in fields && Own(item, k).Some?
    ensures r.Ok? ==> forall k | k in r.value.fields :: Own(item, k) == Some(r.value.fields[k])
  {
    if item.JNull? then Err("TypeError")
    else Ok(JObj(map k | k in fields && Own(item, k).Some? :: Own(item, k).value))
  }

  /** Every item filtered; the first `null` item aborts the whole call. */
  function FilterAll(items: seq<Json>, fields: seq<string>): (r: Result<seq<Json>, string>)
    ensures r.Ok? <==> forall i | 0 <= i < |items| :: !items[i].JNull?
    ensures r.Ok? ==> |r.value| == |items|
    ensures r.Ok? ==> forall i | 0 <= i < |items| :: FilterItem(items[i], fields) == Ok(r.value[i])
  {
    if |items| == 0 then Ok([])
    else
      match FilterItem(items[0], fields)
      case Err(e) => Err(e)
      case Ok(x) =>
        match FilterAll(items[1..], fields)
        case Err(e) => Err(e)
        case Ok(xs) =>
          assert forall i | 1 <= i < |items| :: items[i] == items[1..][i - 1];
          Ok([x] + xs)
  }

  /** The helper's handling of the proxy's answer: a collection that is
      not an array becomes empty, and items are filtered when fields are
      asked for; a truthy single answer is filtered when fields are asked
      for. */
  function ShapeCms(isCollection: bool, fields: seq<string>, response: Json): (r: Result<Json, string>)
    ensures isCollection && !response.JArr? ==> r == Ok(JArr([]))
    ensures isCollection && response.JArr? && |fields| > 0 ==>
      (r.Ok? <==> FilterAll(response.items, fields).Ok?) && (r.Ok? ==> r.value == JArr(FilterAll(response.items, fields).value))
    ensures |fields| == 0 ==> r == Ok(if isCollection && !response.JArr? then JArr([]) else response)
    ensures !isCollection && Truthy(response) && |fields| > 0 ==> r == FilterItem(response, fields) && r.Ok?
    ensures !isCollection && !Truthy(response) ==> r == Ok(response)
  {
    if isCollection then
      if !Truthy(response) || !response.JArr? then Ok(JArr([]))
      else if |fields| > 0 then
        match FilterAll(response.items, fields)
        case Err(e) => Err(e)
        case Ok(xs) => Ok(JArr(xs))
      else Ok(response)
    else if |fields| > 0 && Truthy(response) then FilterItem(response, fields)
    else Ok(response)
  }

  /** On arrays and objects the helper's filter is the server's pick. */
  lemma FilterIsPick(item: Json, fields: seq<string>)
    requires IsObject(item) && |fields| > 0
    ensures FilterItem(item, fields) == Ok(PickFields(item, fields))
  {
  }

  /** Numbers and booleans have no own properties: they filter to `{}`. */
  lemma FilterPrimitive(item: Json, fields: seq<string>)
    requires item.JNum? || item.JBool?
    ensures FilterItem(item, fields) == Ok(JObj(map[]))
  {
    assert FilterItem(item, fields).value.fields == map[];
  }

  /** Filtering a collection the proxy has already picked changes nothing
      when every item is an array or object. */
  lemma CollectionFilterRedundant(fields: seq<string>, cms: Json)
    requires |fields| > 0
    requires forall i | 0 <= i < |AsArray(Unwrap(cms))| :: IsObject(AsArray(Unwrap(cms))[i])
    ensures ShapeCms(true, fields, Requests.ShapeResponse(true, fields, cms)) == Ok(Requests.ShapeResponse(true, fields, cms))
  {
    var items := AsArray(Unwrap(cms));
    var shaped := Requests.ShapeResponse(true, fields, cms);
    forall i | 0 <= i < |shaped.items|
      ensures FilterItem(shaped.items[i], fields) == Ok(shaped.items[i])
    {
      PickFieldsIdempotent(items[i], fields);
      FilterIsPick(shaped.items[i], fields);
    }
    var f := FilterAll(shaped.items, fields);
    assert f.Ok?;
    assert f.value == shaped.items;
  }

  /** Likewise for a single payload that is an array or object. */
  lemma SingleFilterRedundant(fields: seq<string>, cms: Json)
    requires |fields| > 0 && IsObject(Unwrap(cms))
    ensures ShapeCms(false, fields, Requests.ShapeResponse(false, fields, cms)) == Ok(Requests.ShapeResponse(false, fields, cms))
  {
    PickFieldsIdempotent(Unwrap(cms), fields);
    FilterIsPick(Requests.ShapeResponse(false, fields, cms), fields);
  }

  // ---------------------------------------------------------------------
  // Image URLs

  /** An image record: its own URL and, per format name, a format record
      that may carry a URL. */
  datatype Image = Image(url: Option<string>, formats: Option<map<string, Option<string>>>)

  /** `/^https?:\/\//i` or `/^\/\//`: a URL with a scheme, or a
      protocol-relative one. */
  predicate IsAbsolute(s: string) {
    || (|s| >= 7 && ToLower(s[..7]) == "http://")
    || (|s| >= 8 && ToLower(s[..8]) == "https://")
    || (|s| >= 2 && s[..2] == "//")
  }

  /** `replace(/\/+$/g, '')`: every trailing slash removed. */
  function TrimTrailingSlashes(s: string): (r: string)
    ensures r <= s && (r == "" || r[|r| - 1] != '/')
    ensures forall i | |r| <= i < |s| :: s[i] == '/'
    decreases |s|
  {
    if |s| > 0 && s[|s| - 1] == '/' then TrimTrailingSlashes(s[..|s| - 1]) else s
  }

  /** A string is its trimmed form followed only by slashes, and that
      split is unique. */
  lemma TrimTrailingSlashesUnique(s: string, r: string)
    requires r <= s && (r == "" || r[|r| - 1] != '/')
    requires forall i | |r| <= i < |s| :: s[i] == '/'
    ensures TrimTrailingSlashes(s) == r
    decreases |s|
  {
    if |s| > |r| {
      TrimTrailingSlashesUnique(s[..|s| - 1], r);
    }
  }

  /** The relative URL an image offers for `format`: the format's URL when
      the format record exists and has one, else the image's own. */
  function RelativeUrl(image: Image, format: string): (r: Option<string>)
    ensures image.formats.Some? && format in image.formats.value && image.formats.value[format].Some? ==>
      r == image.formats.value[format]
    ensures r.Some? && r != image.url ==> image.formats.Some? && format in image.formats.value && image.formats.value[format] == r
  {
    var formatUrl := if image.formats.Some? && format in image.formats.value then image.formats.value[format] else None;
    if formatUrl.Some? then formatUrl else image.url
  }

  /** The base URL: `api_base`, else `api_url`, else nothing. */
  function BaseUrl(apiBase: Option<string>, apiUrl: Option<string>): (b: string)
    ensures Requests.Given(apiBase) ==> b == apiBase.value
    ensures !Requests.Given(apiBase) && Requests.Given(apiUrl) ==> b == apiUrl.value
    ensures !Requests.Given(apiBase) && !Requests.Given(apiUrl) ==> b == ""
  {
    if Requests.Given(apiBase) then apiBase.value else if Requests.Given(apiUrl) then apiUrl.value else ""
  }

  /** The path with exactly the one leading slash it may lack. */
  function Rooted(path: string): (r: string)
    ensures |r| >= 1 && r[0] == '/'
    ensures |path| <= |r| <= |path| + 1 && r[|r| - |path|..] == path
  {
    if |path| > 0 && path[0] == '/' then path else "/" + path
  }

  /** The image's URL for `format` against the configured base: nothing
      without an image or a non-empty relative URL, an absolute URL as it
      is, otherwise the base without trailing slashes joined to the path
      by one slash. */
  function BuildImageUrl(image: Option<Image>, format: string, apiBase: Option<string>, apiUrl: Option<string>): (r: Option<string>)
    ensures r.Some? <==> image.Some? && Requests.Given(RelativeUrl(image.value, format))
    ensures r.Some? && IsAbsolute(RelativeUrl(image.value, format).value) ==> r.value == RelativeUrl(image.value, format).value
  {
    if image.None? then None
    else
      var relative := RelativeUrl(image.value, format);
      if !Requests.Given(relative) then None
      else if IsAbsolute(relative.value) then Some(relative.value)
      else
        var baseTrim := TrimTrailingSlashes(BaseUrl(apiBase, apiUrl));
        var rel := Rooted(relative.value);
        Some(if baseTrim != "" then baseTrim + rel else rel)
  }

  /** For a relative path the result is the trimmed base, one slash, and
      the path without its own leading slash, which itself starts with no
      further slash. */
  lemma ImageUrlJoin(image: Image, format: string, apiBase: Option<string>, apiUrl: Option<string>)
    requires Requests.Given(RelativeUrl(image, format)) && !IsAbsolute(RelativeUrl(image, format).value)
    ensures var p := RelativeUrl(image, format).value;
            var tail := if p[0] == '/' then p[1..] else p;
            && BuildImageUrl(Some(image), format, apiBase, apiUrl) == Some(TrimTrailingSlashes(BaseUrl(apiBase, apiUrl)) + "/" + tail)
            && (tail == "" || tail[0] != '/')
  {
    var p := RelativeUrl(image, format).value;
    JoinRooted(TrimTrailingSlashes(BaseUrl(apiBase, apiUrl)), p);
    NoSecondSlash(p);
  }

  /** Joining a trimmed base to a rooted path puts one slash between them. */
  lemma JoinRooted(baseTrim: string, p: string)
    requires p != ""
    ensures var tail := if p[0] == '/' then p[1..] else p;
            (if baseTrim != "" then baseTrim + Rooted(p) else Rooted(p)) == baseTrim + "/" + tail
  {
    var tail := if p[0] == '/' then p[1..] else p;
    if p[0] == '/' {
      assert p == "/" + p[1..];
      assert Rooted(p) == p;
    } else {
      assert Rooted(p) == "/" + p;
    }
    if baseTrim == "" {
      assert baseTrim + "/" + tail == "/" + tail;
    }
  }

  lemma NoSecondSlash(p: string)
    requires |p| >= 2 ==> p[..2] != "//"
    ensures |p| >= 2 && p[0] == '/' ==> p[1] != '/'
  {
    if |p| >= 2 {
      assert p[..2][0] == p[0] && p[..2][1] == p[1];
    }
  }

  /** With a base that has no trailing slash, a path without a leading one
      is appended after a single slash, and the path can be read back. */
  lemma ImageUrlRoundTrip(base: string, path: string, format: string)
    requires base != "" && base[|base| - 1] != '/'
    requires path != "" && path[0] != '/' && !IsAbsolute(path)
    ensures var r := BuildImageUrl(Some(Image(Some(path), None)), format, Some(base), None);
            && r == Some(base + "/" + path)
            && r.value[..|base|] == base && r.value[|base| + 1..] == path
  {
    TrimTrailingSlashesUnique(base, base);
    ImageUrlJoin(Image(Some(path), None), format, Some(base), None);
    var r := base + "/" + path;
    assert r[..|base|] == base;
    assert r[|base| + 1..] == path;
  }

  /** A format record whose URL is empty hides the image's own URL. */
  lemma EmptyFormatUrl(image: Image, format: string, apiBase: Option<string>, apiUrl: Option<string>)
    requires image.formats.Some? && format in image.formats.value && image.formats.value[format] == Some("")
    ensures BuildImageUrl(Some(image), format, apiBase, apiUrl) == None
  {
  }
}

=== FILE: symbols.dfy ===
/** `normalizeSymbols`: backticks are dropped and decorative star glyphs
    become bullets. */
module Symbols {
  import opened Text

  const Bullet: char := '\U{2022}'

  /** The decorative stars the converters replace by a bullet. */
  predicate IsStarGlyph(c: char) {
    || c == '\U{2B50}' || c == '\U{1F31F}' || c == '\U{2728}' || c == '\U{2605}'
    || c == '\U{2606}' || c == '\U{2726}' || c == '\U{2727}' || c == '\U{272A}'
    || c == '\U{272B}' || c == '\U{272C}' || c == '\U{272D}' || c == '\U{272E}'
    || c == '\U{272F}'
  }

  predicate NoStars(s: string) {
    forall i | 0 <= i < |s| :: !IsStarGlyph(s[i])
  }

  /** Every star glyph replaced by a bullet, every other character kept. */
  function ReplaceStars(s: string): (r: string)
    ensures |r| == |s| && NoStars(r)
    ensures forall i | 0 <= i < |s| && !IsStarGlyph(s[i]) :: r[i] == s[i]
    ensures forall i | 0 <= i < |s| && IsStarGlyph(s[i]) :: r[i] == Bullet
  {
    seq(|s|, i requires 0 <= i < |s| => if IsStarGlyph(s[i]) then Bullet else s[i])
  }

  /** Replacing stars never introduces a character other than the bullet. */
  lemma ReplaceStarsChars(s: string)
    ensures forall x | x in ReplaceStars(s) :: x in s || x == Bullet
  {
    var r := ReplaceStars(s);
    forall x | x in r ensures x in s || x == Bullet {
      var i :| 0 <= i < |r| && r[i] == x;
    }
  }

  /** Deleting plain stars commutes with replacing star glyphs. */
  lemma {:induction false} ReplaceStarsWithout(s: string)
    ensures Without(ReplaceStars(s), '*') == ReplaceStars(Without(s, '*'))
    decreases |s|
  {
    if |s| > 0 {
      ReplaceStarsWithout(s[1..]);
      var r := ReplaceStars(s);
      assert r[1..] == ReplaceStars(s[1..]);
      assert r[0] == '*' <==> s[0] == '*';
      if s[0] != '*' {
        assert Without(s, '*') == [s[0]] + Without(s[1..], '*');
        ReplaceStarsConcat([s[0]], Without(s[1..], '*'));
      }
    }
  }

  lemma ReplaceStarsConcat(a: string, b: string)
    ensures ReplaceStars(a + b) == ReplaceStars(a) + ReplaceStars(b)
  {
    assert forall i | 0 <= i < |a| :: (a + b)[i] == a[i];
    assert forall i | |a| <= i < |a + b| :: (a + b)[i] == b[i - |a|];
  }

  /** A string without stars is left alone. */
  lemma ReplaceStarsFixed(s: string)
    requires NoStars(s)
    ensures ReplaceStars(s) == s
  {
  }

  /** The backtick-free text with bullets in place of stars. */
  function NormalizeSymbols(s: string): (r: string)
    ensures '`' !in r && NoStars(r)
    ensures |r| <= |s|
  {
    ReplaceStars(Without(s, '`'))
  }

  /** Normalising twice is normalising once. */
  lemma NormalizeSymbolsIdempotent(s: string)
    ensures NormalizeSymbols(NormalizeSymbols(s)) == NormalizeSymbols(s)
  {
    var r := NormalizeSymbols(s);
    WithoutAbsent(r, '`');
    ReplaceStarsFixed(r);
  }

  /** Exactly the strings without backticks and stars are left unchanged. */
  lemma NormalizeSymbolsFixedIff(s: string)
    ensures NormalizeSymbols(s) == s <==> '`' !in s && NoStars(s)
  {
    if '`' !in s && NoStars(s) {
      WithoutAbsent(s, '`');
      ReplaceStarsFixed(s);
    }
  }

  /** Normalising distributes over concatenation. */
  lemma NormalizeSymbolsConcat(a: string, b: string)
    ensures NormalizeSymbols(a + b) == NormalizeSymbols(a) + NormalizeSymbols(b)
  {
    WithoutConcat(a, b, '`');
    ReplaceStarsConcat(Without(a, '`'), Without(b, '`'));
  }
}

=== FILE: table.dfy ===
/** Pipe tables: recognising the divider row, splitting rows into cells,
    cleaning cell text, and laying the table out as monospace text lines. */
module Table {
  import opened Wrappers
  import opened Text
  import opened Symbols
  import opened Emphasis
  import opened Content

  // ---------------------------------------------------------------------
  // Divider cells

  predicate AllHyphens(s: string) {
    forall i | 0 <= i < |s| :: s[i] == '-'
  }

  /** The cell pattern `^:?-{3,}:?$`. */
  predicate IsDividerCell(c: string) {
    var a := if |c| > 0 && c[0] == ':' then 1 else 0;
    var b := if |c| > a && c[|c| - 1] == ':' then 1 else 0;
    |c| - a - b >= 3 && AllHyphens(c[a..|c| - b])
  }

  /** The strings the divider pattern describes. */
  function DividerShape(a: nat, n: nat, b: nat): string {
    Repeat(':', a) + Repeat('-', n) + Repeat(':', b)
  }

  /** Every divider cell has the shape `:?-{3,}:?` ... */
  lemma DividerCellShape(c: string) returns (a: nat, n: nat, b: nat)
    requires IsDividerCell(c)
    ensures a <= 1 && b <= 1 && n >= 3 && c == DividerShape(a, n, b)
  {
    a := if |c| > 0 && c[0] == ':' then 1 else 0;
    b := if |c| > a && c[|c| - 1] == ':' then 1 else 0;
    n := |c| - a - b;
    assert c == c[..a] + c[a..|c| - b] + c[|c| - b..];
  }

  /** ... and every string of that shape is a divider cell. */
  lemma ShapeIsDividerCell(a: nat, n: nat, b: nat)
    requires a <= 1 && b <= 1 && n >= 3
    ensures IsDividerCell(DividerShape(a, n, b))
  {
    var c := DividerShape(a, n, b);
    assert c[a..|c| - b] == Repeat('-', n);
  }

  /** The alignment a divider cell asks for: `:-:` centres, `-:` aligns
      right, anything else aligns left. */
  function AlignmentOf(cell: string): (al: Align)
    ensures al != Justify
  {
    var hasLeft := |cell| > 0 && cell[0] == ':';
    var hasRight := |cell| > 0 && cell[|cell| - 1] == ':';
    if hasLeft && hasRight then Center else if hasRight then Right else Left
  }

  /** The divider cell a writer uses for an alignment. */
  function DividerFor(al: Align): string {
    match al
    case Center => ":---:"
    case Right => "---:"
    case _ => "---"
  }

  /** Reading back the divider written for an alignment gives that
      alignment. */
  lemma AlignmentOfDividerFor(al: Align)
    requires al != Justify
    ensures IsDividerCell(DividerFor(al)) && AlignmentOf(DividerFor(al)) == al
  {
    match al
    case Center => ShapeIsDividerCell(1, 3, 1);
    case Right => ShapeIsDividerCell(0, 3, 1);
    case Left => ShapeIsDividerCell(0, 3, 0);
  }

  // ---------------------------------------------------------------------
  // Rows and cells

  /** The pieces with an empty first and an empty last piece dropped. */
  function DropEmptyEnds(ps: seq<string>): (r: seq<string>)
    ensures |ps| >= 2 ==> |r| == |ps| - (if ps[0] == "" then 1 else 0) - (if ps[|ps| - 1] == "" then 1 else 0)
    ensures |ps| >= 2 ==> forall i | 0 < i < |ps| - 1 :: r[i - (if ps[0] == "" then 1 else 0)] == ps[i]
    ensures |ps| == 1 ==> r == (if ps[0] == "" then [] else ps)
  {
    var lo := if |ps| > 0 && ps[0] == "" then 1 else 0;
    var hi := if |ps| > 0 && ps[|ps| - 1] == "" then |ps| - 1 else |ps|;
    if lo <= hi then ps[lo..hi] else []
  }

  /** `splitTableRow`: the trimmed cells between pipes, without the empty
      cells a leading or trailing pipe produces. */
  function SplitRow(line: string): seq<string> {
    DropEmptyEnds(TrimAll(Split(Trim(line), '|')))
  }

  /** A markdown row with the given cells: `| a | b |`. */
  function FormatRow(cells: seq<string>): string {
    "| " + Join(cells, " | ") + " |"
  }

  predicate IsCellText(c: string) {
    Trim(c) == c && '|' !in c
  }

  /** Splitting a written row gives back its cells. */
  lemma SplitFormatRow(cells: seq<string>)
    requires |cells| >= 1
    requires forall i | 0 <= i < |cells| :: IsCellText(cells[i])
    ensures SplitRow(FormatRow(cells)) == cells
  {
    CellsOfFormatRow(cells);
    var t := [""] + cells + [""];
    assert DropEmptyEnds(t) == t[1..|t| - 1];
  }

  lemma PiecesOfFormatRow(cells: seq<string>)
    requires |cells| >= 1
    requires forall i | 0 <= i < |cells| :: IsCellText(cells[i])
    ensures Split(Trim(FormatRow(cells)), '|') == [""] + Framed(cells) + [""]
  {
    var pieces := [""] + Framed(cells) + [""];
    FormatRowAsPieces(cells);
    PiecesPipeFree(cells);
    SplitJoin(pieces, '|');
    var line := FormatRow(cells);
    assert line[0] == '|' && line[|line| - 1] == '|';
    TrimOfTrimmed(line);
  }

  lemma PiecesPipeFree(cells: seq<string>)
    requires forall i | 0 <= i < |cells| :: IsCellText(cells[i])
    ensures var pieces := [""] + Framed(cells) + [""];
      forall k | 0 <= k < |pieces| :: '|' !in pieces[k]
  {
    var pieces := [""] + Framed(cells) + [""];
    forall k | 0 <= k < |pieces| ensures '|' !in pieces[k] {
      if 0 < k < |pieces| - 1 {
        assert pieces[k] == " " + cells[k - 1] + " ";
      }
    }
  }

  /** Each cell with one space on either side. */
  function Framed(cells: seq<string>): (r: seq<string>)
    ensures |r| == |cells|
    ensures forall i | 0 <= i < |cells| :: r[i] == " " + cells[i] + " "
  {
    seq(|cells|, i requires 0 <= i < |cells| => " " + cells[i] + " ")
  }

  lemma FormatRowAsPieces(cells: seq<string>)
    requires |cells| >= 1
    ensures FormatRow(cells) == Join([""] + Framed(cells) + [""], "|")
  {
    var f := Framed(cells);
    JoinFramed(cells);
    var ps := [""] + f + [""];
    assert ps[0] == "" && ps[1..] == f + [""];
    calc {
      Join([""] + f + [""], "|");
      "" + "|" + Join(f + [""], "|");
      { JoinAppendEmpty(f); }
      "|" + Join(f, "|") + "|";
      "|" + (" " + Join(cells, " | ") + " ") + "|";
      FormatRow(cells);
    }
  }

  lemma {:induction false} JoinAppendEmpty(f: seq<string>)
    requires |f| >= 1
    ensures Join(f + [""], "|") == Join(f, "|") + "|"
    decreases |f|
  {
    if |f| == 1 {
      assert f + [""] == [f[0], ""];
    } else {
      assert (f + [""])[1..] == f[1..] + [""];
      JoinAppendEmpty(f[1..]);
    }
  }

  lemma {:induction false} JoinFramed(cells: seq<string>)
    requires |cells| >= 1
    ensures Join(Framed(cells), "|") == " " + Join(cells, " | ") + " "
    decreases |cells|
  {
    if |cells| > 1 {
      JoinFramed(cells[1..]);
      assert Framed(cells)[1..] == Framed(cells[1..]);
    }
  }

  /** The pieces that are not empty, in order. */
  function NonEmpty(ps: seq<string>): (r: seq<string>)
    ensures forall x | x in r :: x != "" && x in ps
    ensures forall x | x in ps && x != "" :: x in r
  {
    if |ps| == 0 then []
    else (if ps[0] == "" then [] else [ps[0]]) + NonEmpty(ps[1..])
  }

  /** The non-empty cells are at least one and all divider cells. */
  predicate DividerCells(cells: seq<string>) {
    var parts := NonEmpty(cells);
    |parts| > 0 && forall i | 0 <= i < |parts| :: IsDividerCell(parts[i])
  }

  /** `isTableDivider`: the trimmed line holds a pipe, and its non-empty
      trimmed cells are at least one and all divider cells. */
  predicate IsTableDivider(line: string) {
    var t := Trim(line);
    '|' in t && DividerCells(TrimAll(Split(t, '|')))
  }

  /** The divider test in terms of the cells themselves. */
  lemma DividerCellsIff(cells: seq<string>)
    ensures DividerCells(cells) <==>
      && (exists i | 0 <= i < |cells| :: cells[i] != "")
      && (forall i | 0 <= i < |cells| && cells[i] != "" :: IsDividerCell(cells[i]))
  {
    var parts := NonEmpty(cells);
    if exists i | 0 <= i < |cells| :: cells[i] != "" {
      var i :| 0 <= i < |cells| && cells[i] != "";
      assert cells[i] in parts;
    }
    if |parts| > 0 {
      assert parts[0] in cells;
    }
    if forall i | 0 <= i < |parts| :: IsDividerCell(parts[i]) {
      forall i | 0 <= i < |cells| && cells[i] != "" ensures IsDividerCell(cells[i]) {
        assert cells[i] in parts;
      }
    }
    if forall i | 0 <= i < |cells| && cells[i] != "" :: IsDividerCell(cells[i]) {
      forall i | 0 <= i < |parts| ensures IsDividerCell(parts[i]) {
        assert parts[i] in cells;
      }
    }
  }

  /** The divider cells a writer produces for some alignments. */
  function DividerCellsFor(aligns: seq<Align>): (ds: seq<string>)
    ensures |ds| == |aligns| && forall i | 0 <= i < |aligns| :: ds[i] == DividerFor(aligns[i])
  {
    seq(|aligns|, i requires 0 <= i < |aligns| => DividerFor(aligns[i]))
  }

  /** The divider row a writer produces for some alignments. */
  function DividerRow(aligns: seq<Align>): string {
    FormatRow(DividerCellsFor(aligns))
  }

  /** The trimmed cells of a written row, before the ends are dropped. */
  lemma CellsOfFormatRow(cells: seq<string>)
    requires |cells| >= 1
    requires forall i | 0 <= i < |cells| :: IsCellText(cells[i])
    ensures TrimAll(Split(Trim(FormatRow(cells)), '|')) == [""] + cells + [""]
  {
    PiecesOfFormatRow(cells);
    TrimFramed(cells);
  }

  lemma TrimFramed(cells: seq<string>)
    requires forall i | 0 <= i < |cells| :: IsCellText(cells[i])
    ensures TrimAll([""] + Framed(cells) + [""]) == [""] + cells + [""]
  {
    TrimAllConcat([""] + Framed(cells), [""]);
    TrimAllConcat([""], Framed(cells));
    TrimAllFramed(cells);
    TrimOfTrimmed("");
  }

  lemma TrimAllFramed(cells: seq<string>)
    requires forall i | 0 <= i < |cells| :: IsCellText(cells[i])
    ensures TrimAll(Framed(cells)) == cells
  {
    var t := TrimAll(Framed(cells));
    forall i | 0 <= i < |t| ensures t[i] == cells[i] {
      TrimFramedCell(cells[i]);
    }
  }

  lemma TrimFramedCell(c: string)
    requires IsCellText(c)
    ensures Trim(" " + c + " ") == c
  {
    TrimAround(" ", c, " ");
  }

  /** A written divider row is recognised as one, and its alignments read
      back as written. */
  lemma DividerRowRoundTrip(aligns: seq<Align>)
    requires |aligns| >= 1 && forall i | 0 <= i < |aligns| :: aligns[i] != Justify
    ensures IsTableDivider(DividerRow(aligns))
    ensures var cells := SplitRow(DividerRow(aligns));
      |cells| == |aligns| && forall i | 0 <= i < |aligns| :: AlignmentOf(cells[i]) == aligns[i]
  {
    var ds := DividerCellsFor(aligns);
    WrittenDividers(aligns);
    SplitFormatRow(ds);
    DividerRowRecognised(ds);
  }

  lemma WrittenDividers(aligns: seq<Align>)
    requires forall i | 0 <= i < |aligns| :: aligns[i] != Justify
    ensures var ds := DividerCellsFor(aligns);
      forall i | 0 <= i < |ds| :: IsCellText(ds[i]) && IsDividerCell(ds[i]) && AlignmentOf(ds[i]) == aligns[i]
  {
    var ds := DividerCellsFor(aligns);
    forall i | 0 <= i < |ds| ensures IsCellText(ds[i]) && IsDividerCell(ds[i]) && AlignmentOf(ds[i]) == aligns[i] {
      AlignmentOfDividerFor(aligns[i]);
      TrimOfTrimmed(ds[i]);
    }
  }

  lemma DividerRowRecognised(ds: seq<string>)
    requires |ds| >= 1 && forall i | 0 <= i < |ds| :: IsCellText(ds[i]) && IsDividerCell(ds[i])
    ensures IsTableDivider(FormatRow(ds))
  {
    CellsOfFormatRow(ds);
    WrittenDividerCells(ds);
    var line := FormatRow(ds);
    TrimOfTrimmed(line);
    assert line[0] == '|';
  }

  lemma WrittenDividerCells(ds: seq<string>)
    requires |ds| >= 1 && forall i | 0 <= i < |ds| :: IsDividerCell(ds[i])
    ensures DividerCells([""] + ds + [""])
  {
    var cells := [""] + ds + [""];
    assert cells[1] == ds[0];
    assert ds[0] != "";
    forall i | 0 <= i < |cells| && cells[i] != "" ensures IsDividerCell(cells[i]) {
      assert 0 < i < |cells| - 1 && cells[i] == ds[i - 1];
    }
    DividerCellsIff(cells);
  }

  // ---------------------------------------------------------------------
  // Cell text

  /** `normalizeTableCell`: backticks dropped, `**x**` and then `*x*`
      unwrapped, stars replaced by bullets. */
  function NormalizeCell(c: string): (r: string)
    ensures '`' !in r && NoStars(r)
    ensures |r| <= |c|
  {
    var u := Unwrap(Unwrap(Without(c, '`'), 2), 1);
    ReplaceStarsChars(u);
    ReplaceStars(u)
  }

  /** Cells without emphasis stars are normalised like any other text. */
  lemma NormalizeCellStarFree(c: string)
    requires '*' !in c
    ensures NormalizeCell(c) == NormalizeSymbols(c)
  {
    var w := Without(c, '`');
    WithoutSubset(c, '`');
    UnwrapStarFree(w, 2);
    UnwrapStarFree(w, 1);
  }

  /** Apart from the emphasis stars it removes, a cell is normalised like any
      other text. */
  lemma NormalizeCellDropsOnlyStars(c: string)
    ensures Without(NormalizeCell(c), '*') == Without(NormalizeSymbols(c), '*')
  {
    var w := Without(c, '`');
    var u := Unwrap(Unwrap(w, 2), 1);
    UnwrapDropsOnlyStars(Unwrap(w, 2), 1);
    UnwrapDropsOnlyStars(w, 2);
    ReplaceStarsWithout(u);
    ReplaceStarsWithout(w);
  }

  // ---------------------------------------------------------------------
  // Padding

  /** How many of the `gap` padding spaces go before the text. */
  function LeadingPad(gap: nat, align: Align): (lp: nat)
    ensures lp <= gap
  {
    match align
    case Right => gap
    case Center => gap / 2
    case _ => 0
  }

  /** `padText`: the text padded with spaces to `width` characters, placed
      according to the alignment; text already that long is kept. */
  function PadText(text: string, width: nat, align: Align): (r: string)
    ensures |r| == if |text| >= width then |text| else width
    ensures var gap := if |text| >= width then 0 else width - |text|;
      var lp := LeadingPad(gap, align);
      r == Spaces(lp) + text + Spaces(gap - lp)
  {
    var length := |text|;
    if length >= width then
      assert Spaces(0) + text + Spaces(0) == text;
      text
    else
      var spaces := Spaces(width - length);
      if align == Right then spaces + text
      else if align == Center then
        var left := (width - length) / 2;
        Spaces(left) + text + Spaces(width - length - left)
      else text + spaces
  }

  /** Padding disappears when the cell is trimmed again. */
  lemma TrimPadText(text: string, width: nat, align: Align)
    ensures Trim(PadText(text, width, align)) == Trim(text)
  {
    var gap := if |text| >= width then 0 else width - |text|;
    var lp := LeadingPad(gap, align);
    var r := PadText(text, width, align);
    assert r == Spaces(lp) + text + Spaces(gap - lp);
    PaddedTrim(r, Spaces(lp), text, Spaces(gap - lp));
  }

  lemma PaddedTrim(r: string, w1: string, y: string, w2: string)
    requires r == w1 + y + w2
    requires w1 == Spaces(|w1|) && w2 == Spaces(|w2|)
    ensures Trim(r) == Trim(y)
  {
    SpacesAreSpace(|w1|);
    SpacesAreSpace(|w2|);
    TrimAround(w1, y, w2);
  }

  // ---------------------------------------------------------------------
  // Layout

  /** `row[c] ?? ''`. */
  function CellAt(row: seq<string>, c: nat): string {
    if c < |row| then row[c] else ""
  }

  /** `alignments[i] ?? 'left'`. */
  function AlignAt(aligns: seq<Align>, i: nat): Align {
    if i < |aligns| then aligns[i] else Left
  }

  /** A data row cut or filled to `n` normalised cells. */
  function NormalizeRow(row: seq<string>, n: nat): (r: seq<string>)
    ensures |r| == n
    ensures forall c | 0 <= c < n && c < |row| :: r[c] == NormalizeCell(row[c])
    ensures forall c | |row| <= c < n :: r[c] == ""
  {
    assert NormalizeCell("") == "" by {
      assert Without("", '`') == "";
    }
    seq(n, c requires 0 <= c < n => NormalizeCell(CellAt(row, c)))
  }

  predicate Rectangular(data: seq<seq<string>>, n: nat) {
    forall r | 0 <= r < |data| :: |data[r]| == n
  }

  /** The longest cell of column `c` over the data rows, or 0. */
  function MaxDataLength(data: seq<seq<string>>, c: nat): (m: nat)
    requires forall r | 0 <= r < |data| :: c < |data[r]|
    ensures forall r | 0 <= r < |data| :: |data[r][c]| <= m
    ensures m == 0 || exists r | 0 <= r < |data| :: |data[r][c]| == m
  {
    if |data| == 0 then 0
    else
      var rest := MaxDataLength(data[1..], c);
      assert forall r | 1 <= r < |data| :: data[r] == data[1..][r - 1];
      if |data[0][c]| >= rest then |data[0][c]| else rest
  }

  /** Column widths: the longest of the header cell and the column's data
      cells. */
  function ColumnWidths(header: seq<string>, data: seq<seq<string>>): (ws: seq<nat>)
    requires Rectangular(data, |header|)
    ensures |ws| == |header|
    ensures forall c | 0 <= c < |header| :: |header[c]| <= ws[c]
    ensures forall c, r | 0 <= c < |header| && 0 <= r < |data| :: |data[r][c]| <= ws[c]
    ensures forall c | 0 <= c < |header| ::
      ws[c] == |header[c]| || exists r | 0 <= r < |data| :: ws[c] == |data[r][c]|
  {
    seq(|header|, c requires 0 <= c < |header| =>
      var m := MaxDataLength(data, c);
      if |header[c]| >= m then |header[c]| else m)
  }

  function Sum(xs: seq<nat>): nat {
    if |xs| == 0 then 0 else xs[0] + Sum(xs[1..])
  }

  /** The cells of one line padded to their columns. */
  function PaddedCells(cells: seq<string>, widths: seq<nat>, aligns: seq<Align>): (ps: seq<string>)
    ensures |ps| == |cells|
    ensures forall i | 0 <= i < |cells| ::
      ps[i] == PadText(cells[i], if i < |widths| then widths[i] else |cells[i]|, AlignAt(aligns, i))
  {
    seq(|cells|, i requires 0 <= i < |cells| =>
      PadText(cells[i], if i < |widths| then widths[i] else |cells[i]|, AlignAt(aligns, i)))
  }

  /** One table line: the padded cells joined by ` | `. */
  function RenderLine(cells: seq<string>, widths: seq<nat>, aligns: seq<Align>): string {
    Join(PaddedCells(cells, widths, aligns), " | ")
  }

  /** The width of every line of a table with these column widths. */
  function LineWidth(widths: seq<nat>): int {
    Sum(widths) + (|widths| - 1) * 3
  }

  /** The rule under the header: at least three hyphens, else as wide as a
      line. */
  function Separator(widths: seq<nat>): (sep: string)
    ensures AllHyphens(sep)
    ensures |sep| >= 3 && (|sep| == 3 || |sep| == LineWidth(widths))
    ensures |sep| >= LineWidth(widths)
  {
    var n := LineWidth(widths);
    Repeat('-', if n > 3 then n else 3)
  }

  lemma {:induction false} PaddedLength(cells: seq<string>, widths: seq<nat>, aligns: seq<Align>)
    requires |cells| == |widths|
    requires forall i | 0 <= i < |cells| :: |cells[i]| <= widths[i]
    ensures TotalLength(PaddedCells(cells, widths, aligns)) == Sum(widths)
    decreases |cells|
  {
    if |cells| > 0 {
      var ps := PaddedCells(cells, widths, aligns);
      var aligns' := if |aligns| > 0 then aligns[1..] else [];
      PaddedLength(cells[1..], widths[1..], aligns');
      assert ps[1..] == PaddedCells(cells[1..], widths[1..], aligns');
    }
  }

  /** Every line of a table has the same width, the sum of the column
      widths plus three characters per column gap; a table without columns
      renders empty lines. */
  lemma RenderLineWidth(cells: seq<string>, widths: seq<nat>, aligns: seq<Align>)
    requires |cells| == |widths|
    requires forall i | 0 <= i < |cells| :: |cells[i]| <= widths[i]
    ensures |RenderLine(cells, widths, aligns)| == if |cells| == 0 then 0 else LineWidth(widths)
  {
    if |cells| > 0 {
      PaddedLength(cells, widths, aligns);
      JoinLength(PaddedCells(cells, widths, aligns), " | ");
    }
  }

  // ---------------------------------------------------------------------
  // The table block

  /** `lines[i] ?? ''`. */
  function LineAt(lines: seq<string>, i: nat): string {
    if i < |lines| then lines[i] else ""
  }

  /** A line that continues the table body: not blank, holding a pipe, and
      not itself a divider. */
  predicate IsRowLine(line: string) {
    var t := Trim(line);
    t != "" && '|' in t && !IsTableDivider(t)
  }

  /** Where the table body starting at `k` stops: the first line from `k` on
      that is not a row line, or the end of the input. */
  function RowsEnd(lines: seq<string>, k: nat): (e: nat)
    ensures k <= e && (k <= |lines| ==> e <= |lines|) && (k >= |lines| ==> e == k)
    decreases |lines| - k
  {
    if k >= |lines| then k
    else if !IsRowLine(lines[k]) then k
    else RowsEnd(lines, k + 1)
  }

  /** Every line the table body consumes is a row line, and the line it
      stops at, if any, is not. */
  lemma {:induction false} RowsEndRows(lines: seq<string>, k: nat)
    ensures forall i | k <= i < RowsEnd(lines, k) :: IsRowLine(lines[i])
    ensures RowsEnd(lines, k) < |lines| ==> !IsRowLine(lines[RowsEnd(lines, k)])
    decreases |lines| - k
  {
    var e := RowsEnd(lines, k);
    if k < |lines| && IsRowLine(lines[k]) {
      RowsEndRows(lines, k + 1);
      assert e == RowsEnd(lines, k + 1);
      forall i | k <= i < e ensures IsRowLine(lines[i]) {
        if i > k {
          assert k + 1 <= i < RowsEnd(lines, k + 1);
        }
      }
    } else {
      assert e == k;
    }
  }

  /** The table, laid out: header, alignments, normalised data rows and the
      column widths derived from them. */
  datatype Layout = Layout(header: seq<string>, aligns: seq<Align>, data: seq<seq<string>>, widths: seq<nat>)
  {
    ghost predicate Valid() {
      && Rectangular(data, |header|)
      && |widths| == |header|
      && (forall c | 0 <= c < |header| :: |header[c]| <= widths[c])
      && (forall c, r | 0 <= c < |header| && 0 <= r < |data| :: |data[r][c]| <= widths[c])
    }
  }

  /** The layout of a table from its split header, divider and body rows. */
  function MakeLayout(headerCells: seq<string>, dividerCells: seq<string>, rows: seq<seq<string>>): (m: Layout)
    ensures m.Valid()
    ensures |m.header| == |headerCells| && |m.data| == |rows| && |m.aligns| == |dividerCells|
    ensures forall c | 0 <= c < |headerCells| :: m.header[c] == NormalizeCell(headerCells[c])
    ensures forall r | 0 <= r < |rows| :: m.data[r] == NormalizeRow(rows[r], |headerCells|)
    ensures forall i | 0 <= i < |dividerCells| :: m.aligns[i] == AlignmentOf(dividerCells[i])
  {
    var n := |headerCells|;
    var header := seq(n, c requires 0 <= c < n => NormalizeCell(headerCells[c]));
    var data := seq(|rows|, r requires 0 <= r < |rows| => NormalizeRow(rows[r], n));
    var aligns := seq(|dividerCells|, i requires 0 <= i < |dividerCells| => AlignmentOf(dividerCells[i]));
    Layout(header, aligns, data, ColumnWidths(header, data))
  }

  /** The text run of one table line. */
  function TableLine(cells: seq<string>, m: Layout, bold: bool): Block {
    Text(Run(RenderLine(cells, m.widths, m.aligns) + "\n", TableStyle(bold)))
  }

  /** The blocks of a laid-out table: a line break, the bold header line,
      the separator, one line per data row, and a closing line break. */
  function RenderTable(m: Layout): (blocks: seq<Block>)
    ensures |blocks| == |m.data| + 4
    ensures blocks[0] == LineBreak && blocks[|blocks| - 1] == LineBreak
    ensures blocks[1] == TableLine(m.header, m, true)
    ensures blocks[2] == Text(Run(Separator(m.widths) + "\n", TableStyle(false)))
    ensures forall r | 0 <= r < |m.data| :: blocks[3 + r] == TableLine(m.data[r], m, false)
  {
    [LineBreak, TableLine(m.header, m, true), Text(Run(Separator(m.widths) + "\n", TableStyle(false)))]
    + seq(|m.data|, r requires 0 <= r < |m.data| => TableLine(m.data[r], m, false))
    + [LineBreak]
  }

  /** Every header and data line of a laid-out table is `LineWidth` wide. */
  lemma LayoutLinesAligned(m: Layout)
    requires m.Valid() && |m.header| >= 1
    ensures |RenderLine(m.header, m.widths, m.aligns)| == LineWidth(m.widths)
    ensures forall r | 0 <= r < |m.data| :: |RenderLine(m.data[r], m.widths, m.aligns)| == LineWidth(m.widths)
  {
    RenderLineWidth(m.header, m.widths, m.aligns);
    forall r | 0 <= r < |m.data| ensures |RenderLine(m.data[r], m.widths, m.aligns)| == LineWidth(m.widths) {
      RenderLineWidth(m.data[r], m.widths, m.aligns);
    }
  }

  datatype TableBlock = TableBlock(content: seq<Block>, next: nat)

  /** The split cells of each line. */
  function SplitRows(ls: seq<string>): (rows: seq<seq<string>>)
    ensures |rows| == |ls|
  {
    seq(|ls|, r requires 0 <= r < |ls| => SplitRow(ls[r]))
  }

  /** The layout of the table whose header is line `start`. */
  function TableLayoutAt(lines: seq<string>, start: nat): Layout {
    var next := RowsEnd(lines, start + 2);
    var body := if start + 2 <= |lines| then lines[start + 2..next] else [];
    MakeLayout(SplitRow(LineAt(lines, start)), SplitRow(LineAt(lines, start + 1)), SplitRows(body))
  }

  /** `parseTableBlock`: the table whose header is line `start` and whose
      divider is the next line, with the index of the first line after it. */
  function ParseTableBlock(lines: seq<string>, start: nat): (tb: TableBlock)
    ensures tb.next == RowsEnd(lines, start + 2)
    ensures |tb.content| == tb.next - start + 2
  {
    LayoutAtSize(lines, start);
    TableBlock(RenderTable(TableLayoutAt(lines, start)), RowsEnd(lines, start + 2))
  }

  /** What a parsed table block holds: every consumed body line becomes one
      regular table line of exactly as many normalised cells as the header
      has, after the bold header line and the separator; and when the header
      has cells, all these lines are equally wide. */
  lemma ParseTableBlockRows(lines: seq<string>, start: nat)
    requires start + 1 < |lines|
    ensures var tb := ParseTableBlock(lines, start);
      var m := TableLayoutAt(lines, start);
      var n := |SplitRow(lines[start])|;
      && tb.content[0] == LineBreak && tb.content[|tb.content| - 1] == LineBreak
      && tb.content[1] == Text(Run(RenderLine(m.header, m.widths, m.aligns) + "\n", TableStyle(true)))
      && tb.content[2] == Text(Run(Separator(m.widths) + "\n", TableStyle(false)))
      && (forall c | 0 <= c < n :: m.header[c] == NormalizeCell(SplitRow(lines[start])[c]))
      && (forall r | 0 <= r < tb.next - start - 2 ::
            && m.data[r] == NormalizeRow(SplitRow(lines[start + 2 + r]), n)
            && tb.content[3 + r] == Text(Run(RenderLine(m.data[r], m.widths, m.aligns) + "\n", TableStyle(false))))
      && (n >= 1 ==>
            && |RenderLine(m.header, m.widths, m.aligns)| == LineWidth(m.widths)
            && forall r | 0 <= r < |m.data| :: |RenderLine(m.data[r], m.widths, m.aligns)| == LineWidth(m.widths))
  {
    var m := TableLayoutAt(lines, start);
    assert ParseTableBlock(lines, start).content == RenderTable(m);
    LayoutAtHeader(lines, start);
    LayoutAtData(lines, start);
    if |SplitRow(lines[start])| >= 1 {
      LayoutLinesAligned(m);
    }
  }

  /** The layout at `start` holds the normalised header cells of line
      `start`. */
  lemma LayoutAtHeader(lines: seq<string>, start: nat)
    requires start + 1 < |lines|
    ensures var m := TableLayoutAt(lines, start);
      forall c | 0 <= c < |SplitRow(lines[start])| :: m.header[c] == NormalizeCell(SplitRow(lines[start])[c])
  {
    LayoutAtIs(lines, start);
  }

  /** The layout at `start` holds one normalised data row per consumed body
      line. */
  lemma LayoutAtData(lines: seq<string>, start: nat)
    requires start + 1 < |lines|
    ensures var m := TableLayoutAt(lines, start);
      && |m.data| == RowsEnd(lines, start + 2) - start - 2
      && forall r | 0 <= r < |m.data| :: m.data[r] == NormalizeRow(SplitRow(lines[start + 2 + r]), |SplitRow(lines[start])|)
  {
    LayoutAtIs(lines, start);
    SliceRows(SplitRow(lines[start]), SplitRow(lines[start + 1]), lines, start + 2, RowsEnd(lines, start + 2));
  }

  /** The layout at `start` has one data row per consumed body line. */
  lemma LayoutAtSize(lines: seq<string>, start: nat)
    ensures |TableLayoutAt(lines, start).data| == RowsEnd(lines, start + 2) - start - 2
  {
    var e := RowsEnd(lines, start + 2);
    if start + 2 <= |lines| {
      assert |lines[start + 2..e]| == e - start - 2;
    } else {
      assert e == start + 2;
    }
  }

  lemma LayoutAtIs(lines: seq<string>, start: nat)
    requires start + 1 < |lines|
    ensures TableLayoutAt(lines, start)
      == MakeLayout(SplitRow(lines[start]), SplitRow(lines[start + 1]), SplitRows(lines[start + 2..RowsEnd(lines, start + 2)]))
  {
  }

  /** The data rows of a layout built from a slice of the lines are the
      normalised split lines at the shifted positions. */
  lemma SliceRows(hc: seq<string>, dc: seq<string>, lines: seq<string>, a: nat, e: nat)
    requires a <= e <= |lines|
    ensures var m := MakeLayout(hc, dc, SplitRows(lines[a..e]));
      && |m.data| == e - a
      && forall r | 0 <= r < e - a :: m.data[r] == NormalizeRow(SplitRow(lines[a + r]), |hc|)
  {
    var body := lines[a..e];
    var rows := SplitRows(body);
    var m := MakeLayout(hc, dc, rows);
    forall r | 0 <= r < e - a ensures m.data[r] == NormalizeRow(SplitRow(lines[a + r]), |hc|) {
      assert rows[r] == SplitRow(body[r]);
      assert body[r] == lines[a + r];
    }
  }
}

=== FILE: text.dfy ===
/** String primitives shared by every part of the model. Strings are sequences
    of Unicode code points; `trim`, `\s` and the regex `.` follow the
    ECMAScript character classes. */
module Text {

  /** The characters `String.prototype.trim` removes and the regex class `\s`
      matches: the ECMAScript WhiteSpace and LineTerminator productions. */
  predicate IsSpace(c: char) {
    || c == ' ' || c == '\t' || c == '\n' || c == '\r'
    || c == '\U{000B}' || c == '\U{000C}' || c == '\U{00A0}' || c == '\U{1680}'
    || ('\U{2000}' <= c <= '\U{200A}')
    || c == '\U{2028}' || c == '\U{2029}' || c == '\U{202F}' || c == '\U{205F}'
    || c == '\U{3000}' || c == '\U{FEFF}'
  }

  /** The characters the regex `.` does not match. */
  predicate IsLineTerminator(c: char) {
    c == '\n' || c == '\r' || c == '\U{2028}' || c == '\U{2029}'
  }

  predicate AllSpace(s: string) {
    forall i | 0 <= i < |s| :: IsSpace(s[i])
  }

  predicate NoLineTerminator(s: string) {
    forall i | 0 <= i < |s| :: !IsLineTerminator(s[i])
  }

  lemma AllSpaceConcat(a: string, b: string)
    requires AllSpace(a) && AllSpace(b)
    ensures AllSpace(a + b)
  {
    forall i | 0 <= i < |a + b| ensures IsSpace((a + b)[i]) {
      if i < |a| { assert (a + b)[i] == a[i]; } else { assert (a + b)[i] == b[i - |a|]; }
    }
  }

  // ---------------------------------------------------------------------
  // Trimming

  /** The first position at or after `i` that is not whitespace, or `|s|`. */
  function SkipSpaces(s: string, i: nat): (j: nat)
    requires i <= |s|
    ensures i <= j <= |s|
    ensures forall k | i <= k < j :: IsSpace(s[k])
    ensures j < |s| ==> !IsSpace(s[j])
    decreases |s| - i
  {
    if i < |s| && IsSpace(s[i]) then SkipSpaces(s, i + 1) else i
  }

  /** Where `s[lo..j]` ends once its trailing whitespace is dropped. */
  function BackSpaces(s: string, lo: nat, j: nat): (e: nat)
    requires lo <= j <= |s|
    ensures lo <= e <= j
    ensures forall k | e <= k < j :: IsSpace(s[k])
    ensures e > lo ==> !IsSpace(s[e - 1])
    decreases j
  {
    if j > lo && IsSpace(s[j - 1]) then BackSpaces(s, lo, j - 1) else j
  }

  /** `s` without its leading whitespace. */
  function TrimStart(s: string): (r: string)
    ensures |r| <= |s| && r == s[|s| - |r|..]
    ensures forall k | 0 <= k < |s| - |r| :: IsSpace(s[k])
    ensures r == [] || !IsSpace(r[0])
  {
    s[SkipSpaces(s, 0)..]
  }

  /** Any split into leading whitespace and a rest that does not start with
      whitespace is the one `trimStart` makes. */
  lemma TrimStartUnique(s: string, i: nat)
    requires i <= |s| && (forall k | 0 <= k < i :: IsSpace(s[k])) && (i == |s| || !IsSpace(s[i]))
    ensures TrimStart(s) == s[i..]
  {
  }

  /** `s` without its trailing whitespace (`trimEnd`). */
  function TrimEnd(s: string): (r: string)
    ensures |r| <= |s| && r == s[..|r|]
    ensures forall k | |r| <= k < |s| :: IsSpace(s[k])
    ensures r == [] || !IsSpace(r[|r| - 1])
  {
    s[..BackSpaces(s, 0, |s|)]
  }

  /** `s[i..j]` is what is left of `s` once whitespace is stripped from both
      ends: everything before `i` and from `j` on is whitespace, and the
      slice neither starts nor ends with whitespace. */
  predicate TrimmedAt(s: string, i: nat, j: nat) {
    && i <= j <= |s|
    && (forall k | 0 <= k < i :: IsSpace(s[k]))
    && (forall k | j <= k < |s| :: IsSpace(s[k]))
    && (i < j ==> !IsSpace(s[i]) && !IsSpace(s[j - 1]))
  }

  /** `s` without leading and trailing whitespace (`trim`). */
  function Trim(s: string): string
  {
    var i := SkipSpaces(s, 0);
    s[i..BackSpaces(s, i, |s|)]
  }

  /** Where the slice `trim` keeps begins and ends. */
  lemma TrimBounds(s: string) returns (i: nat, j: nat)
    ensures TrimmedAt(s, i, j) && Trim(s) == s[i..j]
  {
    i := SkipSpaces(s, 0);
    j := BackSpaces(s, i, |s|);
  }

  /** Any slice with the trimmed shape is the one `trim` keeps. */
  lemma TrimUnique(s: string, i: nat, j: nat)
    requires TrimmedAt(s, i, j)
    ensures Trim(s) == s[i..j]
  {
    var i', j' := TrimBounds(s);
    if i < j && i' < j' {
      assert i == i' && j == j';
    }
  }

  lemma TrimIdempotent(s: string)
    ensures Trim(Trim(s)) == Trim(s)
  {
    var r := Trim(s);
    var i, j := TrimBounds(s);
    assert TrimmedAt(r, 0, |r|);
    TrimUnique(r, 0, |r|);
  }

  /** Whitespace added around a string disappears under `trim`. */
  lemma TrimAround(w1: string, y: string, w2: string)
    requires AllSpace(w1) && AllSpace(w2)
    ensures Trim(w1 + y + w2) == Trim(y)
  {
    var i, j := TrimBounds(y);
    TrimmedAtAround(w1, y, w2, i, j);
    MiddleSlice(w1, y, w2, i, j);
    TrimUnique(w1 + y + w2, |w1| + i, |w1| + j);
  }

  lemma MiddleSlice(w1: string, y: string, w2: string, i: nat, j: nat)
    requires i <= j <= |y|
    ensures (w1 + y + w2)[|w1| + i..|w1| + j] == y[i..j]
  {
    assert w1 + y + w2 == w1 + (y + w2);
  }

  lemma TrimmedAtAround(w1: string, y: string, w2: string, i: nat, j: nat)
    requires AllSpace(w1) && AllSpace(w2) && TrimmedAt(y, i, j)
    ensures TrimmedAt(w1 + y + w2, |w1| + i, |w1| + j)
  {
    var s := w1 + y + w2;
    var n := |w1|;
    forall k | 0 <= k < n + i ensures IsSpace(s[k]) {
      if k < n { assert s[k] == w1[k]; } else { assert s[k] == y[k - n]; }
    }
    forall k | n + j <= k < |s| ensures IsSpace(s[k]) {
      if k < n + |y| { assert s[k] == y[k - n]; } else { assert s[k] == w2[k - n - |y|]; }
    }
    if i < j {
      assert s[n + i] == y[i] && s[n + j - 1] == y[j - 1];
    }
  }

  lemma TrimEmptyIff(s: string)
    ensures Trim(s) == [] <==> AllSpace(s)
  {
    var i, j := TrimBounds(s);
  }

  /** A string that neither starts nor ends with whitespace is its own trim. */
  lemma TrimOfTrimmed(s: string)
    requires s == [] || (!IsSpace(s[0]) && !IsSpace(s[|s| - 1]))
    ensures Trim(s) == s
  {
    TrimUnique(s, 0, |s|);
  }

  /** `trimEnd` and `trim` agree on lines that do not start with whitespace
      and on lines that are whitespace only. */
  lemma TrimEndIsTrim(s: string)
    requires s == [] || !IsSpace(s[0]) || AllSpace(s)
    ensures TrimEnd(s) == Trim(s)
  {
    if AllSpace(s) {
      TrimEmptyIff(s);
    }
  }

  // ---------------------------------------------------------------------
  // Splitting and joining

  /** The parts joined with `sep` in between (`Array.prototype.join`). */
  function Join(parts: seq<string>, sep: string): string
  {
    if |parts| == 0 then ""
    else if |parts| == 1 then parts[0]
    else parts[0] + sep + Join(parts[1..], sep)
  }

  /** The summed lengths of the parts. */
  function TotalLength(parts: seq<string>): nat {
    if |parts| == 0 then 0 else |parts[0]| + TotalLength(parts[1..])
  }

  /** A join is as long as its parts plus one separator between each two. */
  lemma {:induction false} JoinLength(parts: seq<string>, sep: string)
    requires |parts| >= 1
    ensures |Join(parts, sep)| == TotalLength(parts) + |sep| * (|parts| - 1)
    decreases |parts|
  {
    if |parts| > 1 {
      JoinLength(parts[1..], sep);
    }
  }

  /** `String.prototype.split` on a single character: the pieces between
      occurrences of `d`, including empty ones. */
  function Split(s: string, d: char): (parts: seq<string>)
    ensures |parts| >= 1
    ensures forall k | 0 <= k < |parts| :: d !in parts[k]
    decreases |s|
  {
    if |s| == 0 then [""]
    else
      var rest := Split(s[1..], d);
      if s[0] == d then [""] + rest
      else [[s[0]] + rest[0]] + rest[1..]
  }

  /** `join` undoes `split`. */
  lemma {:induction false} JoinSplit(s: string, d: char)
    ensures Join(Split(s, d), [d]) == s
    decreases |s|
  {
    if |s| > 0 {
      JoinSplit(s[1..], d);
      var rest := Split(s[1..], d);
      if s[0] == d {
        assert ([""] + rest)[1..] == rest;
      } else {
        var parts := [[s[0]] + rest[0]] + rest[1..];
        assert parts[1..] == rest[1..];
        if |rest| > 1 {
          assert Join(rest, [d]) == rest[0] + [d] + Join(rest[1..], [d]);
        }
      }
    }
  }

  /** One more piece than separators. */
  lemma {:induction false} SplitCount(s: string, d: char)
    ensures |Split(s, d)| == multiset(s)[d] + 1
    decreases |s|
  {
    if |s| > 0 {
      SplitCount(s[1..], d);
      assert s == [s[0]] + s[1..];
    }
  }

  lemma {:induction false} SplitNoSeparator(s: string, d: char)
    requires d !in s
    ensures Split(s, d) == [s]
    decreases |s|
  {
    if |s| > 0 {
      assert s[0] != d && d !in s[1..];
      SplitNoSeparator(s[1..], d);
      assert [s[0]] + s[1..] == s;
    }
  }

  /** Text before the first separator only lengthens the first piece. */
  lemma {:induction false} SplitPrefix(w: string, s: string, d: char)
    requires d !in w
    ensures Split(w + s, d) == [w + Split(s, d)[0]] + Split(s, d)[1..]
    decreases |w|
  {
    var p := Split(s, d);
    if w == [] {
      assert w + s == s;
      assert w + p[0] == p[0];
      assert p == [p[0]] + p[1..];
    } else {
      var ws := w + s;
      assert ws[0] == w[0] && ws[1..] == w[1..] + s;
      assert w[0] != d && d !in w[1..];
      assert Split(ws, d) == [[ws[0]] + Split(ws[1..], d)[0]] + Split(ws[1..], d)[1..];
      SplitPrefix(w[1..], s, d);
      assert [w[0]] + (w[1..] + p[0]) == w + p[0];
    }
  }

  /** Text after the last separator only lengthens the last piece. */
  lemma {:induction false} SplitSuffix(s: string, w: string, d: char)
    requires d !in w
    ensures var p := Split(s, d);
      Split(s + w, d) == p[..|p| - 1] + [p[|p| - 1] + w]
    decreases |s|
  {
    if s == [] {
      assert s + w == w;
      SplitNoSeparator(w, d);
    } else {
      var sw := s + w;
      assert sw[0] == s[0] && sw[1..] == s[1..] + w;
      SplitSuffix(s[1..], w, d);
      var p' := Split(s[1..], d);
      if s[0] == d {
        assert Split(sw, d) == [""] + Split(s[1..] + w, d);
        assert Split(s, d) == [""] + p';
        ExtendAfterEmpty(p', w);
      } else {
        var q' := Split(s[1..] + w, d);
        assert Split(sw, d) == [[s[0]] + q'[0]] + q'[1..];
        assert Split(s, d) == [[s[0]] + p'[0]] + p'[1..];
        ExtendAfterChar(s[0], p', w);
      }
    }
  }

  /** The last piece lengthened, for pieces behind an empty first one. */
  lemma ExtendAfterEmpty(p: seq<string>, w: string)
    requires |p| >= 1
    ensures var q := p[..|p| - 1] + [p[|p| - 1] + w];
            var e := [""] + p;
            [""] + q == e[..|e| - 1] + [e[|e| - 1] + w]
  {
  }

  /** The last piece lengthened, for pieces whose first one gains a
      character in front. */
  lemma ExtendAfterChar(c: char, p: seq<string>, w: string)
    requires |p| >= 1
    ensures var q := p[..|p| - 1] + [p[|p| - 1] + w];
            var e := [[c] + p[0]] + p[1..];
            [[c] + q[0]] + q[1..] == e[..|e| - 1] + [e[|e| - 1] + w]
  {
    var q := p[..|p| - 1] + [p[|p| - 1] + w];
    if |p| == 1 {
      assert q == [p[0] + w];
      assert [c] + (p[0] + w) == ([c] + p[0]) + w;
    } else {
      assert q[0] == p[0];
      assert q[1..] == p[1..|p| - 1] + [p[|p| - 1] + w];
    }
  }

  /** A separator cuts the string into the part before it and the pieces of
      the rest. */
  lemma SplitAtSeparator(p: string, q: string, d: char)
    requires d !in p
    ensures Split(p + [d] + q, d) == [p] + Split(q, d)
  {
    assert p + [d] + q == p + ([d] + q);
    SplitPrefix(p, [d] + q, d);
    var dq := [d] + q;
    assert dq[0] == d && dq[1..] == q;
    assert Split(dq, d) == [""] + Split(q, d);
    assert p + "" == p;
  }

  /** `split` undoes `join` when no part holds the separator. */
  lemma {:induction false} SplitJoin(parts: seq<string>, d: char)
    requires |parts| >= 1
    requires forall k | 0 <= k < |parts| :: d !in parts[k]
    ensures Split(Join(parts, [d]), d) == parts
    decreases |parts|
  {
    if |parts| == 1 {
      SplitNoSeparator(parts[0], d);
    } else {
      SplitJoin(parts[1..], d);
      SplitAtSeparator(parts[0], Join(parts[1..], [d]), d);
      assert parts == [parts[0]] + parts[1..];
    }
  }

  /** Every piece trimmed. */
  function TrimAll(xs: seq<string>): (ys: seq<string>)
    ensures |ys| == |xs|
    ensures forall k | 0 <= k < |xs| :: ys[k] == Trim(xs[k])
  {
    seq(|xs|, k requires 0 <= k < |xs| => Trim(xs[k]))
  }

  /** Text around a string without the separator only lengthens the first
      and last pieces. */
  lemma SplitAround(a: string, t: string, b: string, d: char)
    requires d !in a && d !in b
    ensures var p, y := Split(t, d), Split(a + t + b, d);
      && |y| == |p|
      && (|p| == 1 ==> y[0] == a + p[0] + b)
      && (|p| > 1 ==> y[0] == a + p[0] && y[|p| - 1] == p[|p| - 1] + b)
      && forall k | 0 < k < |p| - 1 :: y[k] == p[k]
  {
    var p := Split(t, d);
    SplitSuffix(t, b, d);
    assert a + t + b == a + (t + b);
    SplitPrefix(a, t + b, d);
    if |p| == 1 {
      assert a + (p[0] + b) == a + p[0] + b;
    }
  }

  lemma ThreePieces(s: string, i: nat, j: nat)
    requires i <= j <= |s|
    ensures s == s[..i] + s[i..j] + s[j..]
  {
    assert s[..j] == s[..i] + s[i..j];
  }

  /** A whitespace string holds no non-whitespace character. */
  lemma SpaceFree(a: string, d: char)
    requires AllSpace(a) && !IsSpace(d)
    ensures d !in a
  {
  }

  lemma TrimAllConcat(a: seq<string>, b: seq<string>)
    ensures TrimAll(a + b) == TrimAll(a) + TrimAll(b)
  {
  }

  /** Whitespace around a string changes none of its trimmed pieces. */
  lemma TrimAllSplitAround(a: string, t: string, b: string, d: char)
    requires AllSpace(a) && AllSpace(b) && !IsSpace(d)
    ensures TrimAll(Split(a + t + b, d)) == TrimAll(Split(t, d))
  {
    SpaceFree(a, d);
    SpaceFree(b, d);
    var p := Split(t, d);
    var y := Split(a + t + b, d);
    SplitAround(a, t, b, d);
    forall k | 0 <= k < |p| ensures Trim(y[k]) == Trim(p[k]) {
      TrimPieceAround(a, p, b, y, k);
    }
  }

  lemma TrimPieceAround(a: string, p: seq<string>, b: string, y: seq<string>, k: nat)
    requires AllSpace(a) && AllSpace(b) && |y| == |p| && k < |p|
    requires |p| == 1 ==> y[0] == a + p[0] + b
    requires |p| > 1 ==> y[0] == a + p[0] && y[|p| - 1] == p[|p| - 1] + b
    requires 0 < k < |p| - 1 ==> y[k] == p[k]
    ensures Trim(y[k]) == Trim(p[k])
  {
    if k == 0 && |p| == 1 {
      TrimAround(a, p[0], b);
    } else if k == 0 {
      assert y[0] == a + p[0] + [];
      TrimAround(a, p[0], []);
    } else if k == |p| - 1 {
      assert y[k] == [] + p[k] + b;
      TrimAround([], p[k], b);
    }
  }

  lemma TrimAllSplitTrim(s: string, d: char)
    requires !IsSpace(d)
    ensures TrimAll(Split(Trim(s), d)) == TrimAll(Split(s, d))
  {
    var i, j := TrimBounds(s);
    ThreePieces(s, i, j);
    TrimAllSplitAround(s[..i], s[i..j], s[j..], d);
  }

  // ---------------------------------------------------------------------
  // Prefixes, suffixes, repetition, case, characters

  predicate EndsWith(s: string, suffix: string) {
    |suffix| <= |s| && s[|s| - |suffix|..] == suffix
  }

  /** `String.prototype.includes`: `q` occurs in `s` as a contiguous piece. */
  predicate Includes(s: string, q: string)
    decreases |s|
  {
    q <= s || (|s| > 0 && Includes(s[1..], q))
  }

  function Repeat(c: char, n: nat): (r: string)
    ensures |r| == n && forall i | 0 <= i < n :: r[i] == c
  {
    seq(n, _ => c)
  }

  function Spaces(n: nat): string {
    Repeat(' ', n)
  }

  lemma SpacesAreSpace(n: nat)
    ensures AllSpace(Spaces(n))
  {
  }

  /** ASCII lower-casing of one character. */
  function LowerChar(c: char): char {
    if 'A' <= c <= 'Z' then (c as int + 32) as char else c
  }

  /** `toLowerCase`, restricted to the ASCII letters. */
  function ToLower(s: string): (r: string)
    ensures |r| == |s| && forall i | 0 <= i < |s| :: r[i] == LowerChar(s[i])
  {
    seq(|s|, i requires 0 <= i < |s| => LowerChar(s[i]))
  }

  /** `s` with every occurrence of `c` deleted. */
  function Without(s: string, c: char): (r: string)
    ensures c !in r
    ensures |r| <= |s|
    decreases |s|
  {
    if |s| == 0 then ""
    else (if s[0] == c then "" else [s[0]]) + Without(s[1..], c)
  }

  /** Deleting adds no character. */
  lemma {:induction false} WithoutSubset(s: string, c: char)
    ensures forall x | x in Without(s, c) :: x in s
    decreases |s|
  {
    if |s| > 0 {
      WithoutSubset(s[1..], c);
    }
  }

  /** Deleting a character that does not occur changes nothing. */
  lemma {:induction false} WithoutAbsent(s: string, c: char)
    requires c !in s
    ensures Without(s, c) == s
    decreases |s|
  {
    if |s| > 0 {
      assert c !in s[1..];
      WithoutAbsent(s[1..], c);
      assert s == [s[0]] + s[1..];
    }
  }

  lemma {:induction false} WithoutConcat(a: string, b: string, c: char)
    ensures Without(a + b, c) == Without(a, c) + Without(b, c)
    decreases |a|
  {
    if a != [] {
      var x, rest := a[0], a[1..];
      var h := if x == c then "" else [x];
      assert a == [x] + rest;
      assert a + b == [x] + (rest + b);
      WithoutConcat(rest, b, c);
      assert h + (Without(rest, c) + Without(b, c)) == (h + Without(rest, c)) + Without(b, c);
    } else {
      assert a + b == b;
    }
  }

  // ---------------------------------------------------------------------
  // Decimal numerals

  function DigitChar(d: nat): char
    requires d < 10
  {
    "0123456789"[d]
  }

  predicate IsDigit(c: char) {
    '0' <= c <= '9'
  }

  /** The decimal numeral of `n`, as `String(n)` writes it. */
  function NatToString(n: nat): (r: string)
    ensures |r| >= 1 && forall i | 0 <= i < |r| :: IsDigit(r[i])
    ensures r[0] == '0' ==> n == 0
    decreases n
  {
    if n < 10 then [DigitChar(n)] else NatToString(n / 10) + [DigitChar(n % 10)]
  }

  /** `String(i)` for an integral number. */
  function IntToString(i: int): string {
    if i < 0 then "-" + NatToString(-i) else NatToString(i)
  }

  /** The value of a string of decimal digits. */
  function DigitsValue(s: string): nat
    requires forall i | 0 <= i < |s| :: IsDigit(s[i])
  {
    if |s| == 0 then 0
    else
      var last := s[|s| - 1];
      assert IsDigit(last);
      DigitsValue(s[..|s| - 1]) * 10 + (last as int - '0' as int)
  }

  /** Reading back a numeral gives the number written. */
  lemma {:induction false} DigitsValueOfNatToString(n: nat)
    ensures DigitsValue(NatToString(n)) == n
    decreases n
  {
    if n >= 10 {
      DigitsValueOfNatToString(n / 10);
      var s := NatToString(n);
      assert s[..|s| - 1] == NatToString(n / 10);
    }
  }

  /** A key that names an array element: a numeral without leading zeros. */
  predicate IsCanonicalIndex(key: string) {
    && |key| >= 1
    && (forall i | 0 <= i < |key| :: IsDigit(key[i]))
    && NatToString(DigitsValue(key)) == key
  }
}

=== FILE: wrappers.dfy ===
/** Optional values and error-carrying results, used wherever the source
    writes `undefined`, `?? fallback` or throws. */
module Wrappers {

  /** A value that may be absent (`undefined` / `null` in the source). */
  datatype Option<+T> = None | Some(value: T) {

    /** The value, or `default` when absent: the source's `x ?? default`. */
    function GetOr(default: T): T {
      match this
      case Some(v) => v
      case None => default
    }
  }

  /** The outcome of an operation that may throw: a value or an error. */
  datatype Result<+T, +E> = Ok(value: T) | Err(error: E)
}
